=== FILE: README.md ===
# Fujisaki-model command estimation, modelled in Dafny

The estimator fits the Fujisaki model of an F0 contour with a hidden Markov model. Phrase and
accent commands are hidden in a hierarchical HMM. Each *big state* is a role in the command
sequence: BEGIN, END, one of three reset kinds, phrase or accent. Each big state unrolls into a
chain of *small states* whose length follows its duration distribution. Hard EM alternates three
steps:

- a Viterbi decoding over the small states, restricted to the cells reachable from a start and
  to an end;
- an amplitude update per big state;
- a local search that shifts accent commands in time.

The decoded path is read back as a list of Fujisaki commands. A separate evaluation scores an
estimated command list against a reference, and a compatibility tool turns per-frame amplitude
tracks into commands.

The Dafny modules follow the source's structure:

- `BigStates`, `Hmms`: the big state (a duration distribution plus an attribute) and the big-state
  graph with its builder operations and role count.
- `HmmFujisaki`: the role codes, `TransParams::regularize`, and the two topologies (loop and
  serialized).
- `SmallStates`: the expansion of the big-state graph into small states.
  - Forward links carry linear weights.
  - Backward lists are the inverse of the forward lists.
  - There is exactly one starting state and one ending state.
- `Reachability`: the reachable-cell grid, its initialisation, and the forward/backward sweep.
- `Emission`, `Viterbi`: the emission score and the decoder.
  - Candidates are selected by a tolerance rule.
  - The decoder has a fatal failure.
  - The path is recovered by backtracking.
  - With a zero tolerance the decoded path is optimal.
- `AmplitudeUpdate`: the hard update of the per-big-state phrase/accent amplitudes.
- `Commands`: extraction of commands from a decoded path.
- `Perturb`: the accent-command shift search.
- `Validation`: the error codes and the pre-EM checks.
- `Fujisaki`: commands, the onset order, the filter responses and sorting.
- `Evaluation`: the LCS-style coincidence evaluation.
- `Compatibility`: amplitude tracks to commands.
- `Util`: sums, counts and the real-arithmetic facts the other modules use.

Real numbers stand for the source's `double`s. `exp`, `log`, the distance between the
regenerated and the observed log-F0, and the external constraint's table enter as parameters.

## Model

| member | source | states |
|---|---|---|
| BigStates.CodeRoundTrip | src/hmm/hmm_fujisaki.hpp:16-25 | The seven role codes 0, 1, 10, 11, 12, 20, 30 decode back to their role; no other code decodes to a role, so the codes are distinct. |
| BigStates.MakeBigState | src/hmm/big_state.hpp:18-22 | A new big state has one small state per duration entry and keeps the duration vector and the attribute it was given. |
| BigStates.SetAttribute | src/hmm/big_state.hpp:24 | Re-tagging changes only the attribute; the duration vector, the small-state count and the count/length invariant are kept. |
| BigStates.DurationEntryIsSojournProb | src/hmm/big_state.hpp:36-38 | Entry i of the duration vector is the probability of staying exactly i+1 frames; stays of 0 frames or beyond the vector have probability 0. |
| Hmms.Initialize | src/hmm/hmm.cpp:6-10 | Both lists become empty; the counter and the initial and final indices are unchanged. |
| Hmms.NewHmm | src/hmm/hmm.hpp:25-28 | A new graph has no states, a zero counter, and initial and final index 0. |
| Hmms.AddState | src/hmm/hmm.cpp:13-19 | The state and its transition list are appended after the existing ones. The counter grows by one, the earlier entries and the initial and final indices stay, and validity is kept. |
| Hmms.SetInitialState | src/hmm/hmm.cpp:22-26 | The initial index is stored verbatim with no range check; everything else is unchanged. |
| Hmms.SetFinalState | src/hmm/hmm.cpp:29-33 | The final index is stored verbatim with no range check; everything else is unchanged. |
| Hmms.CountPrefixIsCardinality | src/hmm/hmm.cpp:54-62 | The role count over a prefix equals the size of the set of indices whose attribute is the key. |
| Hmms.CountByStateTypeBounded | src/hmm/hmm.cpp:54-62 | The role count never exceeds the number of big states. |
| Hmms.CountZeroIff | src/hmm/hmm.cpp:54-62 | The count is zero exactly when no big state has the key attribute. |
| Hmms.CountPrefixOfPrefix | src/hmm/hmm.cpp:54-62 | Counting over a longer prefix never gives less. |
| Hmms.CountAfterAdd | src/hmm/hmm.cpp:13-19 | Adding a state raises the count of its own attribute by one and leaves every other attribute's count unchanged. |
| Hmms.TargetsAfterAdd | src/hmm/hmm.cpp:13-19 | Adding a state whose transitions stay below a bound keeps every transition target of the graph below that bound. |
| Hmms.BuildRecordsInsertions | src/hmm/hmm.hpp:36-54 | After any sequence of additions, state i and transition list i are the i-th ones supplied, getBigStates lists them in order, and the counter equals the number of additions. |
| HmmFujisaki.Regularize | src/hmm/hmm_fujisaki.cpp:32-69 | When no duration entry is positive the vector is returned unchanged. Otherwise: entries before the first positive one are kept; later zeros get the regulariser; later non-zeros are scaled by 1 - factor; a tail of regulariser entries as long as the input is appended. The total probability mass is always preserved. |
| HmmFujisaki.FirstPositiveFrom | src/hmm/hmm_fujisaki.cpp:34-44 | The index found is the first strictly positive entry at or after i, or the length when there is none. |
| HmmFujisaki.ScanTail | src/hmm/hmm_fujisaki.cpp:47-54 | The second loop computes the mass from the first positive entry on, and a zero count that starts at the vector's length. |
| HmmFujisaki.Rescale | src/hmm/hmm_fujisaki.cpp:56-68 | The third loop plus the appended tail produce the regularised layout entry by entry. |
| HmmFujisaki.RegularizedEntries | src/hmm/hmm_fujisaki.cpp:56-68 | The rescaled layout reads entry-wise as Regularize promises. |
| HmmFujisaki.RegularizerBalance | src/hmm/hmm_fujisaki.cpp:47-54 | The regulariser's copies (one per zero after the first positive entry and one per tail entry) carry exactly the factor's share of the mass from that entry on. |
| HmmFujisaki.MassBalance | src/hmm/hmm_fujisaki.cpp:56-68 | Scaling by 1 - factor removes factor times the mass, and the regulariser copies give exactly that back. |
| HmmFujisaki.RegularizedMass | src/hmm/hmm_fujisaki.cpp:32-69 | Regularisation leaves the sum of the duration vector unchanged. |
| HmmFujisaki.RegularizeParams | src/hmm/hmm_fujisaki.cpp:32-69 | Regularising a parameter record changes only the accent durations; the reset and phrase durations and both reset weights are kept. |
| HmmFujisaki.MakeLoopFujisakiHmm | src/hmm/hmm_fujisaki.cpp:156-213 | A phrase branch count below 1 fails, and so does an accent branch count below 1, each with its own error. Otherwise the graph has 6 + P + A states: BEGIN at 0 is initial; END at 5 is final and has no transitions; there are P phrase and A accent states. Every phrase branch goes only to reset1. Every accent branch goes to reset0 and reset1 in the ratio ator0 : ator1, and to the closing margin. Every target is inside the graph. |
| HmmFujisaki.LoopHeadShape | src/hmm/hmm_fujisaki.cpp:181-197 | The six fixed states are valid, with BEGIN at 0 and END at 5, END without transitions. None of them is a phrase or accent state, and every target stays below the bound. |
| HmmFujisaki.AssembleLoop | src/hmm/hmm_fujisaki.cpp:181-211 | For positive branch counts the assembled graph has the loop shape and the branch links MakeLoopFujisakiHmm promises. |
| HmmFujisaki.MakeSerializedFujisakiHmm | src/hmm/hmm_fujisaki.cpp:72-153 | For n accent clusters the graph has the closed-form state count. BEGIN is first and initial. END is last and final, with no transitions. There are n·P phrase and n·A accent states, and every transition target is inside the graph. |
| HmmFujisaki.SerializedCounts | src/hmm/hmm_fujisaki.cpp:105-133 | The cluster-by-cluster counters of the builder reach the closed-form totals. |
| HmmFujisaki.SerializedHead | src/hmm/hmm_fujisaki.cpp:88-100 | The opening has P + 2 states, BEGIN first and initial, P phrase states and no accent state. Every target is below the bound. |
| HmmFujisaki.AddCluster | src/hmm/hmm_fujisaki.cpp:105-133 | One cluster appends A + P + 2 states and keeps the earlier ones and the initial and final indices. It raises the phrase count by P and the accent count by A, and keeps every target below the bound. |
| HmmFujisaki.SerializedTail | src/hmm/hmm_fujisaki.cpp:135-148 | The closing appends A + 3 states and keeps the earlier ones. END is the last state and has no transitions. The accent count grows by A and the phrase count is unchanged. |
| HmmFujisaki.CloseSerialized | src/hmm/hmm_fujisaki.cpp:135-151 | After the closing, the whole graph has the serialized shape: the closed-form count, BEGIN initial at 0, END final and last, n·P phrase and n·A accent states, and targets inside the graph. |
| SmallStates.NewSmallState | src/utilities/small_state.hpp:17-23 | The two-argument constructor keeps attribute and big-state index, with empty link lists and neither flag set. |
| SmallStates.LocateUnique | src/emestimation/em_estimation.cpp:75-84 | Every small-state index lies in exactly one big state's block of consecutive indices. |
| SmallStates.OutEdgesTargets | src/emestimation/em_estimation.cpp:99-125 | A non-last small state links only to its successor in the block. The last one links to small state j exactly when a transition of positive weight enters j's big state at j's offset with positive duration probability. |
| SmallStates.WeightMapLastWins | src/emestimation/em_estimation.cpp:119-120 | The stored weight of a link is the one written last, as the source's map assignment overwrites. |
| SmallStates.BuildBackward | src/emestimation/em_estimation.cpp:138-145 | Each backward list holds each source once per occurrence of the target in that source's forward list, with sources in increasing order. |
| SmallStates.BackwardIsInverse | src/emestimation/em_estimation.cpp:138-145 | i is in the backward list of j exactly when j is in the forward list of i. |
| SmallStates.PredsCount | src/emestimation/em_estimation.cpp:138-145 | Source i occurs in j's backward list exactly as often as j occurs in i's forward list. |
| SmallStates.PredsSorted | src/emestimation/em_estimation.cpp:138-145 | Backward lists are in nondecreasing source order. |
| SmallStates.LayOut | src/emestimation/em_estimation.cpp:91-129 | Every big state unrolls, in order, into a block of small states with its attribute and index and the prescribed forward links and weights. |
| SmallStates.InitSmallStates | src/emestimation/em_estimation.cpp:66-146 | One small state per duration entry, laid out big state by big state. Forward links are as prescribed and stay inside the expansion. Backward lists are their inverse. Only the first small state of the initial big state is starting, and only the last small state of the final big state is ending. |
| SmallStates.OneStartOneEnd | src/emestimation/em_estimation.cpp:131-136 | The set of starting small states, and likewise the set of ending ones, is a single index. |
| Reachability.ClearFirstFrame | src/emestimation/em_estimation.cpp:157-160 | Frame 0 keeps only the starting states; other frames are untouched. |
| Reachability.StartingStates | src/emestimation/em_estimation.cpp:162-181 | The starting points are exactly the starting states, in increasing order. |
| Reachability.PlaceEnds | src/emestimation/em_estimation.cpp:162-181 | The last frame keeps exactly the ending states, and they are listed as end points. |
| Reachability.InitReachable | src/emestimation/em_estimation.cpp:149-182 | Cell (f, i) is live exactly when (f > 0 or i is starting) and (f is not the last frame or i is ending). The starting points are the starting states in order; the end points list the live cells of the last frame. |
| Reachability.UpdateReachable | src/emestimation/em_estimation.cpp:185-237 | The in-place forward and backward sweeps compute the reference grid Swept, row by row; the starting points list frame 0's live cells and the end points the last frame's. |
| Reachability.ForwardRowStep | src/emestimation/em_estimation.cpp:191-208 | A cell of the new row stays live exactly when it was live and one of its backward links is live in the previous row. UpdateReachable uses this to rebuild the reference row FwdRow. |
| Reachability.BackwardRowStep | src/emestimation/em_estimation.cpp:211-228 | A backward-swept cell stays live exactly when it was live after the forward sweep and some forward link is live in the fully swept row after. |
| Reachability.OnlyClears | src/emestimation/em_estimation.cpp:185-228 | The update never revives a cell: each cell live afterwards was live before. |
| Reachability.SweptSupported | src/emestimation/em_estimation.cpp:185-228 | When the forward and backward lists are mutual inverses, every live cell after the update has a live backward link in the previous frame and a live forward link in the next one. |
| Reachability.Idempotent | src/emestimation/em_estimation.cpp:185-228 | When the forward and backward lists are mutual inverses, a second update leaves the grid unchanged. |
| Emission.PenaltySign | src/emestimation/em_estimation.hpp:78-85 | A squared-deviation term never rewards: it is at most 0, and with a positive inverse variance it is 0 exactly at the mean. |
| Emission.DefaultEmission | src/emestimation/em_estimation.hpp:78-85 | With non-negative inverse variances the default score is at most 0. With positive ones it is 0 exactly when both components sit at the owning big state's amplitudes. |
| Emission.SameBigStateSameEmission | src/emestimation/em_estimation.hpp:78-85 | Small states of the same big state get the same default emission at every frame. |
| Emission.EmissionLog | src/emestimation/em_estimation.hpp:73-76 | The decoder's emission is the default score plus the constraint term of the frame and small state. |
| Emission.ConstraintSeparatesSiblings | src/emestimation/em_estimation.hpp:73-85 | Two small states of the same big state differ in emission exactly by the difference of their constraint terms. |
| Viterbi.Select | src/emestimation/em_estimation.cpp:278-290 | The scan's pick is exactly the Incumbent rule's: the first eligible candidate is taken, and a later one displaces it only when it beats it by more than the magnitude of the incumbent's score times the tolerance factor. It finds a candidate exactly when one is eligible, and the pick is within the tolerance of every eligible candidate. |
| Viterbi.IncumbentFound | src/emestimation/em_estimation.cpp:279-290 | The rule has an incumbent after k candidates exactly when one of them is eligible. |
| Viterbi.IncumbentNearBest | src/emestimation/em_estimation.cpp:279-290 | No eligible candidate seen so far beats the incumbent by more than the tolerance, and every eligible candidate before it scores strictly lower. |
| Viterbi.ScanOrderDecides | src/emestimation/em_estimation.cpp:285 | Over scores [1, 1.5, 2.5] with tolerance factor 1 the rule picks position 2, although position 1 is also within the tolerance of every score: the pick depends on the scan order, not only on the scores. |
| Viterbi.ExactWhenZero | src/emestimation/em_estimation.cpp:285 | With a zero tolerance the pick is the first position of the exact maximum. |
| Viterbi.ViterbiCell | src/emestimation/em_estimation.cpp:274-296 | A reachable cell with a reachable backward link records the link that the Incumbent rule picks over the backward list in order, and scores that edge plus the emission. Any other cell keeps -inf and the sentinel n. |
| Viterbi.ViterbiRow | src/emestimation/em_estimation.cpp:274-296 | Every cell of the frame is as ViterbiCell states, using the previous frame's scores and reachability. |
| Viterbi.FirstRow | src/emestimation/em_estimation.cpp:269 | Frame 0 scores the starting points by their emission and every other state -inf. |
| Viterbi.ViterbiAlgorithm | src/emestimation/em_estimation.cpp:261-322 | Frame 0 scores the starting points, and every later row follows the cell recursion. Failure happens exactly when no ending state is reachable in the last frame. Otherwise the path has one reachable state per frame, joined by forward links, starting at a starting state and ending at an ending state. Each state is the recorded predecessor of the next. The last state is the one the Incumbent rule with a zero tolerance (strict comparison) picks among the reachable ending states. |
| Viterbi.SweptStartsAtStarts | src/emestimation/em_estimation.cpp:157-228 | The reachability update only clears cells, so frame 0 is still live at starting states only, as the decoder needs. |
| Viterbi.Backtrack | src/emestimation/em_estimation.cpp:318-319 | The backtracked path has one reachable state per frame and ends at the given last state; each state is the recorded predecessor of the next. |
| Viterbi.BacktrackLinked | src/emestimation/em_estimation.cpp:318-319 | Consecutive states of a backtracked path are linked forward. |
| Viterbi.DecodedScore | src/emestimation/em_estimation.cpp:272-319 | For any tolerance, the delta entry along the decoded path equals the path's own log-score up to that frame. |
| Viterbi.DeltaDominates | src/emestimation/em_estimation.cpp:272-297 | With a zero tolerance no path through reachable cells scores more up to frame f than delta records for its cell. |
| Viterbi.DecodedIsOptimal | src/emestimation/em_estimation.cpp:261-322 | With a zero tolerance the decoded path scores at least as much as any path through reachable cells that ends in a reachable ending state. |
| AmplitudeUpdate.Accumulate | src/emestimation/em_estimation.cpp:508-518 | Per big state, the numerator is the inverse variance times the sum of ux over the frames decoded into it with the given attribute; the denominator is the inverse variance once per such frame. |
| AmplitudeUpdate.MeanStepAsWritten | src/emestimation/em_estimation.cpp:520-526 | With the source's guard (both sums at least the threshold), the pass fails exactly when some state passes the guard with a zero denominator; otherwise passing states get num/den and the others keep their value. |
| AmplitudeUpdate.CUpdateHardAsWritten | src/emestimation/em_estimation.cpp:504-528 | The update as written divides by zero exactly when the threshold is at most 0 and some big state has no decoded frame (or the inverse variance is 0). When it does not, and the threshold is positive or the inverse variance non-negative, it gives exactly what CUpdateHard gives. |
| AmplitudeUpdate.UnusedStateDividesByZero | src/emestimation/em_estimation.cpp:520-526 | A concrete input (threshold 0, a big state with no decoded frame) passes the guard with both sums 0. |
| AmplitudeUpdate.CUpdateHard | src/emestimation/em_estimation.cpp:497-528 | With the corrected guard, a big state that is updated gets the plain mean of ux over its decoded frames. Every other amplitude is kept, in particular that of a big state with no decoded frame. |
| AmplitudeUpdate.MeanWithin | src/emestimation/em_estimation.cpp:504-528 | The new amplitude lies within any bounds on the amplitudes of the frames it averages. |
| AmplitudeUpdate.MeanCancel | src/emestimation/em_estimation.cpp:520-526 | The inverse variance cancels out of the weighted mean. |
| Commands.GetCommands | src/emestimation/em_estimation.cpp:639-710 | A path is read with the initial and final big states as sentinels. Extraction fails exactly when some change of big state enters a state of unknown role, and the error is the attribute of the state entered at the first such change. Otherwise the result is the reference extraction. |
| Commands.GetCommandsFrom | src/emestimation/em_estimation.cpp:653-705 | The one-pass sweep fails exactly at the first change into an unknown role, with that attribute. Otherwise it returns one command per kept phrase/accent run, in order. |
| Commands.CloseCommand | src/emestimation/em_estimation.cpp:655-669 | Closing sets offset = frame/fs and integrated amplitude = (offset - onset) times the closed state's amplitude C (Cp for a phrase state, Ca for an accent state). The command is dropped when C, not the integrated amplitude, is below the zero threshold in magnitude. |
| Commands.SweepFrame | src/emestimation/em_estimation.cpp:653-705 | One frame of the sweep keeps the invariant. A change closes the open command, then opens a phrase or accent command with onset frame/fs and the configured omega, or stops on an unknown role. |
| Commands.KeptFramesComplete | src/emestimation/em_estimation.cpp:663-668 | Every frame where a kept command starts is listed. |
| Commands.KeptFramesSound | src/emestimation/em_estimation.cpp:663-668 | Every listed frame starts a kept command. |
| Commands.ExtractedOpening | src/emestimation/em_estimation.cpp:683-705 | Command k starts at a change into a phrase or accent state, with onset frame/fs and the filter type of that state. |
| Commands.ExtractedClosed | src/emestimation/em_estimation.cpp:653-681 | Every closed command has onset < offset for a positive fs (offset < onset for a negative one) and integrated amplitude (offset - onset) times its state's amplitude C (Cp or Ca), and that C is at least the zero threshold in magnitude. That covers all commands but the last, and all of them when the final state is not a phrase or accent state. |
| Commands.ExtractedOrder | src/emestimation/em_estimation.cpp:639-710 | Each command ends no later than the next one starts for a positive fs. For a negative fs, whose times are negated, the next command's onset is at most this command's offset. |
| Perturb.Moved | src/emestimation/em_estimation.cpp:816-825 | Moving a block keeps every frame outside the old and the new block. |
| Perturb.ClearBlock | src/emestimation/em_estimation.cpp:839-843 | Every frame of the old block becomes the regulariser offset; every other frame is kept. |
| Perturb.CopyBlock | src/emestimation/em_estimation.cpp:844-848 | Frame k of the shifted block receives the old value of frame k - d; every other frame keeps its value. |
| Perturb.MoveBlock | src/emestimation/em_estimation.cpp:839-848 | The two loops clear the old block to the regulariser offset and then copy each old value to its shifted frame. |
| Perturb.BestShift | src/emestimation/em_estimation.cpp:796-833 | The search picks the first admissible shift of least distance, and only when that distance is strictly below the unmoved distance. Without an update, no admissible shift does better. |
| Perturb.Step | src/emestimation/em_estimation.cpp:788-849 | Phrase blocks are skipped. An accent block moves only by the first admissible shift of least distance in [-w, w], and only when that distance is strictly below the unmoved one. Both tracks then become Moved by that shift: the old frames get the regulariser offset and the shifted frames carry the old values. Otherwise both tracks are kept, and no admissible shift does better than the unmoved tracks. |
| Perturb.PerturbAsWritten | src/emestimation/em_estimation.cpp:784-852 | With the bounds taken from the unmoved list: there is a sequence of intermediate tracks along which search i did exactly what Step states for block i. The distance never grows, it drops strictly if anything moved, phrase blocks stay, and frames outside every block are kept. |
| Perturb.StaleBoundsAdmitOverlap | src/emestimation/em_estimation.cpp:793-794 | Two disjoint accent blocks can both move, each admissible against the stale bounds, and end up overlapping. The second shift is refused against the moved neighbour. |
| Perturb.Perturb | src/emestimation/em_estimation.cpp:784-852 | With bounds from the current neighbours: there is a sequence of intermediate tracks along which search i did what Step states against the list as it is when block i is reached. The same distance guarantees hold, blocks stay inside the frames, and disjoint blocks stay disjoint. |
| Perturb.ShiftKeepsOrder | src/emestimation/em_estimation.cpp:791-812 | A block moved within its current neighbours' bounds stays inside the frames and strictly between them. |
| Validation.FromCode | src/utilities/error_codes.hpp:6-27 | A code reads back only as the error that has it; codes outside the enumeration read as none. |
| Validation.CodeRoundTrip | src/utilities/error_codes.hpp:6-27 | Every error code reads back as its error, so no two errors share a code. |
| Validation.HasNegative | src/emestimation/em_estimation.cpp:615-618 | The scan reports a negative entry exactly when the distribution is not all non-negative. |
| Validation.FirstFailure | src/emestimation/em_estimation.cpp:562-637 | The reference verdict, NoError exactly when the estimator is valid. Through ValidateBeforeEm, which returns it, every other code is the first check group to fail in source order. |
| Validation.ValidateBeforeEm | src/emestimation/em_estimation.cpp:562-637 | The result is FirstFailure. NoError exactly when every check group passes. Each error code exactly when its group is the first, in source order, to fail: input sizes, HMM, config, transparam sizes, transparam values, phrase duration, consistency, solution. |
| Validation.Validate | src/emestimation/em_estimation.hpp:126 | The public check returns the same code as ValidateBeforeEm, FirstFailure of the estimator: NoError exactly when it is valid, otherwise the first failing group's code. |
| Validation.ValidateTwice | src/emestimation/em_estimation.hpp:126 | Validating one estimator twice, through either entry point, gives the same code. |
| Fujisaki.OnsetOrder | src/fujisaki/fujisaki.hpp:48-56 | Less is a strict weak order whose incomparable pairs are exactly the equal-onset pairs, and Greater is its converse. |
| Fujisaki.ImpulseResponse | src/fujisaki/fujisaki.hpp:21-25 | The impulse response omega^2 t e^(-omega t) is 0 for t <= 0, and non-negative for t > 0 whenever the exponential is positive. |
| Fujisaki.StepResponse | src/fujisaki/fujisaki.hpp:28-32 | The step response 1 - (1 + omega t) e^(-omega t) is causal: 0 for t <= 0. |
| Fujisaki.StepImpulseLink | src/fujisaki/fujisaki.hpp:21-32 | For t > 0, with E the shared exponential e^(-omega t), omega times (1 - step response - E) is the impulse response. |
| Fujisaki.StepBelowOne | src/fujisaki/fujisaki.hpp:28-32 | For t > 0, omega >= 0 and a positive exponential, the step response is below 1. |
| Fujisaki.SortByOnset | src/compatibility_tool/compatibility_tool.cpp:112 | Sorting by onset returns the same multiset of commands in nondecreasing onset order. |
| Fujisaki.OnsetBoundKept | src/compatibility_tool/compatibility_tool.cpp:112 | A lower bound on all onsets survives any rearrangement of the same commands. |
| Evaluation.CoOccurCheck | src/evaluation/evaluation.cpp:92-100 | The check gives 1 or 0, and 0 when the types differ. |
| Evaluation.CoOccurMeaning | src/evaluation/evaluation.cpp:92-100 | The check gives 1 exactly when the types agree and the onset plus offset differences total at most 2S + S·zeroThres. |
| Evaluation.CoOccurSymmetric | src/evaluation/evaluation.cpp:92-100 | Swapping reference and estimate does not change coincidence. |
| Evaluation.CoOccurReflexive | src/evaluation/evaluation.cpp:92-100 | With non-negative S and threshold, every command coincides with itself. |
| Evaluation.Matched | src/evaluation/evaluation.cpp:54-61 | The table of type t marks (i, j) exactly when reference i has type t and coincides with estimate j. |
| Evaluation.Coincidences | src/evaluation/evaluation.cpp:50-61 | The type-t matrix has one row per reference command and one column per estimated command, and entry (i, j) is 1 exactly when reference i has type t and coincides with estimate j, and 0 otherwise. |
| Evaluation.FillRow | src/evaluation/evaluation.cpp:66-76 | Row i + 1 of the table holds the reference value Best for every prefix of the estimate, given that row i does. |
| Evaluation.MatchTable | src/evaluation/evaluation.cpp:62-76 | Every row a of the DP table holds Best over the coincidence matrix for the first a reference commands and every prefix of the estimate. |
| Evaluation.MatchingBounded | src/evaluation/evaluation.cpp:66-76 | No in-order matching within the prefixes has more pairs than Best. Such a matching is a list of marked entries strictly increasing in both indices, so no command is used twice and no pairs cross. |
| Evaluation.MatchingAchieved | src/evaluation/evaluation.cpp:66-76 | For a 0/1 matrix, tracing the recurrence back yields an in-order matching within the prefixes. |
| Evaluation.TracedReachesBest | src/evaluation/evaluation.cpp:66-76 | That traced matching has exactly Best pairs. With MatchingBounded, the table value is the size of a largest in-order matching. |
| Evaluation.BestBounds | src/evaluation/evaluation.cpp:66-85 | Best over the coincidence matrix is non-negative and at most the number of type-t commands in either prefix. |
| Evaluation.BestSelf | src/evaluation/evaluation.cpp:14-89 | Matching a list against itself, with non-negative S and threshold, matches every command of every type. |
| Evaluation.EvaluateType | src/evaluation/evaluation.cpp:78-85 | For any onset-sorted rearrangements ref and est of the caller's lists: both totals count type t in the caller's lists, the matched count is Best over the coincidence matrix of ref and est and lies within the totals, and the time lag is S. |
| Evaluation.EvaluateByDP | src/evaluation/evaluation.cpp:14-89 | For any onset-sorted rearrangements ref and est of the caller's lists, there is one result per type, in order of first appearance in ref and then est, each as in EvaluateType. No type has two results, every command's type has one, and every result's type occurs in one of the lists. |
| Evaluation.TypesCover | src/evaluation/evaluation.cpp:26-41 | The type list has no duplicates, includes the type of every command in either list, and includes no other type. |
| Evaluation.CountTypePermutation | src/evaluation/evaluation.cpp:20-23 | Any rearrangement of a list keeps each type's count, so counting the sorted copies gives the counts of the caller's lists. |
| Evaluation.TieOrderMatters | src/evaluation/evaluation.cpp:20-23 | Two accents with equal onsets may come out of the sort in either order. Over the same estimate one order gives a matched count of 1 and the other 2. |
| Compatibility.MuxToCommands | src/compatibility_tool/compatibility_tool.cpp:117-162 | The scan with a zero sentinel gives the commands of the maximal runs of equal nonzero values, in frame order. |
| Compatibility.RunsExact | src/compatibility_tool/compatibility_tool.cpp:125-159 | The runs found are exactly the maximal runs of equal nonzero values. |
| Compatibility.RunsCover | src/compatibility_tool/compatibility_tool.cpp:125-159 | Every nonzero frame lies in a found run, and no zero frame does. |
| Compatibility.RunCommand | src/compatibility_tool/compatibility_tool.cpp:145-152 | A run's command has the given type and omega, with onset and offset equal to the run's frame bounds over fs. |
| Compatibility.RunCommandOfRun | src/compatibility_tool/compatibility_tool.cpp:147-150 | A maximal run's command starts before it ends for a positive fs (after, for a negative fs, since both times are negated), and its amplitude is the run's value times its length. |
| Compatibility.RawVectorToCommands | src/compatibility_tool/compatibility_tool.cpp:92-114 | Tracks of unequal length, or of length 0, fail with INPUT_VECTOR_SIZE_MISMATCH. Otherwise the result is sorted by onset and is exactly the phrase commands (omega 3) and the accent commands (omega 20) together. |
| Compatibility.ConvertedCommand | src/compatibility_tool/compatibility_tool.cpp:104-113 | Every converted command comes from a maximal run of its own track, with that track's omega. |

## Left out

- Probabilities are modelled as linear values. The expansion stores linear transition weights, and the decoder takes the log-transition and emission tables as parameters.
- `exp` in the filter responses and the distance used by the perturbation search are parameters too.
- `main.cpp`, JSON reading and writing, the timer, `rawDataFilesToInputData` and the compatibility tool's `main` are file and console I/O.
- The EM numerics are not modelled: `_initEmParameters`, `_initEmVariables`, `_updateLambda`, the `u` update, the log-F0 distance and the likelihood. They are floating-point linear algebra whose outcome the model takes as parameters.
- The external constraint (`external_constraint`) enters the emission only as the table `constraintProbLog`. Its construction is not part of this model.
- IEEE special values are not modelled. The model has no NaN and no infinities; `-inf` is the configured `config.inf` negated, as in the source.
- `exit(1)` calls become `Failure` results. These are the decoder with no reachable end and the extractor on an unknown role.
- Perturb: blocks are given in frames. The source rounds onset·fs and offset·fs back to frames; the model skips that rounding.
- Commands: a command still open when the path ends (the final state is a phrase or accent state) is left with offset 0 and amplitude 0, as in the source. ExtractedClosed therefore says nothing about it.
- Fujisaki.SortByOnset: the model sorts by insertion. `std::sort` is not stable, so only nondecreasing onsets and the same multiset are promised, not a particular order of equal onsets.
- Evaluation.EvaluateByDP, Evaluation.EvaluateType: `std::sort` may leave commands with equal onsets in any order, and the matched count can depend on that order (Evaluation.TieOrderMatters). The sorted copies are therefore parameters, constrained only to be onset-sorted rearrangements of the caller's lists. The results are promised for whichever copies the sort returns, not for one fixed tie order.
- Perturb.Perturb, Perturb.PerturbAsWritten: the `moved` out-parameter (where each block ended up) is not in the source, where only `up` and `ua` change. It records what the loop did.
- Reachability.PlaceEnds: the source collects the starting points inside the same pass. The model collects them in StartingStates, with the same list.
- HmmFujisaki.MakeSerializedFujisakiHmm: requires accentNum >= 1. The source loops up to the unsigned value accentNum - 1, which wraps around for 0. Also requires ator0 + ator1 != 0, the divisor of the accent exits.
- HmmFujisaki.MakeLoopFujisakiHmm: requires ator0 + ator1 != 0 when both branch counts are positive, for the same divisor.
- Fujisaki.StepResponse: causality, the bound below 1 (StepBelowOne) and the link to the impulse response (StepImpulseLink) are stated. The lower bound 0 needs 1 + x <= e^x, a fact about `exp` that the parameter does not carry.
- Fujisaki.ImpulseResponse: for the same reason, only causality and the sign are stated.
- Hmms.AddState: the source's boolean result is always true and is not modelled.
- AmplitudeUpdate.CUpdateHardAsWritten: its agreement with CUpdateHard is not stated for a negative inverse variance with a threshold at most 0. There a negative denominator can pass the guard. Validation rejects non-positive variances (src/emestimation/em_estimation.cpp:590-591), so in the source the inverse variance is positive.
- Commands.GetCommands, Commands.GetCommandsFrom, Commands.CloseCommand, Commands.SweepFrame: require fs != 0 (through ValidExtraction). The source divides frame numbers by fs unchecked (src/emestimation/em_estimation.cpp:661, 666, 688, 693). fs = 0 gives infinities or NaN there, and the model has no IEEE special values. A negative fs is modelled: its times are negated, and ExtractedClosed and ExtractedOrder state the flipped order.
- Compatibility.MuxToCommands, Compatibility.RawVectorToCommands, Compatibility.RunCommand: require fs != 0, for the same reason at src/compatibility_tool/compatibility_tool.cpp:147-148. A negative fs is modelled, and RunCommandOfRun states the flipped order.
- Reachability.InitReachable: requires at least one frame. Validation rejects fewer before decoding.
- Viterbi.DecodedIsOptimal, Viterbi.DeltaDominates: stated for a zero tolerance only. With a positive zero threshold the source may keep a slightly worse predecessor. For that case the model states the exact selection rule (Incumbent) and its tolerance bound, not optimality of the path.

## Findings

| source | as written | input that shows it | evidently intended | confidence | as-written member | corrected member |
|---|---|---|---|---|---|---|
| src/emestimation/em_estimation.cpp:520-526 | A big state's amplitude is updated whenever both weighted sums are at least the zero threshold. Validation allows a threshold of 0, so a big state with no decoded frame passes with 0 >= 0 and is set to 0/0. | zeroThreshold = 0; two phrase big states; one frame, decoded into big state 0. Big state 1 gets numerator 0 and denominator 0. | A big state no frame was decoded into keeps its amplitude; the update needs a positive denominator. | not executed; high (the division by a zero count is direct) | AmplitudeUpdate.CUpdateHardAsWritten, AmplitudeUpdate.UnusedStateDividesByZero | AmplitudeUpdate.CUpdateHard |
| src/emestimation/em_estimation.cpp:793-794 | The bounds for moving command i are read from the command list taken before the loop. Earlier commands have already moved by then, so the bounds are stale. | Accent blocks [10, 12) and [20, 22) over 30 frames, search width 6. The first block moves by +5 to [15, 17); the second, still bounded by the old end 12, moves by -6 to [14, 16). | Each shift stays clear of where its neighbours are now, so blocks never overlap. | not executed; medium (both shifts must each lower the distance) | Perturb.PerturbAsWritten, Perturb.StaleBoundsAdmitOverlap | Perturb.Perturb |

=== FILE: amplitude_update.dfy ===
/** The hard M-step update of the command amplitudes: the phrase (or accent) amplitude of every
    big state becomes the mean of the per-frame amplitudes decoded into that big state. */
module AmplitudeUpdate {
  import opened Util
  import opened SmallStates

  /** Frame f of the decoded path is in a small state with the given attribute owned by big
      state b. */
  predicate Hit(frames: seq<SmallState>, attribute: int, b: int, f: nat)
    requires f < |frames|
  {
    frames[f].attribute == attribute && frames[f].bigstateId == b
  }

  /** How many of the first m frames are hits of big state b. */
  function Hits(frames: seq<SmallState>, attribute: int, b: int, m: nat): nat
    requires m <= |frames|
  {
    if m == 0 then 0
    else Hits(frames, attribute, b, m - 1) + (if Hit(frames, attribute, b, m - 1) then 1 else 0)
  }

  /** The sum of ux over the hits of big state b among the first m frames. */
  function HitSum(frames: seq<SmallState>, ux: seq<real>, attribute: int, b: int, m: nat): real
    requires m <= |frames| <= |ux|
  {
    if m == 0 then 0.0
    else HitSum(frames, ux, attribute, b, m - 1) + (if Hit(frames, attribute, b, m - 1) then ux[m - 1] else 0.0)
  }

  lemma {:induction false} NoHitsNoSum(frames: seq<SmallState>, ux: seq<real>, attribute: int, b: int, m: nat)
    requires m <= |frames| <= |ux| && Hits(frames, attribute, b, m) == 0
    ensures HitSum(frames, ux, attribute, b, m) == 0.0
  {
    if m > 0 {
      NoHitsNoSum(frames, ux, attribute, b, m - 1);
    }
  }

  /** The update may index its sums by the big state of every frame with the attribute. */
  predicate Indexable(frames: seq<SmallState>, ux: seq<real>, attribute: int, n: nat)
  {
    |frames| <= |ux| &&
    forall f :: 0 <= f < |frames| && frames[f].attribute == attribute ==> 0 <= frames[f].bigstateId < n
  }

  /** The weighted numerator of big state b: its hit sum times the inverse variance. */
  function Numerator(frames: seq<SmallState>, ux: seq<real>, inv: real, attribute: int, b: int): real
    requires |frames| <= |ux|
  {
    Mul(HitSum(frames, ux, attribute, b, |frames|), inv)
  }

  /** The weighted denominator of big state b: one inverse variance per hit. */
  function Denominator(frames: seq<SmallState>, inv: real, attribute: int, b: int): real
  {
    Times(Hits(frames, attribute, b, |frames|), inv)
  }

  /** The first loop of the update: per big state, add ux[f] * inv to the numerator and inv to
      the denominator for every frame decoded into one of its small states with the attribute. */
  method Accumulate(frames: seq<SmallState>, ux: seq<real>, inv: real, attribute: int, n: nat)
      returns (num: seq<real>, den: seq<real>)
    requires Indexable(frames, ux, attribute, n)
    ensures |num| == n && |den| == n
    ensures forall b :: 0 <= b < n ==>
              num[b] == Numerator(frames, ux, inv, attribute, b) && den[b] == Denominator(frames, inv, attribute, b)
  {
    num := seq(n, _ => 0.0);
    den := seq(n, _ => 0.0);
    MulSign(0.0, inv);
    var f := 0;
    while f < |frames|
      invariant 0 <= f <= |frames| && |num| == n && |den| == n
      invariant forall b :: 0 <= b < n ==>
                  num[b] == Mul(HitSum(frames, ux, attribute, b, f), inv) &&
                  den[b] == Times(Hits(frames, attribute, b, f), inv)
    {
      if frames[f].attribute == attribute {
        var b := frames[f].bigstateId;
        MulAdd(HitSum(frames, ux, attribute, b, f), ux[f], inv);
        num := num[b := num[b] + Mul(ux[f], inv)];
        den := den[b := den[b] + inv];
      }
      f := f + 1;
    }
  }

  /** The source's update guard: both sums reach the zero threshold. */
  predicate GuardAsWritten(num: real, den: real, zeroThreshold: real)
  {
    den >= zeroThreshold && num >= zeroThreshold
  }

  /** The second loop as the source writes it. A big state whose guard passes with a zero
      denominator is where the source computes 0 / 0 and stores NaN; it is reported as the
      failure. Otherwise amplitude b becomes num / den when the guard passes and is kept
      when it does not. */
  method MeanStepAsWritten(cx: seq<real>, num: seq<real>, den: seq<real>, zeroThreshold: real)
      returns (r: Result<seq<real>, nat>)
    requires |num| == |cx| && |den| == |cx|
    ensures r.Failure? <==> exists b :: 0 <= b < |cx| && GuardAsWritten(num[b], den[b], zeroThreshold) && den[b] == 0.0
    ensures r.Success? ==>
              (|r.value| == |cx| &&
               forall b :: 0 <= b < |cx| ==>
                 r.value[b] == if GuardAsWritten(num[b], den[b], zeroThreshold) then num[b] / den[b] else cx[b])
  {
    var out := cx;
    var b := 0;
    while b < |cx|
      invariant 0 <= b <= |cx| && |out| == |cx|
      invariant forall k :: 0 <= k < b ==> !(GuardAsWritten(num[k], den[k], zeroThreshold) && den[k] == 0.0)
      invariant forall k :: 0 <= k < b ==>
                  out[k] == if GuardAsWritten(num[k], den[k], zeroThreshold) then num[k] / den[k] else cx[k]
      invariant forall k :: b <= k < |cx| ==> out[k] == cx[k]
    {
      if GuardAsWritten(num[b], den[b], zeroThreshold) {
        if den[b] == 0.0 {
          return Failure(b);
        }
        out := out[b := num[b] / den[b]];
      }
      b := b + 1;
    }
    r := Success(out);
  }

  /** Big state b gets a zero denominator: no frame is decoded into it, or the inverse
      variance is 0. */
  predicate Unhit(frames: seq<SmallState>, inv: real, attribute: int, b: int)
  {
    Hits(frames, attribute, b, |frames|) == 0 || inv == 0.0
  }

  /** The update as written: it fails (stores NaN) exactly when the threshold is at most 0 and
      some big state has no hit frame, or when the inverse variance is 0 and there is any big
      state at all. */
  method CUpdateHardAsWritten(cx: seq<real>, frames: seq<SmallState>, ux: seq<real>, inv: real,
                              attribute: int, zeroThreshold: real)
      returns (r: Result<seq<real>, nat>)
    requires Indexable(frames, ux, attribute, |cx|)
    ensures r.Failure? <==> zeroThreshold <= 0.0 && exists b :: 0 <= b < |cx| && Unhit(frames, inv, attribute, b)
    ensures r.Success? && (zeroThreshold > 0.0 || inv >= 0.0) ==>
              |r.value| == |cx| &&
              forall b :: 0 <= b < |cx| ==>
                r.value[b] == if Updated(frames, ux, inv, attribute, b, zeroThreshold) then Mean(frames, ux, attribute, b) else cx[b]
  {
    var num, den := Accumulate(frames, ux, inv, attribute, |cx|);
    r := MeanStepAsWritten(cx, num, den, zeroThreshold);
    forall b | 0 <= b < |cx|
      ensures den[b] == 0.0 <==> Hits(frames, attribute, b, |frames|) == 0 || inv == 0.0
      ensures den[b] == 0.0 ==> num[b] == 0.0
    {
      TimesSign(Hits(frames, attribute, b, |frames|), inv);
      if Hits(frames, attribute, b, |frames|) == 0 {
        NoHitsNoSum(frames, ux, attribute, b, |frames|);
      }
      MulSign(HitSum(frames, ux, attribute, b, |frames|), inv);
    }
    if zeroThreshold <= 0.0 && exists b :: 0 <= b < |cx| && Unhit(frames, inv, attribute, b) {
      var b :| 0 <= b < |cx| && Unhit(frames, inv, attribute, b);
      assert GuardAsWritten(num[b], den[b], zeroThreshold) && den[b] == 0.0;
    }
    if r.Failure? {
      var b :| 0 <= b < |cx| && GuardAsWritten(num[b], den[b], zeroThreshold) && den[b] == 0.0;
      assert Unhit(frames, inv, attribute, b);
      assert zeroThreshold <= 0.0;
    }
    if r.Success? && (zeroThreshold > 0.0 || inv >= 0.0) {
      forall b | 0 <= b < |cx|
        ensures r.value[b] == if Updated(frames, ux, inv, attribute, b, zeroThreshold) then Mean(frames, ux, attribute, b) else cx[b]
      {
        var h := Hits(frames, attribute, b, |frames|);
        TimesSign(h, inv);
        if h > 0 && inv > 0.0 {
          MeanCancel(HitSum(frames, ux, attribute, b, |frames|), h, inv);
        }
      }
    }

  }

  /** A concrete run of the failure: one frame decoded into a phrase state of big state 0, two
      big states, inverse variance 1 and threshold 0 (which validation accepts). Big state 1
      has no hit, both of its sums are 0, and the guard lets the 0 / 0 through. */
  lemma UnusedStateDividesByZero()
    ensures var frames := [SmallState(20, 0, [], [], true, true)];
            Hits(frames, 20, 1, 1) == 0 &&
            GuardAsWritten(Numerator(frames, [1.0], 1.0, 20, 1), Denominator(frames, 1.0, 20, 1), 0.0) &&
            Denominator(frames, 1.0, 20, 1) == 0.0
  {
    var frames := [SmallState(20, 0, [], [], true, true)];
    assert !Hit(frames, 20, 1, 0);
    MulSign(0.0, 1.0);
  }

  /** The intended guard: the source's, and a positive denominator, so that a big state no
      frame is decoded into keeps its amplitude. */
  predicate Guard(num: real, den: real, zeroThreshold: real)
  {
    den > 0.0 && GuardAsWritten(num, den, zeroThreshold)
  }

  /** The mean of ux over the frames decoded into big state b. */
  function Mean(frames: seq<SmallState>, ux: seq<real>, attribute: int, b: int): real
    requires |frames| <= |ux| && Hits(frames, attribute, b, |frames|) > 0
  {
    HitSum(frames, ux, attribute, b, |frames|) / (Hits(frames, attribute, b, |frames|) as real)
  }

  /** Big state b is updated: some frame is decoded into it, the inverse variance is positive
      and both weighted sums reach the threshold. */
  predicate Updated(frames: seq<SmallState>, ux: seq<real>, inv: real, attribute: int, b: int, zeroThreshold: real)
    requires |frames| <= |ux|
  {
    Hits(frames, attribute, b, |frames|) > 0 && inv > 0.0 &&
    GuardAsWritten(Numerator(frames, ux, inv, attribute, b), Denominator(frames, inv, attribute, b), zeroThreshold)
  }

  /** The inverse variance cancels out of the weighted mean. */
  lemma MeanCancel(sum: real, hits: nat, inv: real)
    requires hits > 0 && inv > 0.0
    ensures Times(hits, inv) > 0.0 && Mul(sum, inv) / Times(hits, inv) == sum / (hits as real)
  {
    TimesIsProduct(hits, inv);
    var h := hits as real;
    var q := sum / h;
    assert sum == q * h;
    assert Mul(sum, inv) == q * (h * inv);
    MulSign(h, inv);
    assert h * inv > 0.0;
  }

  /** The second loop with the intended guard. */
  method MeanStep(cx: seq<real>, num: seq<real>, den: seq<real>, zeroThreshold: real) returns (r: seq<real>)
    requires |num| == |cx| && |den| == |cx|
    ensures |r| == |cx|
    ensures forall b :: 0 <= b < |cx| ==> r[b] == if Guard(num[b], den[b], zeroThreshold) then num[b] / den[b] else cx[b]
  {
    r := cx;
    var b := 0;
    while b < |cx|
      invariant 0 <= b <= |cx| && |r| == |cx|
      invariant forall k :: 0 <= k < b ==> r[k] == if Guard(num[k], den[k], zeroThreshold) then num[k] / den[k] else cx[k]
      invariant forall k :: b <= k < |cx| ==> r[k] == cx[k]
    {
      if Guard(num[b], den[b], zeroThreshold) {
        r := r[b := num[b] / den[b]];
      }
      b := b + 1;
    }
  }

  /** The hard amplitude update with the intended guard: an updated big state's amplitude
      becomes the mean of ux over the frames decoded into it; every other amplitude, in
      particular that of a big state no frame is decoded into, is kept. */
  method CUpdateHard(cx: seq<real>, frames: seq<SmallState>, ux: seq<real>, inv: real,
                     attribute: int, zeroThreshold: real) returns (r: seq<real>)
    requires Indexable(frames, ux, attribute, |cx|)
    ensures |r| == |cx|
    ensures forall b :: 0 <= b < |cx| ==>
              r[b] == if Updated(frames, ux, inv, attribute, b, zeroThreshold) then Mean(frames, ux, attribute, b) else cx[b]
    ensures forall b :: 0 <= b < |cx| && Hits(frames, attribute, b, |frames|) == 0 ==> r[b] == cx[b]
  {
    var num, den := Accumulate(frames, ux, inv, attribute, |cx|);
    r := MeanStep(cx, num, den, zeroThreshold);
    forall b | 0 <= b < |cx|
      ensures r[b] == if Updated(frames, ux, inv, attribute, b, zeroThreshold) then Mean(frames, ux, attribute, b) else cx[b]
    {
      var h := Hits(frames, attribute, b, |frames|);
      TimesSign(h, inv);
      if h > 0 && inv > 0.0 {
        MeanCancel(HitSum(frames, ux, attribute, b, |frames|), h, inv);
      }
    }
  }

  lemma {:induction false} HitSumBounds(frames: seq<SmallState>, ux: seq<real>, attribute: int, b: int, m: nat,
                                        lo: real, hi: real)
    requires m <= |frames| <= |ux|
    requires forall f :: 0 <= f < m && Hit(frames, attribute, b, f) ==> lo <= ux[f] <= hi
    ensures Times(Hits(frames, attribute, b, m), lo) <= HitSum(frames, ux, attribute, b, m)
    ensures HitSum(frames, ux, attribute, b, m) <= Times(Hits(frames, attribute, b, m), hi)
  {
    if m > 0 {
      HitSumBounds(frames, ux, attribute, b, m - 1, lo, hi);
    }
  }

  /** The mean lies within any bounds on the amplitudes of the frames it averages, so an
      update never moves an amplitude outside the range of the decoded frames' amplitudes. */
  lemma MeanWithin(frames: seq<SmallState>, ux: seq<real>, attribute: int, b: int, lo: real, hi: real)
    requires |frames| <= |ux| && Hits(frames, attribute, b, |frames|) > 0
    requires forall f :: 0 <= f < |frames| && Hit(frames, attribute, b, f) ==> lo <= ux[f] <= hi
    ensures lo <= Mean(frames, ux, attribute, b) <= hi
  {
    var n := Hits(frames, attribute, b, |frames|);
    var h := n as real;
    HitSumBounds(frames, ux, attribute, b, |frames|, lo, hi);
    TimesIsProduct(n, lo);
    TimesIsProduct(n, hi);
    assert Times(n, lo) == Mul(h, lo) && Times(n, hi) == Mul(h, hi);
    DivMono(Mul(h, lo), HitSum(frames, ux, attribute, b, |frames|), h);
    DivMono(HitSum(frames, ux, attribute, b, |frames|), Mul(h, hi), h);
    MulDivCancel(lo, h);
    MulDivCancel(hi, h);
  }
}

=== FILE: big_state.dfy ===
/** Big states: coarse HMM states, each an attribute tag plus a duration distribution
    whose length is the number of frame-level small states the big state unrolls into. */
module BigStates {
  import opened Util

  /** The roles a big state can play in the Fujisaki topologies, with their integer codes. */
  datatype StateType = Begin | End | Reset0 | Reset1 | ResetOther | Phrase | Accent
  {
    function Code(): int
    {
      match this
      case Begin => 0
      case End => 1
      case Reset0 => 10
      case Reset1 => 11
      case ResetOther => 12
      case Phrase => 20
      case Accent => 30
    }
  }

  /** Decodes an attribute code; codes outside the enumeration have no role. */
  function TypeOfCode(code: int): Option<StateType>
  {
    if code == 0 then Some(Begin)
    else if code == 1 then Some(End)
    else if code == 10 then Some(Reset0)
    else if code == 11 then Some(Reset1)
    else if code == 12 then Some(ResetOther)
    else if code == 20 then Some(Phrase)
    else if code == 30 then Some(Accent)
    else None
  }

  /** Decoding undoes encoding, and decoding only succeeds on an encoding. */
  lemma CodeRoundTrip(t: StateType, code: int)
    ensures TypeOfCode(t.Code()) == Some(t)
    ensures TypeOfCode(code) == Some(t) ==> t.Code() == code
  {
  }

  /** A big state keeps its small-state count next to its duration vector, as the source does;
      Valid() is the invariant tying the two together. */
  datatype BigState = BigState(distDuration: seq<real>, numSmallStates: nat, attribute: int)
  {
    predicate Valid()
    {
      numSmallStates == |distDuration|
    }

    function SmallStateNum(): nat
    {
      numSmallStates
    }

    function DurationDist(): seq<real>
    {
      distDuration
    }
  }

  /** The constructor: one small state per entry of the duration vector. */
  function MakeBigState(duration: seq<real>, attribute: int): (b: BigState)
    ensures b.Valid()
    ensures b.SmallStateNum() == |duration|
    ensures b.DurationDist() == duration
    ensures b.attribute == attribute
  {
    BigState(duration, |duration|, attribute)
  }

  /** Re-tags a big state; its duration vector and small-state count are untouched. */
  function SetAttribute(b: BigState, attribute: int): (r: BigState)
    ensures r.attribute == attribute
    ensures r.DurationDist() == b.DurationDist()
    ensures r.SmallStateNum() == b.SmallStateNum()
    ensures b.Valid() ==> r.Valid()
  {
    b.(attribute := attribute)
  }

  /** Probability that the big state is occupied for exactly d frames:
      entry d-1 of the duration vector, and 0 for a sojourn the vector does not cover. */
  function DurationProb(b: BigState, d: nat): real
  {
    if 1 <= d <= |b.distDuration| then b.distDuration[d - 1] else 0.0
  }

  /** Entry i of the duration vector is the probability of a sojourn of i+1 frames. */
  lemma DurationEntryIsSojournProb(b: BigState, i: nat)
    requires i < |b.distDuration|
    ensures DurationProb(b, i + 1) == b.DurationDist()[i]
    ensures DurationProb(b, 0) == 0.0
    ensures DurationProb(b, |b.distDuration| + 1) == 0.0
  {
  }
}

=== FILE: commands.dfy ===
/** Turning the decoded path into Fujisaki commands: every maximal run of one phrase or accent
    big state becomes a command, whose amplitude is the run's length in seconds times the big
    state's command amplitude. */
module Commands {
  import opened Util
  import opened BigStates
  import opened Hmms
  import opened SmallStates
  import opened Fujisaki

  /** What command extraction reads. labels has one big-state index per position: position 0
      is the initial big state, position f + 1 the big state decoded for frame f, and the last
      position the final big state. attrs, cp and ca hold each big state's attribute and its
      phrase and accent amplitude. */
  datatype Extraction = Extraction(
    labels: seq<nat>,
    attrs: seq<int>,
    cp: seq<real>,
    ca: seq<real>,
    fs: real,
    alpha: real,
    beta: real,
    zeroThreshold: real)

  predicate ValidExtraction(x: Extraction)
  {
    |x.labels| >= 2 &&
    (forall k :: 0 <= k < |x.labels| ==> x.labels[k] < |x.attrs|) &&
    |x.cp| >= |x.attrs| && |x.ca| >= |x.attrs| &&
    x.fs != 0.0
  }

  /** The number of frames of the decoded path. */
  function Frames(x: Extraction): nat
    requires |x.labels| >= 2
  {
    |x.labels| - 2
  }

  /** The attribute of the big state at position k. */
  function Attr(x: Extraction, k: nat): int
    requires ValidExtraction(x) && k < |x.labels|
  {
    x.attrs[x.labels[k]]
  }

  predicate IsCommandAttr(a: int)
  {
    a == Phrase.Code() || a == Accent.Code()
  }

  predicate Known(a: int)
  {
    TypeOfCode(a).Some?
  }

  /** Frame i (0 <= i <= Frames) enters a new big state: the big state at frame i (or the
      final state when i == Frames) differs from the one before it. */
  predicate Change(x: Extraction, i: nat)
    requires ValidExtraction(x) && i <= Frames(x)
  {
    x.labels[i + 1] != x.labels[i]
  }

  /** The first change at or after frame j, or Frames + 1 when none follows. */
  function NextChange(x: Extraction, j: nat): (e: nat)
    requires ValidExtraction(x) && j <= Frames(x) + 1
    ensures j <= e <= Frames(x) + 1
    ensures e <= Frames(x) ==> Change(x, e)
    ensures forall k :: j <= k < e ==> !Change(x, k)
    decreases Frames(x) + 1 - j
  {
    if j > Frames(x) then j
    else if Change(x, j) then j
    else NextChange(x, j + 1)
  }

  /** A command starts at frame j: a change into a phrase or accent big state. */
  predicate Opening(x: Extraction, j: nat)
    requires ValidExtraction(x) && j <= Frames(x)
  {
    Change(x, j) && IsCommandAttr(Attr(x, j + 1))
  }

  /** The run entered at frame j ends at a later change; otherwise it lasts into the final
      state and its command is never closed. */
  predicate Closed(x: Extraction, j: nat)
    requires ValidExtraction(x) && j <= Frames(x)
  {
    NextChange(x, j + 1) <= Frames(x)
  }

  /** The command amplitude of the big state entered at frame j: its phrase amplitude for a
      phrase state, otherwise its accent amplitude. */
  function Amplitude(x: Extraction, j: nat): real
    requires ValidExtraction(x) && j <= Frames(x)
  {
    var b := x.labels[j + 1];
    if x.attrs[b] == Phrase.Code() then x.cp[b] else x.ca[b]
  }

  /** A closed command is dropped when its amplitude is below the zero threshold in
      magnitude; a command that is never closed is never dropped. */
  predicate Kept(x: Extraction, j: nat)
    requires ValidExtraction(x) && j <= Frames(x)
  {
    !Closed(x, j) || Abs(Amplitude(x, j)) >= x.zeroThreshold
  }

  /** The command as pushed when frame j enters a phrase or accent state: onset j / fs,
      offset and amplitude still 0, omega the configured alpha or beta. */
  function Pending(x: Extraction, j: nat): (c: FujisakiCommand)
    requires ValidExtraction(x) && j <= Frames(x)
    ensures c.onset == (j as real) / x.fs && c.offset == 0.0 && c.integratedAmplitude == 0.0
    ensures c.filtertype == CmdPhrase <==> Attr(x, j + 1) == Phrase.Code()
  {
    if Attr(x, j + 1) == Phrase.Code() then FujisakiCommand(CmdPhrase, (j as real) / x.fs, 0.0, 0.0, x.alpha)
    else FujisakiCommand(CmdAccent, (j as real) / x.fs, 0.0, 0.0, x.beta)
  }

  /** The command of the run entered at frame j once the path is done: closed at the next
      change with amplitude (offset - onset) times the state's amplitude, or left pending. */
  function CommandOf(x: Extraction, j: nat): (c: FujisakiCommand)
    requires ValidExtraction(x) && j <= Frames(x)
    ensures c.onset == (j as real) / x.fs
    ensures Closed(x, j) ==> c.offset == (NextChange(x, j + 1) as real) / x.fs
    ensures Closed(x, j) && x.fs > 0.0 ==> c.onset < c.offset
    ensures Closed(x, j) && x.fs < 0.0 ==> c.offset < c.onset
    ensures Closed(x, j) ==> c.integratedAmplitude == Mul(c.offset - c.onset, Amplitude(x, j))
    ensures !Closed(x, j) ==> c == Pending(x, j)
  {
    var p := Pending(x, j);
    if Closed(x, j) then
      var off := (NextChange(x, j + 1) as real) / x.fs;
      DivOrder(j as real, NextChange(x, j + 1) as real, x.fs);
      p.(offset := off, integratedAmplitude := Mul(off - p.onset, Amplitude(x, j)))
    else p
  }

  /** The frames before n at which a command starts and is kept, in increasing order. */
  function KeptFrames(x: Extraction, n: nat): (fr: seq<nat>)
    requires ValidExtraction(x) && n <= Frames(x) + 1
    ensures forall k :: 0 <= k < |fr| ==> fr[k] < n
  {
    if n == 0 then []
    else KeptFrames(x, n - 1) + (if Opening(x, n - 1) && Kept(x, n - 1) then [n - 1] else [])
  }

  /** Every kept frame is the start of a kept command. */
  lemma {:induction false} KeptFramesSound(x: Extraction, n: nat)
    requires ValidExtraction(x) && n <= Frames(x) + 1
    ensures forall k :: 0 <= k < |KeptFrames(x, n)| ==> Opening(x, KeptFrames(x, n)[k]) && Kept(x, KeptFrames(x, n)[k])
  {
    if n > 0 {
      KeptFramesSound(x, n - 1);
    }
  }

  /** The kept frames are listed in increasing order, so each at most once. */
  lemma {:induction false} KeptFramesIncreasing(x: Extraction, n: nat)
    requires ValidExtraction(x) && n <= Frames(x) + 1
    ensures forall k, l :: 0 <= k < l < |KeptFrames(x, n)| ==> KeptFrames(x, n)[k] < KeptFrames(x, n)[l]
  {
    if n > 0 {
      KeptFramesIncreasing(x, n - 1);
    }
  }

  /** Every frame before n where a kept command starts is listed. */
  lemma {:induction false} KeptFramesComplete(x: Extraction, n: nat)
    requires ValidExtraction(x) && n <= Frames(x) + 1
    ensures forall j :: 0 <= j < n && Opening(x, j) && Kept(x, j) ==> j in KeptFrames(x, n)
  {
    if n > 0 {
      KeptFramesComplete(x, n - 1);
      var fr := KeptFrames(x, n - 1);
      assert forall j :: j in fr ==> j in KeptFrames(x, n);
    }
  }

  function CommandsAt(x: Extraction, fr: seq<nat>): (r: seq<FujisakiCommand>)
    requires ValidExtraction(x) && forall k :: 0 <= k < |fr| ==> fr[k] <= Frames(x)
    ensures |r| == |fr|
    ensures forall k :: 0 <= k < |fr| ==> r[k] == CommandOf(x, fr[k])
  {
    seq(|fr|, k requires 0 <= k < |fr| => CommandOf(x, fr[k]))
  }

  /** The commands of a decoded path, in onset order: one per kept run of a phrase or accent
      big state. */
  function Extracted(x: Extraction): seq<FujisakiCommand>
    requires ValidExtraction(x)
  {
    CommandsAt(x, KeptFrames(x, Frames(x) + 1))
  }

  lemma CommandsAtAppend(x: Extraction, fr: seq<nat>, j: nat)
    requires ValidExtraction(x) && j <= Frames(x) && forall k :: 0 <= k < |fr| ==> fr[k] <= Frames(x)
    ensures CommandsAt(x, fr + [j]) == CommandsAt(x, fr) + [CommandOf(x, j)]
  {
  }

  /** No command starts in [a, b), so the kept frames before b are those before a. */
  lemma {:induction false} KeptFramesFlat(x: Extraction, a: nat, b: nat)
    requires ValidExtraction(x) && a <= b <= Frames(x) + 1
    requires forall k :: a <= k < b ==> !Change(x, k)
    ensures KeptFrames(x, b) == KeptFrames(x, a)
    decreases b - a
  {
    if a < b {
      KeptFramesFlat(x, a, b - 1);
    }
  }

  /** A change into a big state whose attribute is none of the known roles. */
  predicate BadChange(x: Extraction, i: nat)
    requires ValidExtraction(x) && i <= Frames(x)
  {
    Change(x, i) && !Known(Attr(x, i + 1))
  }

  /** The first change after p, when no change lies strictly between p and i but i is one. */
  lemma ChangeAt(x: Extraction, p: nat, i: nat)
    requires ValidExtraction(x) && p < i <= Frames(x) + 1
    requires forall k :: p < k < i ==> !Change(x, k)
    requires i <= Frames(x) ==> Change(x, i)
    ensures NextChange(x, p + 1) == i
  {
  }

  /** The run entered at the change p has lasted, with no further change, up to frame i: the
      kept frames up to i are those before p, plus p itself when its command is kept. */
  lemma {:induction false} RunSoFar(x: Extraction, p: nat, i: nat)
    requires ValidExtraction(x) && p < i <= Frames(x) + 1 && Opening(x, p)
    requires forall k :: p < k < i ==> !Change(x, k)
    ensures KeptFrames(x, i) == KeptFrames(x, p) + (if Kept(x, p) then [p] else [])
  {
    KeptFramesFlat(x, p + 1, i);
    assert Opening(x, p);
    assert KeptFrames(x, p + 1) == KeptFrames(x, p) + (if Opening(x, p) && Kept(x, p) then [p] else []);
  }

  /** Closes the command opened at the change p when the change at frame i ends its run:
      offset i / fs, amplitude (offset - onset) times the run's amplitude, and the command is
      dropped when that amplitude is below the zero threshold in magnitude. */
  method CloseCommand(x: Extraction, cmds: seq<FujisakiCommand>, ghost p: nat, i: nat)
      returns (r: seq<FujisakiCommand>)
    requires ValidExtraction(x) && p < i <= Frames(x) && Opening(x, p) && Change(x, i)
    requires forall k :: p < k < i ==> !Change(x, k)
    requires x.labels[i] == x.labels[p + 1]
    requires cmds == CommandsAt(x, KeptFrames(x, p)) + [Pending(x, p)]
    ensures r == CommandsAt(x, KeptFrames(x, i))
  {
    var before := x.labels[i];
    // A command is only ever open inside a phrase or accent run, so the old attribute is one
    // of those two.
    var amp := if x.attrs[before] == Phrase.Code() then x.cp[before] else x.ca[before];
    var off := (i as real) / x.fs;
    var last := cmds[|cmds| - 1];
    var closed := last.(offset := off, integratedAmplitude := Mul(off - last.onset, amp));
    ChangeAt(x, p, i);
    assert closed == CommandOf(x, p);
    RunSoFar(x, p, i);
    CommandsAtAppend(x, KeptFrames(x, p), p);
    r := cmds[..|cmds| - 1] + (if Abs(amp) < x.zeroThreshold then [] else [closed]);
  }

  /** The sweep's state before frame i: no bad change so far, p the last change (or -1) with
      no change since, a command open exactly when p entered a phrase or accent run, and the
      list holding the commands of the kept frames so far plus the open one. */
  predicate Swept(x: Extraction, i: nat, p: int, isOn: bool, cmds: seq<FujisakiCommand>)
    requires ValidExtraction(x)
  {
    i <= Frames(x) + 1 && -1 <= p < i &&
    (forall k :: 0 <= k < i ==> !BadChange(x, k)) &&
    (forall k :: p < k < i ==> !Change(x, k)) &&
    (p >= 0 ==> Change(x, p) && x.labels[i] == x.labels[p + 1]) &&
    (isOn <==> p >= 0 && IsCommandAttr(Attr(x, p + 1))) &&
    (isOn ==> cmds == CommandsAt(x, KeptFrames(x, p)) + [Pending(x, p)]) &&
    (!isOn ==> cmds == CommandsAt(x, KeptFrames(x, i)))
  }

  /** One frame of the sweep: on a change, close the open command, then open one if the new
      run is a phrase or accent run, or stop with the attribute if it is of no known role. */
  method SweepFrame(x: Extraction, i: nat, ghost p: int, isOn: bool, cmds: seq<FujisakiCommand>)
      returns (cmds2: seq<FujisakiCommand>, isOn2: bool, ghost p2: int, fail: Option<int>)
    requires ValidExtraction(x) && i <= Frames(x) && Swept(x, i, p, isOn, cmds)
    ensures fail.Some? ==> BadChange(x, i) && fail.value == Attr(x, i + 1)
    ensures fail.None? ==> Swept(x, i + 1, p2, isOn2, cmds2)
  {
    cmds2, isOn2, p2, fail := cmds, isOn, p, None;
    var before := x.labels[i];
    var current := x.labels[i + 1];
    if current != before {
      if isOn {
        cmds2 := CloseCommand(x, cmds, p, i);
        isOn2 := false;
      }
      var newattr := x.attrs[current];
      if newattr == Phrase.Code() {
        cmds2 := cmds2 + [FujisakiCommand(CmdPhrase, (i as real) / x.fs, 0.0, 0.0, x.alpha)];
        isOn2 := true;
      } else if newattr == Accent.Code() {
        cmds2 := cmds2 + [FujisakiCommand(CmdAccent, (i as real) / x.fs, 0.0, 0.0, x.beta)];
        isOn2 := true;
      } else if !Known(newattr) {
        fail := Some(newattr);
        assert BadChange(x, i);
        return;
      }
      p2 := i;
    }
  }

  /** Extraction as the decoder's post-processing performs it: one sweep over the frames and
      the final position, closing the open command at every change of big state and opening a
      new one when the change enters a phrase or accent state. A change into a big state whose
      attribute is none of the known roles is fatal; the attribute is reported. */
  method GetCommandsFrom(x: Extraction) returns (r: Result<seq<FujisakiCommand>, int>)
    requires ValidExtraction(x)
    ensures r.Failure? <==> exists i :: 0 <= i <= Frames(x) && BadChange(x, i)
    ensures r.Failure? ==> exists i :: 0 <= i <= Frames(x) && BadChange(x, i) && r.error == Attr(x, i + 1) &&
                                       forall k :: 0 <= k < i ==> !BadChange(x, k)
    ensures r.Success? ==> r.value == Extracted(x)
  {
    var cmds: seq<FujisakiCommand> := [];
    var isOn := false;
    ghost var p: int := -1;
    var i := 0;
    while i <= Frames(x)
      invariant Swept(x, i, p, isOn, cmds)
    {
      var fail;
      cmds, isOn, p, fail := SweepFrame(x, i, p, isOn, cmds);
      if fail.Some? {
        r := Failure(fail.value);
        return;
      }
      i := i + 1;
    }
    assert forall k :: 0 <= k <= Frames(x) ==> !BadChange(x, k);
    if isOn {
      ChangeAt(x, p, i);
      RunSoFar(x, p, i);
      CommandsAtAppend(x, KeptFrames(x, p), p);
    }
    r := Success(cmds);
  }

  /** Without a change in [a, b) the label at b is the label at a. */
  lemma {:induction false} SameLabel(x: Extraction, a: nat, b: nat)
    requires ValidExtraction(x) && a <= b <= Frames(x) + 1
    requires forall k :: a <= k < b ==> !Change(x, k)
    ensures x.labels[b] == x.labels[a]
    decreases b - a
  {
    if a < b {
      SameLabel(x, a, b - 1);
      assert !Change(x, b - 1);
    }
  }

  /** Command k of the extraction starts at the k-th kept frame j, in a phrase or accent state,
      with the filter type of that state. */
  lemma ExtractedOpening(x: Extraction, k: nat)
    requires ValidExtraction(x) && k < |Extracted(x)|
    ensures var j := KeptFrames(x, Frames(x) + 1)[k];
            var c := Extracted(x)[k];
            Opening(x, j) && c.onset == (j as real) / x.fs &&
            (c.filtertype == CmdPhrase <==> Attr(x, j + 1) == Phrase.Code())
  {
    KeptFramesSound(x, Frames(x) + 1);
    var j := KeptFrames(x, Frames(x) + 1)[k];
    assert Extracted(x)[k] == CommandOf(x, j);
  }

  /** Every command but the last is closed, with amplitude (offset - onset) times its state's
      amplitude, which is at least the zero threshold in magnitude; onset < offset for a
      positive fs, and the reverse for a negative one. When the final state is not a phrase or
      accent state, the last command is closed too. */
  lemma ExtractedClosed(x: Extraction, k: nat)
    requires ValidExtraction(x) && k < |Extracted(x)|
    requires k + 1 < |Extracted(x)| || !IsCommandAttr(Attr(x, Frames(x) + 1))
    ensures x.fs > 0.0 ==> Extracted(x)[k].onset < Extracted(x)[k].offset
    ensures x.fs < 0.0 ==> Extracted(x)[k].offset < Extracted(x)[k].onset
    ensures var j := KeptFrames(x, Frames(x) + 1)[k];
            var c := Extracted(x)[k];
            c.integratedAmplitude == Mul(c.offset - c.onset, Amplitude(x, j)) &&
            Abs(Amplitude(x, j)) >= x.zeroThreshold
  {
    var fr := KeptFrames(x, Frames(x) + 1);
    KeptFramesSound(x, Frames(x) + 1);
    var j := fr[k];
    if k + 1 < |fr| {
      KeptFramesIncreasing(x, Frames(x) + 1);
      LaterChangeCloses(x, j, fr[k + 1]);
    } else {
      FinalCloses(x, j);
    }
    assert Closed(x, j) && Kept(x, j);
    assert Extracted(x)[k] == CommandOf(x, j);
  }

  /** A run is closed by any later change. */
  lemma LaterChangeCloses(x: Extraction, j: nat, j': nat)
    requires ValidExtraction(x) && j < j' <= Frames(x) && Change(x, j')
    ensures Closed(x, j)
  {
  }

  /** A phrase or accent run is closed when the final state is neither. */
  lemma FinalCloses(x: Extraction, j: nat)
    requires ValidExtraction(x) && j <= Frames(x) && Opening(x, j)
    requires !IsCommandAttr(Attr(x, Frames(x) + 1))
    ensures Closed(x, j)
  {
    if !Closed(x, j) {
      SameLabel(x, j + 1, Frames(x) + 1);
      assert false;
    }
  }

  /** Each command ends no later, in frames, than the next one starts: in seconds that is the
      same order for a positive fs and the reverse for a negative one, whose times are negated. */
  lemma ExtractedOrder(x: Extraction, k: nat)
    requires ValidExtraction(x) && k + 1 < |Extracted(x)|
    ensures x.fs > 0.0 ==> Extracted(x)[k].offset <= Extracted(x)[k + 1].onset
    ensures x.fs < 0.0 ==> Extracted(x)[k + 1].onset <= Extracted(x)[k].offset
  {
    var fr := KeptFrames(x, Frames(x) + 1);
    KeptFramesSound(x, Frames(x) + 1);
    KeptFramesIncreasing(x, Frames(x) + 1);
    var j, j' := fr[k], fr[k + 1];
    assert Extracted(x)[k] == CommandOf(x, j) && Extracted(x)[k + 1] == CommandOf(x, j');
    assert Change(x, j');
    var e := NextChange(x, j + 1);
    assert e <= j';
    DivOrder(e as real, j' as real, x.fs);
  }

  /** The labels of a decoded path: the initial big state, the big state of each frame's small
      state, the final big state. */
  function PathLabels(h: Hmm, states: seq<SmallState>, s: seq<nat>): (labels: seq<nat>)
    requires forall f :: 0 <= f < |s| ==> s[f] < |states| && states[s[f]].bigstateId >= 0
    ensures |labels| == |s| + 2
    ensures labels[0] == h.initialBigstate && labels[|s| + 1] == h.finalBigstate
    ensures forall f :: 0 <= f < |s| ==> labels[f + 1] == states[s[f]].bigstateId
  {
    [h.initialBigstate] + seq(|s|, f requires 0 <= f < |s| => states[s[f]].bigstateId as nat) + [h.finalBigstate]
  }

  /** The source's signature: the hmm, the small states, the decoded path s and the phrase and
      accent amplitude of every big state, with the sampling rate and configured omegas and
      threshold. */
  method GetCommands(h: Hmm, states: seq<SmallState>, s: seq<nat>, cp: seq<real>, ca: seq<real>,
                     fs: real, alpha: real, beta: real, zeroThreshold: real)
      returns (r: Result<seq<FujisakiCommand>, int>)
    requires h.Valid() && h.initialBigstate < |h.bigstates| && h.finalBigstate < |h.bigstates|
    requires forall f :: 0 <= f < |s| ==> s[f] < |states| && 0 <= states[s[f]].bigstateId < |h.bigstates|
    requires |cp| >= |h.bigstates| && |ca| >= |h.bigstates| && fs != 0.0
    ensures var x := Extraction(PathLabels(h, states, s), seq(|h.bigstates|, b requires 0 <= b < |h.bigstates| => h.bigstates[b].attribute),
                                cp, ca, fs, alpha, beta, zeroThreshold);
            ValidExtraction(x) &&
            (r.Failure? <==> exists i :: 0 <= i <= |s| && BadChange(x, i)) &&
            (r.Failure? ==> exists i :: 0 <= i <= |s| && BadChange(x, i) && r.error == Attr(x, i + 1) &&
                                         forall k :: 0 <= k < i ==> !BadChange(x, k)) &&
            (r.Success? ==> r.value == Extracted(x))
  {
    var attrs := seq(|h.bigstates|, b requires 0 <= b < |h.bigstates| => h.bigstates[b].attribute);
    var x := Extraction(PathLabels(h, states, s), attrs, cp, ca, fs, alpha, beta, zeroThreshold);
    r := GetCommandsFrom(x);
  }
}

=== FILE: compatibility.dfy ===
/** Conversion of raw per-frame amplitude tracks into commands: every maximal run of equal
    nonzero values becomes one command spanning the run, carrying the run's summed amplitude. */
module Compatibility {
  import opened Util
  import opened Fujisaki
  import opened Validation

  /** A half-open range of frames [start, end). */
  datatype Run = Run(start: nat, end: nat)

  /** [s, e) is a maximal run of one nonzero value: non-empty, constant, and not extendable
      on either side. */
  predicate IsRun(mux: seq<real>, s: nat, e: nat)
  {
    s < e <= |mux| && mux[s] != 0.0 &&
    (forall j :: s <= j < e ==> mux[j] == mux[s]) &&
    (s == 0 || mux[s - 1] != mux[s]) &&
    (e == |mux| || mux[e] != mux[s])
  }

  /** The first frame of the constant run that contains frame k. */
  function RunStart(mux: seq<real>, k: nat): (s: nat)
    requires k < |mux|
    ensures s <= k && (s == 0 || mux[s - 1] != mux[s])
    ensures forall j :: s <= j <= k ==> mux[j] == mux[k]
  {
    if k == 0 || mux[k - 1] != mux[k] then k else RunStart(mux, k - 1)
  }

  /** One past the last frame of the constant run that contains frame k. */
  function RunEnd(mux: seq<real>, k: nat): (e: nat)
    requires k < |mux|
    ensures k < e <= |mux| && (e == |mux| || mux[e] != mux[k])
    ensures forall j :: k <= j < e ==> mux[j] == mux[k]
    decreases |mux| - k
  {
    if k + 1 == |mux| || mux[k + 1] != mux[k] then k + 1
    else
      var e := RunEnd(mux, k + 1);
      e
  }

  /** A nonzero run ends just before frame e. */
  predicate EndsAt(mux: seq<real>, e: nat)
    requires 0 < e <= |mux|
  {
    mux[e - 1] != 0.0 && (e == |mux| || mux[e] != mux[e - 1])
  }

  /** The nonzero runs that end at or before frame i, in the order they end. */
  function RunsUpTo(mux: seq<real>, i: nat): (r: seq<Run>)
    requires i <= |mux|
    ensures forall k :: 0 <= k < |r| ==> r[k].start < r[k].end <= i
  {
    if i == 0 then []
    else RunsUpTo(mux, i - 1) + (if EndsAt(mux, i) then [Run(RunStart(mux, i - 1), i)] else [])
  }

  function Runs(mux: seq<real>): seq<Run>
  {
    RunsUpTo(mux, |mux|)
  }

  /** Every listed run is a maximal nonzero run. */
  predicate AllRuns(mux: seq<real>, r: seq<Run>)
  {
    forall k :: 0 <= k < |r| ==> IsRun(mux, r[k].start, r[k].end)
  }

  /** Each run ends no later than the next one starts. */
  predicate InOrder(r: seq<Run>)
  {
    forall k :: 0 <= k < |r| - 1 ==> r[k].end <= r[k + 1].start
  }

  /** The runs up to i are maximal nonzero runs, listed in increasing frame order. */
  lemma {:induction false} RunsUpToShape(mux: seq<real>, i: nat)
    requires i <= |mux|
    ensures AllRuns(mux, RunsUpTo(mux, i)) && InOrder(RunsUpTo(mux, i))
  {
    if i > 0 {
      RunsUpToShape(mux, i - 1);
      var q := RunsUpTo(mux, i - 1);
      if EndsAt(mux, i) {
        var s := RunStart(mux, i - 1);
        assert RunsUpTo(mux, i) == q + [Run(s, i)];
        assert IsRun(mux, s, i);
        if |q| > 0 {
          RunsApart(mux, q[|q| - 1], s, i);
        }
        AppendRun(mux, q, Run(s, i));
      } else {
        assert RunsUpTo(mux, i) == q;
      }
    }
  }

  /** Two maximal runs, the first ending before the second does, do not overlap. */
  lemma RunsApart(mux: seq<real>, p: Run, s: nat, e: nat)
    requires IsRun(mux, p.start, p.end) && IsRun(mux, s, e) && p.end < e
    ensures p.end <= s
  {
    if s < p.end {
      // frame p.end lies in the second run, yet the value changes there
      assert false;
    }
  }

  /** Appending a maximal run that starts after the last listed one keeps the list in shape. */
  lemma AppendRun(mux: seq<real>, q: seq<Run>, run: Run)
    requires AllRuns(mux, q) && InOrder(q) && IsRun(mux, run.start, run.end)
    requires |q| > 0 ==> q[|q| - 1].end <= run.start
    ensures AllRuns(mux, q + [run]) && InOrder(q + [run])
  {
    var r := q + [run];
    assert forall k :: 0 <= k < |q| ==> r[k] == q[k];
  }

  /** A maximal run ending at or before i appears among the runs up to i. */
  lemma {:induction false} RunListed(mux: seq<real>, s: nat, e: nat, i: nat)
    requires IsRun(mux, s, e) && e <= i <= |mux|
    ensures Run(s, e) in RunsUpTo(mux, i)
  {
    if i == e {
      var s' := RunStart(mux, e - 1);
      if s' != s {
        assert false;
      }
      assert EndsAt(mux, e);
    } else {
      RunListed(mux, s, e, i - 1);
    }
  }

  /** The runs listed are exactly the maximal runs of equal nonzero values. */
  lemma RunsExact(mux: seq<real>, s: nat, e: nat)
    ensures Run(s, e) in Runs(mux) <==> IsRun(mux, s, e)
  {
    RunsUpToShape(mux, |mux|);
    var r := Runs(mux);
    if Run(s, e) in r {
      var k :| 0 <= k < |r| && r[k] == Run(s, e);
    }
    if IsRun(mux, s, e) {
      RunListed(mux, s, e, |mux|);
    }
  }

  /** Every nonzero frame lies in a maximal run, and no zero frame lies in any. */
  lemma RunsCover(mux: seq<real>, j: nat)
    requires j < |mux|
    ensures mux[j] != 0.0 ==>
              var run := Run(RunStart(mux, j), RunEnd(mux, j));
              run in Runs(mux) && run.start <= j < run.end
    ensures mux[j] == 0.0 ==> forall run :: run in Runs(mux) ==> !(run.start <= j < run.end)
  {
    var s, e := RunStart(mux, j), RunEnd(mux, j);
    if mux[j] != 0.0 {
      assert IsRun(mux, s, e);
      RunsExact(mux, s, e);
    } else {
      RunsUpToShape(mux, |mux|);
      ZeroUncovered(mux, Runs(mux), j);
    }
  }

  /** A zero frame lies in none of a list of maximal nonzero runs. */
  lemma ZeroUncovered(mux: seq<real>, r: seq<Run>, j: nat)
    requires j < |mux| && mux[j] == 0.0 && AllRuns(mux, r)
    ensures forall run :: run in r ==> !(run.start <= j < run.end)
  {
    forall run | run in r
      ensures !(run.start <= j < run.end)
    {
      var k :| 0 <= k < |r| && r[k] == run;
      assert IsRun(mux, run.start, run.end);
    }
  }

  /** The command a run becomes: onset and offset are the frame bounds over fs, the amplitude is
      the sum of the run's values. */
  function RunCommand(mux: seq<real>, run: Run, filtertype: FilterType, omega: real, fs: real)
      : (c: FujisakiCommand)
    requires run.start <= run.end <= |mux| && fs != 0.0
    ensures c.filtertype == filtertype && c.omega == omega
    ensures c.onset * fs == run.start as real && c.offset * fs == run.end as real
  {
    FujisakiCommand(filtertype, (run.start as real) / fs, (run.end as real) / fs,
                    SumRange(mux, run.start, run.end), omega)
  }

  /** A maximal run's command carries the run's value once per frame. With a positive fs it
      starts before it ends; with a negative fs both times are negated and the order flips. */
  lemma RunCommandOfRun(mux: seq<real>, s: nat, e: nat, filtertype: FilterType, omega: real,
                        fs: real)
    requires IsRun(mux, s, e) && fs != 0.0
    ensures var c := RunCommand(mux, Run(s, e), filtertype, omega, fs);
            (fs > 0.0 ==> c.onset < c.offset) && (fs < 0.0 ==> c.offset < c.onset) &&
            c.integratedAmplitude == Times(e - s, mux[s])
  {
    DivOrder(s as real, e as real, fs);
    SumConstant(mux[s..e], mux[s]);
  }

  function RunCommands(mux: seq<real>, runs: seq<Run>, filtertype: FilterType, omega: real,
                       fs: real): (r: seq<FujisakiCommand>)
    requires fs != 0.0 && forall k :: 0 <= k < |runs| ==> runs[k].start <= runs[k].end <= |mux|
    ensures |r| == |runs|
    ensures forall k :: 0 <= k < |runs| ==> r[k] == RunCommand(mux, runs[k], filtertype, omega, fs)
  {
    seq(|runs|, k requires 0 <= k < |runs| => RunCommand(mux, runs[k], filtertype, omega, fs))
  }

  /** The commands of the maximal nonzero runs of mux, in frame order. */
  function MuxCommands(mux: seq<real>, filtertype: FilterType, omega: real, fs: real)
      : seq<FujisakiCommand>
    requires fs != 0.0
  {
    RunCommands(mux, Runs(mux), filtertype, omega, fs)
  }

  /** The source's scan: a zero is appended as a sentinel, the onset is moved to every frame
      where the value changes to a nonzero one, and a command over [onset, i) is emitted at
      every frame i where the value changes away from a nonzero one. */
  method MuxToCommands(mux0: seq<real>, filtertype: FilterType, omega: real, fs: real)
      returns (commands: seq<FujisakiCommand>)
    requires fs != 0.0
    ensures commands == MuxCommands(mux0, filtertype, omega, fs)
  {
    var frameLen := |mux0|;
    var mux := mux0 + [0.0];
    commands := [];
    var onset := 0;
    var i := 0;
    while i < frameLen + 1
      invariant i <= frameLen + 1 && onset <= frameLen
      invariant i > 0 ==> commands == RunCommands(mux0, RunsUpTo(mux0, i - 1), filtertype, omega, fs)
      invariant i == 0 ==> commands == []
      invariant 0 < i <= frameLen && mux0[i - 1] != 0.0 ==> onset == RunStart(mux0, i - 1)
    {
      if i == 0 {
        if mux[0] != 0.0 {
          onset := 0;
        }
        i := i + 1;
        continue;
      }
      assert mux[i - 1] == mux0[i - 1];
      if mux[i] != mux[i - 1] {
        if mux[i - 1] != 0.0 {
          assert EndsAt(mux0, i);
          assert mux[onset..i] == mux0[onset..i];
          var c := FujisakiCommand(filtertype, (onset as real) / fs, (i as real) / fs,
                                   Sum(mux[onset..i]), omega);
          commands := commands + [c];
        }
        if mux[i] != 0.0 {
          onset := i;
        }
      }
      i := i + 1;
    }
  }

  /** The source's conversion of a phrase and an accent amplitude track of equal, positive
      length: phrase runs with omega 3, accent runs with omega 20, merged and sorted by onset
      (sorting is unstable, so commands with equal onsets come in no promised order). */
  method RawVectorToCommands(mup: seq<real>, mua: seq<real>, fs: real)
      returns (r: Result<seq<FujisakiCommand>, ErrorCode>)
    requires fs != 0.0
    ensures r.Failure? <==> |mua| != |mup| || |mup| < 1
    ensures r.Failure? ==> r.error == InputVectorSizeMismatch
    ensures r.Success? ==>
              SortedByOnset(r.value) &&
              multiset(r.value) == multiset(MuxCommands(mup, CmdPhrase, 3.0, fs) +
                                            MuxCommands(mua, CmdAccent, 20.0, fs))
  {
    if |mua| != |mup| || |mup| < 1 {
      return Failure(InputVectorSizeMismatch);
    }
    var phraseCommands := MuxToCommands(mup, CmdPhrase, 3.0, fs);
    var accentCommands := MuxToCommands(mua, CmdAccent, 20.0, fs);
    var commands := phraseCommands + accentCommands;
    return Success(SortByOnset(commands));
  }

  /** Every converted command is the command of a maximal run of its own track: phrase
      commands of mup with omega 3, accent commands of mua with omega 20. */
  lemma ConvertedCommand(mup: seq<real>, mua: seq<real>, fs: real, out: seq<FujisakiCommand>,
                         c: FujisakiCommand)
    requires fs != 0.0
    requires multiset(out) == multiset(MuxCommands(mup, CmdPhrase, 3.0, fs) +
                                       MuxCommands(mua, CmdAccent, 20.0, fs))
    requires c in out
    ensures c.filtertype == CmdPhrase ==>
              c.omega == 3.0 &&
              exists k :: 0 <= k < |Runs(mup)| && c == RunCommand(mup, Runs(mup)[k], CmdPhrase, 3.0, fs)
    ensures c.filtertype == CmdAccent ==>
              c.omega == 20.0 &&
              exists k :: 0 <= k < |Runs(mua)| && c == RunCommand(mua, Runs(mua)[k], CmdAccent, 20.0, fs)
  {
    var p := MuxCommands(mup, CmdPhrase, 3.0, fs);
    var a := MuxCommands(mua, CmdAccent, 20.0, fs);
    assert c in multiset(out);
    assert c in p + a;
    if c in p {
      var k :| 0 <= k < |p| && p[k] == c;
    } else {
      var k :| 0 <= k < |a| && a[k] == c;
    }
  }
}

=== FILE: emission.dfy ===
/** The Gaussian emission score of the decoder: how well the phrase and accent components of
    one frame fit the command amplitudes of the big state that owns a small state. */
module Emission {
  import opened Util
  import opened SmallStates

  /** One Gaussian log-density term without its normalising constant: minus half the squared
      deviation of x from mu, weighted by the inverse variance inv. */
  function Penalty(x: real, mu: real, inv: real): real
  {
    -0.5 * Mul(Mul(x - mu, x - mu), inv)
  }

  /** A penalty never rewards: it is at most 0 for a non-negative inverse variance, and with a
      positive inverse variance it is 0 exactly at the mean. */
  lemma PenaltySign(x: real, mu: real, inv: real)
    ensures inv >= 0.0 ==> Penalty(x, mu, inv) <= 0.0
    ensures inv > 0.0 ==> (Penalty(x, mu, inv) == 0.0 <==> x == mu)
  {
    var d := x - mu;
    MulSign(d, d);
    MulSign(Mul(d, d), inv);
    if d < 0.0 {
      MulSign(-d, -d);
    }
  }

  /** The small state i may be scored at frame f: both frames and both amplitude tables can
      be indexed. */
  predicate Scorable(states: seq<SmallState>, up: seq<real>, ua: seq<real>,
                     cp: seq<real>, ca: seq<real>, f: nat, i: nat)
  {
    f < |up| && f < |ua| && i < |states| &&
    0 <= states[i].bigstateId < |cp| && states[i].bigstateId < |ca|
  }

  /** The default emission of small state i at frame f: the phrase component up[f] is scored
      against the owning big state's phrase amplitude, the accent component ua[f] against its
      accent amplitude. */
  function DefaultEmission(states: seq<SmallState>, up: seq<real>, ua: seq<real>,
                           cp: seq<real>, ca: seq<real>, invp: real, inva: real,
                           f: nat, i: nat): (e: real)
    requires Scorable(states, up, ua, cp, ca, f, i)
    ensures invp >= 0.0 && inva >= 0.0 ==> e <= 0.0
    ensures invp > 0.0 && inva > 0.0 ==>
              (e == 0.0 <==> up[f] == cp[states[i].bigstateId] && ua[f] == ca[states[i].bigstateId])
  {
    var b := states[i].bigstateId;
    PenaltySign(up[f], cp[b], invp);
    PenaltySign(ua[f], ca[b], inva);
    Penalty(up[f], cp[b], invp) + Penalty(ua[f], ca[b], inva)
  }

  /** The default emission depends on a small state only through its owning big state: all
      small states unrolled from one big state score alike at every frame. */
  lemma SameBigStateSameEmission(states: seq<SmallState>, up: seq<real>, ua: seq<real>,
                                 cp: seq<real>, ca: seq<real>, invp: real, inva: real,
                                 f: nat, i: nat, j: nat)
    requires Scorable(states, up, ua, cp, ca, f, i) && Scorable(states, up, ua, cp, ca, f, j)
    requires states[i].bigstateId == states[j].bigstateId
    ensures DefaultEmission(states, up, ua, cp, ca, invp, inva, f, i)
         == DefaultEmission(states, up, ua, cp, ca, invp, inva, f, j)
  {
  }

  /** The emission used by the decoder: the default score plus the external constraint's
      log-probability for that frame and small state. */
  function EmissionLog(states: seq<SmallState>, up: seq<real>, ua: seq<real>,
                       cp: seq<real>, ca: seq<real>, invp: real, inva: real,
                       constraint: seq<seq<real>>, f: nat, i: nat): (e: real)
    requires Scorable(states, up, ua, cp, ca, f, i)
    requires f < |constraint| && i < |constraint[f]|
    ensures invp >= 0.0 && inva >= 0.0 ==> e <= constraint[f][i]
    ensures invp > 0.0 && inva > 0.0 ==>
              (e == constraint[f][i] <==> up[f] == cp[states[i].bigstateId] && ua[f] == ca[states[i].bigstateId])
  {
    DefaultEmission(states, up, ua, cp, ca, invp, inva, f, i) + constraint[f][i]
  }

  /** Emission scores of one frame differ between two small states exactly by the difference
      of their constraint terms when they share a big state: the constraint is the only thing
      that can tell them apart. */
  lemma ConstraintSeparatesSiblings(states: seq<SmallState>, up: seq<real>, ua: seq<real>,
                                    cp: seq<real>, ca: seq<real>, invp: real, inva: real,
                                    constraint: seq<seq<real>>, f: nat, i: nat, j: nat)
    requires Scorable(states, up, ua, cp, ca, f, i) && Scorable(states, up, ua, cp, ca, f, j)
    requires f < |constraint| && i < |constraint[f]| && j < |constraint[f]|
    requires states[i].bigstateId == states[j].bigstateId
    ensures EmissionLog(states, up, ua, cp, ca, invp, inva, constraint, f, i)
          - EmissionLog(states, up, ua, cp, ca, invp, inva, constraint, f, j)
         == constraint[f][i] - constraint[f][j]
  {
    SameBigStateSameEmission(states, up, ua, cp, ca, invp, inva, f, i, j);
  }
}

=== FILE: evaluation.dfy ===
/** Scoring an estimated command list against a reference: two commands of one type coincide
    when their onsets and offsets are close enough, and a longest-common-subsequence table
    counts how many coincidences can be matched in order, separately for each command type. */
module Evaluation {
  import opened Util
  import opened Fujisaki

  /** 1 when c1 and c2 have the same type and the sum of their onset and offset differences
      exceeds twice the allowed lag s by at most s * zeroThres; 0 otherwise. */
  function CoOccurCheck(c1: FujisakiCommand, c2: FujisakiCommand, s: real, zeroThres: real): (r: int)
    ensures r == 0 || r == 1
    ensures c1.filtertype != c2.filtertype ==> r == 0
  {
    if c1.filtertype != c2.filtertype then 0
    else if Abs(c1.onset - c2.onset) + Abs(c1.offset - c2.offset) - s * 2.0 > Mul(s, zeroThres) then 0
    else 1
  }

  /** Coincidence does not depend on which command is the reference. */
  lemma CoOccurSymmetric(c1: FujisakiCommand, c2: FujisakiCommand, s: real, zeroThres: real)
    ensures CoOccurCheck(c1, c2, s, zeroThres) == CoOccurCheck(c2, c1, s, zeroThres)
  {
    assert Abs(c1.onset - c2.onset) == Abs(c2.onset - c1.onset);
    assert Abs(c1.offset - c2.offset) == Abs(c2.offset - c1.offset);
  }

  /** The check in words: same type and total timing error within 2s + s * zeroThres. */
  lemma CoOccurMeaning(c1: FujisakiCommand, c2: FujisakiCommand, s: real, zeroThres: real)
    ensures CoOccurCheck(c1, c2, s, zeroThres) == 1 <==>
              c1.filtertype == c2.filtertype &&
              Abs(c1.onset - c2.onset) + Abs(c1.offset - c2.offset) <= 2.0 * s + Mul(s, zeroThres)
  {
  }

  /** With a non-negative lag and threshold, a command always coincides with itself. */
  lemma CoOccurReflexive(c: FujisakiCommand, s: real, zeroThres: real)
    requires s >= 0.0 && zeroThres >= 0.0
    ensures CoOccurCheck(c, c, s, zeroThres) == 1
  {
    MulSign(s, zeroThres);
  }

  /** Number of commands of type t in s. */
  function CountType(s: seq<FujisakiCommand>, t: FilterType): nat
  {
    if |s| == 0 then 0
    else CountType(s[..|s| - 1], t) + (if s[|s| - 1].filtertype == t then 1 else 0)
  }

  lemma {:induction false} CountTypeAppend(a: seq<FujisakiCommand>, b: seq<FujisakiCommand>, t: FilterType)
    ensures CountType(a + b, t) == CountType(a, t) + CountType(b, t)
    decreases |b|
  {
    if |b| == 0 {
      assert a + b == a;
    } else {
      assert (a + b)[..|a + b| - 1] == a + b[..|b| - 1];
      CountTypeAppend(a, b[..|b| - 1], t);
    }
  }

  lemma CountTypeSingle(c: FujisakiCommand, t: FilterType)
    ensures CountType([c], t) == if c.filtertype == t then 1 else 0
  {
    assert [c][..0] == [];
  }

  /** Taking out the command at q takes it out of the multiset and out of its type's count. */
  lemma CountTypeRemove(r: seq<FujisakiCommand>, q: nat, t: FilterType)
    requires q < |r|
    ensures multiset(r[..q] + r[q + 1..]) == multiset(r) - multiset{r[q]}
    ensures CountType(r, t) == CountType(r[..q] + r[q + 1..], t) + (if r[q].filtertype == t then 1 else 0)
  {
    assert r == r[..q] + [r[q]] + r[q + 1..];
    CountTypeAppend(r[..q] + [r[q]], r[q + 1..], t);
    CountTypeAppend(r[..q], [r[q]], t);
    CountTypeAppend(r[..q], r[q + 1..], t);
    CountTypeSingle(r[q], t);
  }

  /** Rearranging a list keeps the number of commands of every type. */
  lemma {:induction false} CountTypePermutation(r: seq<FujisakiCommand>, s: seq<FujisakiCommand>, t: FilterType)
    requires multiset(r) == multiset(s)
    ensures CountType(r, t) == CountType(s, t)
    decreases |s|
  {
    if |s| == 0 {
      assert |r| == |multiset(r)| == 0;
    } else {
      var x := s[|s| - 1];
      assert s == s[..|s| - 1] + [x];
      assert multiset(s[..|s| - 1]) == multiset(s) - multiset{x};
      assert x in multiset(r);
      var q :| 0 <= q < |r| && r[q] == x;
      CountTypeRemove(r, q, t);
      CountTypePermutation(r[..q] + r[q + 1..], s[..|s| - 1], t);
    }
  }

  /** The types of a command list in order. */
  function Types(s: seq<FujisakiCommand>): (r: seq<FilterType>)
    ensures |r| == |s|
    ensures forall k :: 0 <= k < |s| ==> r[k] == s[k].filtertype
  {
    if |s| == 0 then [] else Types(s[..|s| - 1]) + [s[|s| - 1].filtertype]
  }

  /** Extends acc with every entry of ts that acc does not hold yet, in order of first
      appearance. */
  function AppendNew(acc: seq<FilterType>, ts: seq<FilterType>): (r: seq<FilterType>)
    ensures forall t :: t in r <==> t in acc || t in ts
    ensures |acc| <= |r| && r[..|acc|] == acc
    ensures Distinct(acc) ==> Distinct(r)
    decreases |ts|
  {
    if |ts| == 0 then acc
    else
      var acc' := if ts[0] in acc then acc else acc + [ts[0]];
      assert ts == [ts[0]] + ts[1..];
      var r := AppendNew(acc', ts[1..]);
      assert r[..|acc|] == r[..|acc'|][..|acc|];
      r
  }

  predicate Distinct(ts: seq<FilterType>)
  {
    forall i, j :: 0 <= i < j < |ts| ==> ts[i] != ts[j]
  }

  /** The per-type outcome: how many commands of the type each list holds, how many could be
      matched in order, and the lag they were matched with. */
  datatype CommandsCoincidenceResult = CommandsCoincidenceResult(
    totalNumInReference: int,
    totalNumInEstimated: int,
    matchedNum: int,
    allowedTimeLag: real)

  /** Whether reference command i and estimated command j count as a match in the table of
      type t: the reference command must be of type t and coincide with the estimated one. */
  function Matched(ref: seq<FujisakiCommand>, est: seq<FujisakiCommand>, t: FilterType,
                   s: real, zeroThres: real, i: nat, j: nat): (m: int)
    requires i < |ref| && j < |est|
    ensures m == 0 || m == 1
    ensures m == 1 <==> ref[i].filtertype == t && CoOccurCheck(ref[i], est[j], s, zeroThres) == 1
  {
    if ref[i].filtertype == t then CoOccurCheck(ref[i], est[j], s, zeroThres) else 0
  }

  /** The coincidence matrix of type t, filled before the table: entry (i, j) is Matched. */
  function Coincidences(ref: seq<FujisakiCommand>, est: seq<FujisakiCommand>, t: FilterType,
                        s: real, zeroThres: real): (mt: seq<seq<int>>)
    ensures |mt| == |ref| && forall i :: 0 <= i < |ref| ==> |mt[i]| == |est|
    ensures forall i, j :: 0 <= i < |ref| && 0 <= j < |est| ==> mt[i][j] == Matched(ref, est, t, s, zeroThres, i, j)
  {
    seq(|ref|, i requires 0 <= i < |ref| =>
      seq(|est|, j requires 0 <= j < |est| => Matched(ref, est, t, s, zeroThres, i, j)))
  }

  /** Entry (i, j) of a matrix, 0 outside it. */
  function Cell(mt: seq<seq<int>>, i: nat, j: nat): int
  {
    if i < |mt| && j < |mt[i]| then mt[i][j] else 0
  }

  /** Every entry is 0 or 1, as in a coincidence matrix. */
  predicate ZeroOne(mt: seq<seq<int>>)
  {
    forall i, j :: 0 <= i < |mt| && 0 <= j < |mt[i]| ==> 0 <= mt[i][j] <= 1
  }

  lemma CoincidencesZeroOne(ref: seq<FujisakiCommand>, est: seq<FujisakiCommand>, t: FilterType,
                            s: real, zeroThres: real)
    ensures ZeroOne(Coincidences(ref, est, t, s, zeroThres))
  {
    var mt := Coincidences(ref, est, t, s, zeroThres);
    forall i, j | 0 <= i < |mt| && 0 <= j < |mt[i]|
      ensures 0 <= mt[i][j] <= 1
    {
      assert mt[i][j] == Matched(ref, est, t, s, zeroThres, i, j);
    }
  }

  function Max(a: int, b: int): int
  {
    if a >= b then a else b
  }

  lemma CountTypePrefix(s: seq<FujisakiCommand>, t: FilterType, n: nat)
    requires n < |s|
    ensures CountType(s[..n + 1], t) == CountType(s[..n], t) + (if s[n].filtertype == t then 1 else 0)
  {
    assert s[..n + 1][..n] == s[..n];
  }

  /** The longest-common-subsequence recurrence the table follows at (a, b), over the first a
      rows and b columns of the matrix. */
  function Best(mt: seq<seq<int>>, a: nat, b: nat): int
    decreases a + b
  {
    if a == 0 || b == 0 then 0
    else Max(Best(mt, a - 1, b - 1) + Cell(mt, a - 1, b - 1), Max(Best(mt, a - 1, b), Best(mt, a, b - 1)))
  }

  /** An in-order matching within the first a rows and b columns: pairs (i, j) of marked
      entries, strictly increasing in both indices, so no two pairs share a command or cross. */
  predicate InOrderMatching(mt: seq<seq<int>>, m: seq<(nat, nat)>, a: nat, b: nat)
  {
    (forall k :: 0 <= k < |m| ==> m[k].0 < a && m[k].1 < b && Cell(mt, m[k].0, m[k].1) == 1)
    && (forall k, l :: 0 <= k < l < |m| ==> m[k].0 < m[l].0 && m[k].1 < m[l].1)
  }

  /** The table value is never negative. */
  lemma {:induction false} BestNonNegative(mt: seq<seq<int>>, a: nat, b: nat)
    ensures Best(mt, a, b) >= 0
    decreases a + b
  {
    if a > 0 && b > 0 {
      BestNonNegative(mt, a - 1, b);
    }
  }

  /** No in-order matching within the prefixes is larger than the table value. */
  lemma {:induction false} MatchingBounded(mt: seq<seq<int>>, m: seq<(nat, nat)>, a: nat, b: nat)
    requires InOrderMatching(mt, m, a, b)
    ensures |m| <= Best(mt, a, b)
    decreases a + b
  {
    if |m| == 0 {
      BestNonNegative(mt, a, b);
    } else {
      var last := m[|m| - 1];
      assert a > 0 && b > 0;
      if last.0 < a - 1 {
        MatchingBounded(mt, m, a - 1, b);
      } else if last.1 < b - 1 {
        MatchingBounded(mt, m, a, b - 1);
      } else {
        var m' := m[..|m| - 1];
        assert InOrderMatching(mt, m', a - 1, b - 1);
        MatchingBounded(mt, m', a - 1, b - 1);
      }
    }
  }

  /** A matching before (a - 1, b - 1) extends by that pair when its entry is marked. */
  lemma MatchingExtended(mt: seq<seq<int>>, m: seq<(nat, nat)>, a: nat, b: nat)
    requires 0 < a && 0 < b && InOrderMatching(mt, m, a - 1, b - 1) && Cell(mt, a - 1, b - 1) == 1
    ensures InOrderMatching(mt, m + [(a - 1, b - 1)], a, b)
  {
    var m2 := m + [(a - 1, b - 1)];
    assert forall k :: 0 <= k < |m| ==> m2[k] == m[k];
  }

  /** The matching the recurrence traces back: follow the branch the table value came from,
      taking the pair (a - 1, b - 1) when it came from the diagonal. */
  function TracedMatching(mt: seq<seq<int>>, a: nat, b: nat): seq<(nat, nat)>
    decreases a + b
  {
    if a == 0 || b == 0 then []
    else if Best(mt, a, b) == Best(mt, a - 1, b) then TracedMatching(mt, a - 1, b)
    else if Best(mt, a, b) == Best(mt, a, b - 1) then TracedMatching(mt, a, b - 1)
    else TracedMatching(mt, a - 1, b - 1) + [(a - 1, b - 1)]
  }

  /** When the table value at (a, b) comes from neither neighbour, it comes from a marked
      diagonal entry. */
  lemma DiagonalMarked(mt: seq<seq<int>>, a: nat, b: nat)
    requires ZeroOne(mt) && 0 < a && 0 < b
    requires Best(mt, a, b) != Best(mt, a - 1, b) && Best(mt, a, b) != Best(mt, a, b - 1)
    ensures Cell(mt, a - 1, b - 1) == 1 && Best(mt, a, b) == Best(mt, a - 1, b - 1) + 1
  {
    BestStepEst(mt, a - 1, b - 1);
  }

  /** For a 0/1 matrix the traced matching is an in-order matching ... */
  lemma {:induction false} MatchingAchieved(mt: seq<seq<int>>, a: nat, b: nat)
    requires ZeroOne(mt)
    ensures InOrderMatching(mt, TracedMatching(mt, a, b), a, b)
    decreases a + b
  {
    if a > 0 && b > 0 {
      var v := Best(mt, a, b);
      if v == Best(mt, a - 1, b) {
        MatchingAchieved(mt, a - 1, b);
      } else if v == Best(mt, a, b - 1) {
        MatchingAchieved(mt, a, b - 1);
      } else {
        DiagonalMarked(mt, a, b);
        MatchingAchieved(mt, a - 1, b - 1);
        MatchingExtended(mt, TracedMatching(mt, a - 1, b - 1), a, b);
      }
    }
  }

  /** ... that reaches the table value; with MatchingBounded, the table value is the size of a
      largest in-order matching. */
  lemma {:induction false} TracedReachesBest(mt: seq<seq<int>>, a: nat, b: nat)
    requires ZeroOne(mt)
    ensures |TracedMatching(mt, a, b)| == Best(mt, a, b)
    decreases a + b
  {
    if a > 0 && b > 0 {
      var v := Best(mt, a, b);
      if v == Best(mt, a - 1, b) {
        TracedReachesBest(mt, a - 1, b);
      } else if v == Best(mt, a, b - 1) {
        TracedReachesBest(mt, a, b - 1);
      } else {
        DiagonalMarked(mt, a, b);
        TracedReachesBest(mt, a - 1, b - 1);
      }
    }
  }

  /** The table never decreases along the reference index and, for a 0/1 matrix, grows by at
      most one per step. */
  lemma {:induction false} BestStepRef(mt: seq<seq<int>>, a: nat, b: nat)
    requires ZeroOne(mt)
    ensures Best(mt, a, b) <= Best(mt, a + 1, b) <= Best(mt, a, b) + 1
    decreases a + b
  {
    if b > 0 {
      BestStepRef(mt, a, b - 1);
      BestStepEst(mt, a, b - 1);
      assert 0 <= Cell(mt, a, b - 1) <= 1;
    }
  }

  /** The same along the estimated index. */
  lemma {:induction false} BestStepEst(mt: seq<seq<int>>, a: nat, b: nat)
    requires ZeroOne(mt)
    ensures Best(mt, a, b) <= Best(mt, a, b + 1) <= Best(mt, a, b) + 1
    decreases a + b
  {
    if a > 0 {
      BestStepEst(mt, a - 1, b);
      BestStepRef(mt, a - 1, b);
      assert 0 <= Cell(mt, a - 1, b) <= 1;
    }
  }

  /** An in-order matching uses no more type-t commands than either prefix holds, so neither
      does the table value. */
  lemma {:induction false} BestBounds(ref: seq<FujisakiCommand>, est: seq<FujisakiCommand>, t: FilterType,
                                      s: real, zeroThres: real, a: nat, b: nat)
    requires a <= |ref| && b <= |est|
    ensures 0 <= Best(Coincidences(ref, est, t, s, zeroThres), a, b)
    ensures Best(Coincidences(ref, est, t, s, zeroThres), a, b) <= CountType(ref[..a], t)
    ensures Best(Coincidences(ref, est, t, s, zeroThres), a, b) <= CountType(est[..b], t)
    decreases a + b
  {
    var mt := Coincidences(ref, est, t, s, zeroThres);
    BestNonNegative(mt, a, b);
    if a > 0 && b > 0 {
      BestBounds(ref, est, t, s, zeroThres, a - 1, b - 1);
      BestBounds(ref, est, t, s, zeroThres, a - 1, b);
      BestBounds(ref, est, t, s, zeroThres, a, b - 1);
      CountTypePrefix(ref, t, a - 1);
      CountTypePrefix(est, t, b - 1);
      assert Cell(mt, a - 1, b - 1) == Matched(ref, est, t, s, zeroThres, a - 1, b - 1);
    }
  }

  /** Evaluating a command list against itself with a non-negative lag and threshold matches
      every command of every type. */
  lemma {:induction false} BestSelf(ref: seq<FujisakiCommand>, t: FilterType, s: real, zeroThres: real, a: nat)
    requires a <= |ref| && s >= 0.0 && zeroThres >= 0.0
    ensures Best(Coincidences(ref, ref, t, s, zeroThres), a, a) == CountType(ref[..a], t)
  {
    var mt := Coincidences(ref, ref, t, s, zeroThres);
    BestBounds(ref, ref, t, s, zeroThres, a, a);
    if a > 0 {
      BestSelf(ref, t, s, zeroThres, a - 1);
      CoOccurReflexive(ref[a - 1], s, zeroThres);
      CountTypePrefix(ref, t, a - 1);
      assert Cell(mt, a - 1, a - 1) == Matched(ref, ref, t, s, zeroThres, a - 1, a - 1);
    }
  }

  /** Row a of the table holds the values Best(mt, a, b) for every b up to n. */
  predicate RowIs(row: seq<int>, mt: seq<seq<int>>, n: nat, a: nat)
  {
    |row| == n + 1 &&
    forall b :: 0 <= b <= n ==> row[b] == Best(mt, a, b)
  }

  /** Fills row i + 1 of the table from row i, cell by cell, with the recurrence. */
  method FillRow(prev: seq<int>, mt: seq<seq<int>>, n: nat, i: nat) returns (row: seq<int>)
    requires i < |mt| && |mt[i]| == n && RowIs(prev, mt, n, i)
    ensures RowIs(row, mt, n, i + 1)
  {
    row := [0];
    var j := 0;
    while j < n
      invariant 0 <= j <= n && |row| == j + 1
      invariant forall b :: 0 <= b <= j ==> row[b] == Best(mt, i + 1, b)
    {
      var v := Max(prev[j] + mt[i][j], Max(prev[j + 1], row[j]));
      row := row + [v];
      j := j + 1;
    }
  }

  /** The table over an m x n matrix, row by row. */
  method MatchTable(mt: seq<seq<int>>, n: nat) returns (tab: seq<seq<int>>)
    requires forall i :: 0 <= i < |mt| ==> |mt[i]| == n
    ensures |tab| == |mt| + 1
    ensures forall a :: 0 <= a <= |mt| ==> RowIs(tab[a], mt, n, a)
  {
    tab := [seq(n + 1, _ => 0)];
    var i := 0;
    while i < |mt|
      invariant 0 <= i <= |mt| && |tab| == i + 1
      invariant forall a :: 0 <= a <= i ==> RowIs(tab[a], mt, n, a)
    {
      var row := FillRow(tab[i], mt, n, i);
      tab := tab + [row];
      i := i + 1;
    }
  }

  /** What the result for type t reports: the number of type-t commands in each of the
      caller's lists, the in-order matching value of their sorted copies ref and est (never more
      than either count) and the lag. */
  predicate ResultFor(r: CommandsCoincidenceResult, t: FilterType, reference: seq<FujisakiCommand>,
                      estimated: seq<FujisakiCommand>, ref: seq<FujisakiCommand>, est: seq<FujisakiCommand>,
                      s: real, zeroThres: real)
  {
    r.totalNumInReference == CountType(reference, t) &&
    r.totalNumInEstimated == CountType(estimated, t) &&
    r.matchedNum == Best(Coincidences(ref, est, t, s, zeroThres), |ref|, |est|) &&
    0 <= r.matchedNum <= r.totalNumInReference && r.matchedNum <= r.totalNumInEstimated &&
    r.allowedTimeLag == s
  }

  /** The coincidence result of one type over the sorted copies, with counts stated against the
      caller's unsorted lists. */
  method EvaluateType(reference: seq<FujisakiCommand>, estimated: seq<FujisakiCommand>,
                      ref: seq<FujisakiCommand>, est: seq<FujisakiCommand>,
                      t: FilterType, s: real, zeroThres: real) returns (r: CommandsCoincidenceResult)
    requires SortedCopy(ref, reference) && SortedCopy(est, estimated)
    ensures ResultFor(r, t, reference, estimated, ref, est, s, zeroThres)
  {
    var mt := Coincidences(ref, est, t, s, zeroThres);
    var tab := MatchTable(mt, |est|);
    assert RowIs(tab[|ref|], mt, |est|, |ref|);
    BestBounds(ref, est, t, s, zeroThres, |ref|, |est|);
    assert ref[..|ref|] == ref && est[..|est|] == est;
    CountTypePermutation(ref, reference, t);
    CountTypePermutation(est, estimated, t);
    r := CommandsCoincidenceResult(CountType(ref, t), CountType(est, t), tab[|ref|][|est|], s);
  }

  /** The result list pairs each type of `types` with its coincidence result. */
  predicate ResultsFor(result: seq<(FilterType, CommandsCoincidenceResult)>, types: seq<FilterType>,
                       reference: seq<FujisakiCommand>, estimated: seq<FujisakiCommand>,
                       ref: seq<FujisakiCommand>, est: seq<FujisakiCommand>, s: real, zeroThres: real)
  {
    |result| == |types| &&
    forall k :: 0 <= k < |result| ==>
      result[k].0 == types[k] && ResultFor(result[k].1, types[k], reference, estimated, ref, est, s, zeroThres)
  }

  /** The types in order of first appearance in the sorted reference, then the sorted estimate. */
  function TypeOrder(ref: seq<FujisakiCommand>, est: seq<FujisakiCommand>): seq<FilterType>
  {
    AppendNew(AppendNew([], Types(ref)), Types(est))
  }

  /** Evaluates an estimated command list against a reference. Both are sorted by onset into
      copies ref and est (the caller's lists are values and stay as they are); the sort leaves
      the order of equal onsets open, so ref and est stand for whichever sorted copies it
      returns, and the results are stated for those. One result is produced per command type,
      in order of first appearance in ref and then est; per type it reports the counts of that
      type in both lists and the size of an in-order matching, which can exceed neither count. */
  method EvaluateByDP(reference: seq<FujisakiCommand>, estimated: seq<FujisakiCommand>,
                      ref: seq<FujisakiCommand>, est: seq<FujisakiCommand>, s: real, zeroThres: real)
      returns (result: seq<(FilterType, CommandsCoincidenceResult)>)
    requires SortedCopy(ref, reference) && SortedCopy(est, estimated)
    ensures ResultsFor(result, TypeOrder(ref, est), reference, estimated, ref, est, s, zeroThres)
    ensures forall j, k :: 0 <= j < k < |result| ==> result[j].0 != result[k].0
    ensures forall c :: c in reference + estimated ==>
              exists k :: 0 <= k < |result| && result[k].0 == c.filtertype
    ensures forall k :: 0 <= k < |result| ==>
              result[k].1.totalNumInReference + result[k].1.totalNumInEstimated > 0
  {
    var types := TypeOrder(ref, est);
    result := [];
    var k := 0;
    while k < |types|
      invariant 0 <= k <= |types| && |result| == k
      invariant forall j :: 0 <= j < k ==>
                  result[j].0 == types[j] && ResultFor(result[j].1, types[j], reference, estimated, ref, est, s, zeroThres)
    {
      var r := EvaluateType(reference, estimated, ref, est, types[k], s, zeroThres);
      result := result + [(types[k], r)];
      k := k + 1;
    }
    TypesCover(reference, estimated, ref, est);
    forall c | c in reference + estimated
      ensures exists k :: 0 <= k < |result| && result[k].0 == c.filtertype
    {
      var k :| 0 <= k < |types| && types[k] == c.filtertype;
      assert result[k].0 == c.filtertype;
    }
  }

  lemma CountTypePositive(s: seq<FujisakiCommand>, q: nat)
    requires q < |s|
    ensures CountType(s, s[q].filtertype) > 0
  {
    CountTypeRemove(s, q, s[q].filtertype);
  }

  /** Every command's type appears among the types of a rearrangement of its list. */
  lemma TypeListed(s: seq<FujisakiCommand>, r: seq<FujisakiCommand>, c: FujisakiCommand)
    requires multiset(r) == multiset(s) && c in s
    ensures c.filtertype in Types(r)
  {
    assert c in multiset(r);
    var q :| 0 <= q < |r| && r[q] == c;
    assert Types(r)[q] == c.filtertype;
  }

  /** Every type of a rearrangement is the type of some command of the original. */
  lemma {:induction false} TypePresent(s: seq<FujisakiCommand>, r: seq<FujisakiCommand>, t: FilterType)
    requires multiset(r) == multiset(s) && t in Types(r)
    ensures CountType(s, t) > 0
  {
    var q :| 0 <= q < |r| && Types(r)[q] == t;
    CountTypePositive(r, q);
    CountTypePermutation(r, s, t);
  }

  /** The type list of the sorted copies is duplicate-free, lists the type of every command of
      either list, and lists only types present in one of them. */
  lemma {:induction false} TypesCover(reference: seq<FujisakiCommand>, estimated: seq<FujisakiCommand>,
                                      ref: seq<FujisakiCommand>, est: seq<FujisakiCommand>)
    requires multiset(ref) == multiset(reference) && multiset(est) == multiset(estimated)
    ensures Distinct(TypeOrder(ref, est))
    ensures forall c :: c in reference + estimated ==> c.filtertype in TypeOrder(ref, est)
    ensures forall t :: t in TypeOrder(ref, est) ==> CountType(reference, t) + CountType(estimated, t) > 0
  {
    var tr := Types(ref);
    var te := Types(est);
    assert Distinct([]);
    assert forall t :: t in TypeOrder(ref, est) <==> t in tr || t in te;
    forall c | c in reference + estimated
      ensures c.filtertype in TypeOrder(ref, est)
    {
      if c in reference {
        TypeListed(reference, ref, c);
      } else {
        TypeListed(estimated, est, c);
      }
    }
    forall t | t in TypeOrder(ref, est)
      ensures CountType(reference, t) + CountType(estimated, t) > 0
    {
      if t in tr {
        TypePresent(reference, ref, t);
      } else {
        TypePresent(estimated, est, t);
      }
    }
  }

  /** The matched count depends on the order the sort leaves equal onsets in. Reference accents
      a = [0, 1] and a' = [0, 5] (onset, offset) tie on their onsets; the estimate holds
      e1 = [0, 5] and e2 = [0.1, 1]; with lag 0.1, a coincides only with e2 and a' only with e1.
      Sorted as [a, a'] the two coincidences cross and only one can be matched in order; sorted as
      [a', a] both can. */
  lemma TieOrderMatters()
    ensures var a, a' := FujisakiCommand(CmdAccent, 0.0, 1.0, 1.0, 20.0), FujisakiCommand(CmdAccent, 0.0, 5.0, 1.0, 20.0);
            var est := [FujisakiCommand(CmdAccent, 0.0, 5.0, 1.0, 20.0), FujisakiCommand(CmdAccent, 0.1, 1.0, 1.0, 20.0)];
            SortedCopy([a, a'], [a, a']) && SortedCopy([a', a], [a, a']) && SortedCopy(est, est)
            && Best(Coincidences([a, a'], est, CmdAccent, 0.1, 0.0), 2, 2) == 1
            && Best(Coincidences([a', a], est, CmdAccent, 0.1, 0.0), 2, 2) == 2
  {
    var a, a' := FujisakiCommand(CmdAccent, 0.0, 1.0, 1.0, 20.0), FujisakiCommand(CmdAccent, 0.0, 5.0, 1.0, 20.0);
    var est := [FujisakiCommand(CmdAccent, 0.0, 5.0, 1.0, 20.0), FujisakiCommand(CmdAccent, 0.1, 1.0, 1.0, 20.0)];
    assert multiset([a', a]) == multiset([a, a']);
    var m1 := Coincidences([a, a'], est, CmdAccent, 0.1, 0.0);
    var m2 := Coincidences([a', a], est, CmdAccent, 0.1, 0.0);
    assert CoOccurCheck(a, est[0], 0.1, 0.0) == 0 && CoOccurCheck(a, est[1], 0.1, 0.0) == 1;
    assert CoOccurCheck(a', est[0], 0.1, 0.0) == 1 && CoOccurCheck(a', est[1], 0.1, 0.0) == 0;
    assert m1[0][0] == 0 && m1[0][1] == 1 && m1[1][0] == 1 && m1[1][1] == 0;
    assert m2[0][0] == 1 && m2[0][1] == 0 && m2[1][0] == 0 && m2[1][1] == 1;
    assert Best(m1, 1, 1) == 0 && Best(m1, 1, 2) == 1 && Best(m1, 2, 1) == 1;
    assert Best(m2, 1, 1) == 1;
  }
}

=== FILE: fujisaki.dfy ===
/** Fujisaki-model commands: a phrase or accent command is a time interval with an integrated
    amplitude and the angular frequency of the filter that shapes it. */
module Fujisaki {
  import opened Util

  /** Which of the two critically damped filters a command drives; the enumeration codes are
      0 for phrase and 1 for accent. */
  datatype FilterType = CmdPhrase | CmdAccent
  {
    function Code(): (c: int)
      ensures 0 <= c <= 1
      ensures c == 0 <==> this == CmdPhrase
    {
      match this
      case CmdPhrase => 0
      case CmdAccent => 1
    }
  }

  /** A command: onset and offset in seconds, its integrated amplitude, and the filter's
      angular frequency. */
  datatype FujisakiCommand = FujisakiCommand(
    filtertype: FilterType,
    onset: real,
    offset: real,
    integratedAmplitude: real,
    omega: real)

  /** The ordering commands are sorted with: by onset only. */
  predicate Less(a: FujisakiCommand, b: FujisakiCommand)
  {
    a.onset < b.onset
  }

  predicate Greater(a: FujisakiCommand, b: FujisakiCommand)
  {
    a.onset > b.onset
  }

  /** `Less` is a strict weak order whose incomparable pairs are exactly the commands with equal
      onsets, and `Greater` is its converse. */
  lemma OnsetOrder(a: FujisakiCommand, b: FujisakiCommand, c: FujisakiCommand)
    ensures !Less(a, a)
    ensures Less(a, b) && Less(b, c) ==> Less(a, c)
    ensures !Less(a, b) && !Less(b, a) <==> a.onset == b.onset
    ensures Greater(a, b) <==> Less(b, a)
  {
  }

  /** The impulse response of a critically damped filter, omega^2 t e^(-omega t), with the
      exponential left as the parameter exp. It is causal: nothing before time 0. */
  function ImpulseResponse(exp: real -> real, omega: real, time: real): (r: real)
    ensures time <= 0.0 ==> r == 0.0
    ensures time > 0.0 && exp(-Mul(omega, time)) > 0.0 ==> r >= 0.0
  {
    if time > 0.0 then
      MulSign(omega, omega);
      MulSign(-omega, -omega);
      MulSign(Mul(omega, omega), time);
      MulSign(Mul(Mul(omega, omega), time), exp(-Mul(omega, time)));
      Mul(Mul(Mul(omega, omega), time), exp(-Mul(omega, time)))
    else
      0.0
  }

  /** The step response of the same filter, 1 - (1 + omega t) e^(-omega t); also causal. */
  function StepResponse(exp: real -> real, omega: real, time: real): (r: real)
    ensures time <= 0.0 ==> r == 0.0
  {
    if time > 0.0 then 1.0 - Mul(1.0 + Mul(omega, time), exp(-Mul(omega, time))) else 0.0
  }

  /** The two responses are tied by the same exponential: omega times what the step response
      lacks of 1, beyond the exponential itself, is the impulse response. */
  lemma StepImpulseLink(exp: real -> real, omega: real, time: real)
    requires time > 0.0
    ensures Mul(omega, 1.0 - StepResponse(exp, omega, time) - exp(-Mul(omega, time))) ==
            ImpulseResponse(exp, omega, time)
  {
  }

  /** With a non-negative omega and a positive exponential the step response stays below 1
      after time 0. */
  lemma StepBelowOne(exp: real -> real, omega: real, time: real)
    requires time > 0.0 && omega >= 0.0 && exp(-Mul(omega, time)) > 0.0
    ensures StepResponse(exp, omega, time) < 1.0
  {
    MulSign(omega, time);
    MulSign(1.0 + Mul(omega, time), exp(-Mul(omega, time)));
  }

  /** Onsets never decrease along s. */
  predicate SortedByOnset(s: seq<FujisakiCommand>)
  {
    forall i, j :: 0 <= i < j < |s| ==> s[i].onset <= s[j].onset
  }

  /** r is what sorting s by onset may return: the same commands, onsets never decreasing.
      Equal onsets may come in any order (the sort is not stable). */
  predicate SortedCopy(r: seq<FujisakiCommand>, s: seq<FujisakiCommand>)
  {
    SortedByOnset(r) && multiset(r) == multiset(s)
  }

  /** A lower bound on onsets carries over to any rearrangement of the same commands. */
  lemma OnsetBoundKept(r: seq<FujisakiCommand>, s: seq<FujisakiCommand>, lo: real)
    requires multiset(r) == multiset(s)
    requires forall k :: 0 <= k < |s| ==> lo <= s[k].onset
    ensures forall k :: 0 <= k < |r| ==> lo <= r[k].onset
  {
    forall k | 0 <= k < |r|
      ensures lo <= r[k].onset
    {
      assert r[k] in multiset(s);
    }
  }

  /** Inserts c into a sorted list before the first command that does not start earlier. */
  function Insert(c: FujisakiCommand, s: seq<FujisakiCommand>): (r: seq<FujisakiCommand>)
    requires SortedByOnset(s)
    ensures SortedByOnset(r)
    ensures multiset(r) == multiset(s) + multiset{c}
    ensures |r| == |s| + 1
  {
    if |s| == 0 then [c]
    else if !Less(s[0], c) then
      SortedCons(c, s);
      [c] + s
    else
      var rest := Insert(c, s[1..]);
      assert s == [s[0]] + s[1..];
      InsertBehind(s[0], c, s[1..], rest);
      [s[0]] + rest
  }

  /** The recursive step of Insert: a head earlier than c stays in front of the list c went into. */
  lemma InsertBehind(x: FujisakiCommand, c: FujisakiCommand, tail: seq<FujisakiCommand>, rest: seq<FujisakiCommand>)
    requires SortedByOnset([x] + tail) && x.onset < c.onset
    requires SortedByOnset(rest) && multiset(rest) == multiset(tail) + multiset{c}
    ensures SortedByOnset([x] + rest)
    ensures multiset([x] + rest) == multiset([x] + tail) + multiset{c}
  {
    var xt := [x] + tail;
    forall k | 0 <= k < |tail + [c]|
      ensures x.onset <= (tail + [c])[k].onset
    {
      if k < |tail| {
        assert (tail + [c])[k] == xt[k + 1] && xt[0] == x;
        assert xt[0].onset <= xt[k + 1].onset;
      } else {
        assert (tail + [c])[k] == c;
      }
    }
    OnsetBoundKept(rest, tail + [c], x.onset);
    SortedCons(x, rest);
  }

  /** A command no later than every command of a sorted list can go in front of it. */
  lemma SortedCons(x: FujisakiCommand, r: seq<FujisakiCommand>)
    requires SortedByOnset(r) && forall k :: 0 <= k < |r| ==> x.onset <= r[k].onset
    ensures SortedByOnset([x] + r)
  {
    var xr := [x] + r;
    forall i, j | 0 <= i < j < |xr|
      ensures xr[i].onset <= xr[j].onset
    {
      assert xr[j] == r[j - 1];
      if i > 0 {
        assert xr[i] == r[i - 1];
      }
    }
  }

  /** Sorting by onset: an insertion sort. Commands with equal onsets may come out in any
      order the comparison allows; this one is a single admissible outcome, so only the
      order of onsets and the multiset of commands are promised. */
  function SortByOnset(s: seq<FujisakiCommand>): (r: seq<FujisakiCommand>)
    ensures SortedByOnset(r)
    ensures multiset(r) == multiset(s)
    ensures |r| == |s|
  {
    if |s| == 0 then []
    else
      assert s == [s[0]] + s[1..];
      Insert(s[0], SortByOnset(s[1..]))
  }
}

=== FILE: hmm.dfy ===
/** The big-state graph: an append-only list of big states, each with its outgoing
    (destination, weight) transitions, plus a designated initial and final state. */
module Hmms {
  import opened BigStates

  /** One outgoing big-state transition: destination index and its weight. */
  datatype Transition = Transition(dst: nat, prob: real)

  /** The source keeps a separate counter next to the two lists; Valid() relates them. */
  datatype Hmm = Hmm(
    bigstates: seq<BigState>,
    numBigstates: nat,
    transitionProbs: seq<seq<Transition>>,
    initialBigstate: nat,
    finalBigstate: nat)
  {
    predicate Valid()
    {
      numBigstates == |bigstates| && |transitionProbs| == |bigstates|
    }

    function StateNum(): nat
    {
      numBigstates
    }

    function GetBigStates(): seq<BigState>
    {
      bigstates
    }

    function GetBigState(i: nat): BigState
      requires i < |bigstates|
    {
      bigstates[i]
    }

    function GetTransition(i: nat): seq<Transition>
      requires i < |transitionProbs|
    {
      transitionProbs[i]
    }

  }

  /** Clears both lists; the counter and the initial/final indices are left as they are. */
  function Initialize(h: Hmm): (r: Hmm)
    ensures |r.bigstates| == 0 && |r.transitionProbs| == 0
    ensures r.numBigstates == h.numBigstates
    ensures r.initialBigstate == h.initialBigstate && r.finalBigstate == h.finalBigstate
  {
    h.(bigstates := [], transitionProbs := [])
  }

  /** The default constructor: zero states, initial and final index both 0. */
  function NewHmm(): (h: Hmm)
    ensures h.Valid() && h.StateNum() == 0 && |h.GetBigStates()| == 0
    ensures h.initialBigstate == 0 && h.finalBigstate == 0
  {
    Initialize(Hmm([], 0, [], 0, 0))
  }

  /** Appends a big state with its transition list; the source's boolean result is always true. */
  function AddState(h: Hmm, bs: BigState, connect: seq<Transition>): (r: Hmm)
    ensures h.Valid() ==> r.Valid()
    ensures r.StateNum() == h.StateNum() + 1
    ensures |r.bigstates| == |h.bigstates| + 1 && r.bigstates[|h.bigstates|] == bs
    ensures |r.transitionProbs| == |h.transitionProbs| + 1 && r.transitionProbs[|h.transitionProbs|] == connect
    ensures r.bigstates[..|h.bigstates|] == h.bigstates
    ensures forall i :: 0 <= i < |h.bigstates| ==> r.bigstates[i] == h.bigstates[i]
    ensures r.transitionProbs[..|h.transitionProbs|] == h.transitionProbs
    ensures forall i :: 0 <= i < |h.transitionProbs| ==> r.transitionProbs[i] == h.transitionProbs[i]
    ensures r.initialBigstate == h.initialBigstate && r.finalBigstate == h.finalBigstate
  {
    h.(bigstates := h.bigstates + [bs], numBigstates := h.numBigstates + 1,
       transitionProbs := h.transitionProbs + [connect])
  }

  /** Stores the index verbatim: there is no range check. */
  function SetInitialState(h: Hmm, i: nat): (r: Hmm)
    ensures r.initialBigstate == i
    ensures r.bigstates == h.bigstates && r.transitionProbs == h.transitionProbs
    ensures r.numBigstates == h.numBigstates && r.finalBigstate == h.finalBigstate
  {
    h.(initialBigstate := i)
  }

  /** Stores the index verbatim: there is no range check. */
  function SetFinalState(h: Hmm, i: nat): (r: Hmm)
    ensures r.finalBigstate == i
    ensures r.bigstates == h.bigstates && r.transitionProbs == h.transitionProbs
    ensures r.numBigstates == h.numBigstates && r.initialBigstate == h.initialBigstate
  {
    h.(finalBigstate := i)
  }

  /** Number of big states among the first n whose attribute is `key`. */
  function CountPrefix(bs: seq<BigState>, key: int, n: nat): nat
    requires n <= |bs|
  {
    if n == 0 then 0 else CountPrefix(bs, key, n - 1) + (if bs[n - 1].attribute == key then 1 else 0)
  }

  /** Number of big states tagged with `key`. */
  function CountByStateType(h: Hmm, key: int): nat
  {
    CountPrefix(h.bigstates, key, |h.bigstates|)
  }

  /** The count is the size of the set of indices carrying the attribute, hence at most the state count. */
  lemma {:induction false} CountPrefixIsCardinality(bs: seq<BigState>, key: int, n: nat)
    requires n <= |bs|
    ensures CountPrefix(bs, key, n) == |set i | 0 <= i < n && bs[i].attribute == key|
    ensures CountPrefix(bs, key, n) <= n
  {
    var s := set i | 0 <= i < n && bs[i].attribute == key;
    if n == 0 {
      assert s == {};
    } else {
      CountPrefixIsCardinality(bs, key, n - 1);
      var s' := set i | 0 <= i < n - 1 && bs[i].attribute == key;
      if bs[n - 1].attribute == key {
        assert s == s' + {n - 1};
      } else {
        assert s == s';
      }
    }
  }

  lemma CountByStateTypeBounded(h: Hmm, key: int)
    requires h.Valid()
    ensures CountByStateType(h, key) == |set i | 0 <= i < |h.bigstates| && h.bigstates[i].attribute == key|
    ensures CountByStateType(h, key) <= h.StateNum()
  {
    CountPrefixIsCardinality(h.bigstates, key, |h.bigstates|);
  }

  /** No state carries the attribute exactly when the count is zero. */
  lemma CountZeroIff(h: Hmm, key: int)
    ensures CountByStateType(h, key) == 0 <==>
            forall i :: 0 <= i < |h.bigstates| ==> h.bigstates[i].attribute != key
  {
    CountPrefixIsCardinality(h.bigstates, key, |h.bigstates|);
    var s := set i | 0 <= i < |h.bigstates| && h.bigstates[i].attribute == key;
    if exists i :: 0 <= i < |h.bigstates| && h.bigstates[i].attribute == key {
      var i :| 0 <= i < |h.bigstates| && h.bigstates[i].attribute == key;
      assert i in s;
    } else {
      assert s == {};
    }
  }

  lemma {:induction false} CountPrefixOfPrefix(a: seq<BigState>, b: seq<BigState>, key: int, n: nat)
    requires n <= |a| && n <= |b| && a[..n] == b[..n]
    ensures CountPrefix(a, key, n) == CountPrefix(b, key, n)
  {
    if n > 0 {
      assert a[n - 1] == a[..n][n - 1];
      assert b[n - 1] == b[..n][n - 1];
      assert a[..n - 1] == a[..n][..n - 1];
      assert b[..n - 1] == b[..n][..n - 1];
      CountPrefixOfPrefix(a, b, key, n - 1);
    }
  }

  /** Adding one state raises the count of its attribute by one and leaves the others alone. */
  lemma CountAfterAdd(h: Hmm, bs: BigState, connect: seq<Transition>, key: int)
    ensures CountByStateType(AddState(h, bs, connect), key)
            == CountByStateType(h, key) + (if bs.attribute == key then 1 else 0)
  {
    var r := AddState(h, bs, connect);
    CountPrefixOfPrefix(r.bigstates, h.bigstates, key, |h.bigstates|);
  }

  /** Every transition destination of the graph is below `bound`. */
  predicate TargetsBelow(h: Hmm, bound: nat)
  {
    forall i, k :: 0 <= i < |h.transitionProbs| && 0 <= k < |h.transitionProbs[i]| ==>
      h.transitionProbs[i][k].dst < bound
  }

  /** Every destination of one transition list is below `bound`. */
  predicate ListBelow(connect: seq<Transition>, bound: nat)
  {
    forall k :: 0 <= k < |connect| ==> connect[k].dst < bound
  }

  /** Every list below the bound puts every target of the graph below it. */
  lemma RowsBelow(h: Hmm, bound: nat)
    requires forall i :: 0 <= i < |h.transitionProbs| ==> ListBelow(h.transitionProbs[i], bound)
    ensures TargetsBelow(h, bound)
  {
  }

  /** Adding a state whose transitions stay below the bound keeps every target below it. */
  lemma TargetsAfterAdd(h: Hmm, bs: BigState, connect: seq<Transition>, bound: nat)
    requires TargetsBelow(h, bound) && ListBelow(connect, bound)
    ensures TargetsBelow(AddState(h, bs, connect), bound)
  {
    var r := AddState(h, bs, connect);
    forall i, k | 0 <= i < |r.transitionProbs| && 0 <= k < |r.transitionProbs[i]|
      ensures r.transitionProbs[i][k].dst < bound
    {
      if i < |h.transitionProbs| {
        assert r.transitionProbs[i] == h.transitionProbs[i];
      }
    }
  }

  /** The graph obtained by adding the given (state, transitions) pairs in order to a fresh Hmm. */
  function Build(items: seq<(BigState, seq<Transition>)>): Hmm
  {
    if |items| == 0 then NewHmm()
    else AddState(Build(items[..|items| - 1]), items[|items| - 1].0, items[|items| - 1].1)
  }

  /** After a sequence of additions, state i and transition list i are exactly the i-th ones
      supplied, getBigStates lists them in insertion order, and the counter matches. */
  lemma {:induction false} BuildRecordsInsertions(items: seq<(BigState, seq<Transition>)>)
    ensures Build(items).Valid()
    ensures Build(items).StateNum() == |items|
    ensures |Build(items).GetBigStates()| == |items|
    ensures forall i :: 0 <= i < |items| ==>
              Build(items).GetBigStates()[i] == items[i].0 && Build(items).GetTransition(i) == items[i].1
    ensures Build(items).initialBigstate == 0 && Build(items).finalBigstate == 0
  {
    if |items| > 0 {
      var prefix := items[..|items| - 1];
      BuildRecordsInsertions(prefix);
      var h := Build(prefix);
      var r := Build(items);
      forall i | 0 <= i < |items|
        ensures r.GetBigStates()[i] == items[i].0 && r.GetTransition(i) == items[i].1
      {
        if i < |prefix| {
          assert r.bigstates[..|h.bigstates|] == h.bigstates;
          assert r.bigstates[i] == h.bigstates[i];
          assert r.transitionProbs[..|h.transitionProbs|] == h.transitionProbs;
          assert r.transitionProbs[i] == h.transitionProbs[i];
          assert prefix[i] == items[i];
        }
      }
    }
  }
}

=== FILE: hmm_fujisaki.dfy ===
/** The Fujisaki-specific part of the HMM: the transition-parameter record, its duration
    regulariser, and the two topology builders ("loop" and "serialized"). */
module HmmFujisaki {
  import opened Util
  import opened BigStates
  import opened Hmms

  /** Duration distributions of the four command/reset roles and the two accent-to-reset weights. */
  datatype TransParams = TransParams(
    r0duration: seq<real>,
    r1duration: seq<real>,
    acduration: seq<real>,
    phduration: seq<real>,
    probAtor0: real,
    probAtor1: real)

  // ---------------------------------------------------------------------------
  // Accent-duration regularisation
  // ---------------------------------------------------------------------------

  /** Index of the first strictly positive entry at or after i, or |s| if there is none. */
  function FirstPositiveFrom(s: seq<real>, i: nat): (w: nat)
    requires i <= |s|
    ensures i <= w <= |s|
    ensures forall k :: i <= k < w ==> !(s[k] > 0.0)
    ensures w < |s| ==> s[w] > 0.0
    decreases |s| - i
  {
    if i == |s| then |s| else if s[i] > 0.0 then i else FirstPositiveFrom(s, i + 1)
  }

  function FirstPositive(s: seq<real>): nat
  {
    FirstPositiveFrom(s, 0)
  }

  /** The mass assigned to every zero entry after the first positive one and to every entry of
      the appended tail: the mass from the first positive entry onward, times the factor, divided
      by the original length plus the number of those zeros (the count starts at the length). */
  function Regularizer(s: seq<real>, factor: real): real
    requires FirstPositive(s) < |s|
  {
    var w := FirstPositive(s);
    Share(Scale(Sum(s[w..]), factor), Count(s[w..], 0.0) + |s|)
  }

  /** x multiplied by g; kept as a named function so that equal arguments give equal products
      without arithmetic reasoning. */
  function Scale(x: real, g: real): real
  {
    g * x
  }

  /** Taking the fraction f away and putting it back leaves the value unchanged. */
  lemma ScaleComplement(x: real, f: real)
    ensures Scale(x, 1.0 - f) + Scale(x, f) == x
  {
  }

  /** `mass` divided into `n` equal parts. */
  function Share(mass: real, n: nat): real
  {
    if n == 0 then 0.0 else mass / (n as real)
  }

  /** n shares of a mass add back up to the mass. */
  lemma ShareBalance(mass: real, n: nat)
    requires n > 0
    ensures Times(n, Share(mass, n)) == mass
  {
    TimesIsProduct(n, Share(mass, n));
    DivMul(mass, n as real);
  }

  /** What regularisation does to one entry after the first positive one. */
  function Adjust(x: real, scale: real, reg: real): real
  {
    if x == 0.0 then reg else Scale(x, scale)
  }

  /** Zero entries receive the regulariser, non-zero ones are multiplied by `scale`. */
  function Redistribute(t: seq<real>, scale: real, reg: real): (r: seq<real>)
    ensures |r| == |t|
  {
    seq(|t|, k requires 0 <= k < |t| => Adjust(t[k], scale, reg))
  }

  /** Left-to-right total of the adjusted entries. */
  function AdjustedMass(t: seq<real>, scale: real, reg: real): real
  {
    if |t| == 0 then 0.0 else AdjustedMass(t[..|t| - 1], scale, reg) + Adjust(t[|t| - 1], scale, reg)
  }

  lemma {:induction false} RedistributeSum(t: seq<real>, scale: real, reg: real)
    ensures Sum(Redistribute(t, scale, reg)) == AdjustedMass(t, scale, reg)
    decreases |t|
  {
    if |t| > 0 {
      var n := |t| - 1;
      RedistributeSum(t[..n], scale, reg);
      var r := Redistribute(t, scale, reg);
      var r' := Redistribute(t[..n], scale, reg);
      assert r[..n] == r' by {
        forall k | 0 <= k < n
          ensures r[..n][k] == r'[k]
        {
        }
      }
    }
  }

  lemma AdjustStep(a: real, b: real, scale: real, c: real, x: real)
    requires a == Scale(b, scale) + c
    ensures a + Scale(x, scale) == Scale(b + x, scale) + c
  {
  }

  /** Scaling contributes scale·Sum(t); every zero entry contributes reg. */
  lemma {:induction false} AdjustedMassValue(t: seq<real>, scale: real, reg: real)
    ensures AdjustedMass(t, scale, reg) == Scale(Sum(t), scale) + Times(Count(t, 0.0), reg)
    decreases |t|
  {
    if |t| > 0 {
      var n := |t| - 1;
      AdjustedMassValue(t[..n], scale, reg);
      AdjustStep(AdjustedMass(t[..n], scale, reg), Sum(t[..n]), scale, Times(Count(t[..n], 0.0), reg), t[n]);
    }
  }

  lemma RedistributeMass(t: seq<real>, scale: real, reg: real)
    ensures Sum(Redistribute(t, scale, reg)) == Scale(Sum(t), scale) + Times(Count(t, 0.0), reg)
  {
    RedistributeSum(t, scale, reg);
    AdjustedMassValue(t, scale, reg);
  }

  /** The mass balance behind regularisation: scaling by 1 - factor removes factor·Sum(t),
      and the zeros of t plus the appended tail, each holding reg, give exactly that back. */
  lemma MassBalance(pre: seq<real>, mid: seq<real>, t: seq<real>, tail: seq<real>, factor: real, reg: real)
    requires Sum(mid) == Scale(Sum(t), 1.0 - factor) + Times(Count(t, 0.0), reg)
    requires forall k :: 0 <= k < |tail| ==> tail[k] == reg
    requires Times(Count(t, 0.0) + |tail|, reg) == Scale(Sum(t), factor)
    ensures Sum(pre + mid + tail) == Sum(pre) + Sum(t)
  {
    SumAppend(pre + mid, tail);
    SumAppend(pre, mid);
    SumConstant(tail, reg);
    TimesAdd(Count(t, 0.0), |tail|, reg);
    ScaleComplement(Sum(t), factor);
  }

  lemma DivMul(a: real, c: real)
    requires c != 0.0
    ensures c * (a / c) == a
  {
  }

  /** Regularising with a regulariser whose copies on the zeros from w onward and on the tail
      carry `factor` of the mass from w onward leaves the total mass unchanged. */
  lemma RegularizedMass(s: seq<real>, w: nat, factor: real, reg: real)
    requires w <= |s|
    requires Times(Count(s[w..], 0.0) + |s|, reg) == Scale(Sum(s[w..]), factor)
    ensures Sum(s[..w] + Redistribute(s[w..], 1.0 - factor, reg) + seq(|s|, _ => reg)) == Sum(s)
  {
    RedistributeMass(s[w..], 1.0 - factor, reg);
    MassBalance(s[..w], Redistribute(s[w..], 1.0 - factor, reg), s[w..], seq(|s|, _ => reg), factor, reg);
    assert s == s[..w] + s[w..];
    SumAppend(s[..w], s[w..]);
  }

  /** The second loop of regularize: mass and zero count from w onward, the count starting at |s|. */
  method ScanTail(s: seq<real>, w: nat) returns (probSum: real, countZero: nat)
    requires w <= |s|
    ensures probSum == Sum(s[w..])
    ensures countZero == Count(s[w..], 0.0) + |s|
  {
    var len := |s|;
    countZero := len;
    probSum := 0.0;
    var i := w;
    while i < len
      invariant w <= i <= len
      invariant probSum == Sum(s[w..i])
      invariant countZero == len + Count(s[w..i], 0.0)
    {
      assert s[w..i + 1][..i - w] == s[w..i];
      probSum := probSum + s[i];
      if s[i] == 0.0 {
        countZero := countZero + 1;
      }
      i := i + 1;
    }
    assert s[w..len] == s[w..];
  }

  /** The third loop of regularize plus the appended tail. */
  method Rescale(s: seq<real>, w: nat, scale: real, reg: real) returns (r: seq<real>)
    requires w <= |s|
    ensures r == s[..w] + Redistribute(s[w..], scale, reg) + seq(|s|, _ => reg)
  {
    var len := |s|;
    r := s;
    var i := w;
    while i < len
      invariant w <= i <= len
      invariant |r| == len
      invariant forall k :: 0 <= k < w ==> r[k] == s[k]
      invariant forall k :: i <= k < len ==> r[k] == s[k]
      invariant forall k :: w <= k < i ==> r[k] == Adjust(s[k], scale, reg)
    {
      if r[i] == 0.0 {
        r := r[i := reg];
      } else {
        r := r[i := Scale(r[i], scale)];
      }
      i := i + 1;
    }
    var mid := Redistribute(s[w..], scale, reg);
    assert r == s[..w] + mid by {
      forall k | 0 <= k < len
        ensures r[k] == (s[..w] + mid)[k]
      {
        if k >= w {
          assert s[w..][k - w] == s[k];
        }
      }
    }
    r := r + seq(len, _ => reg);
  }

  /** Entry-wise reading of the regularised layout. */
  lemma RegularizedEntries(s: seq<real>, w: nat, scale: real, reg: real, r: seq<real>)
    requires w <= |s|
    requires r == s[..w] + Redistribute(s[w..], scale, reg) + seq(|s|, _ => reg)
    ensures |r| == 2 * |s|
    ensures forall k :: 0 <= k < w ==> r[k] == s[k]
    ensures forall k :: w <= k < |s| ==> r[k] == Adjust(s[k], scale, reg)
    ensures forall k :: |s| <= k < |r| ==> r[k] == reg
  {
    forall k | w <= k < |s|
      ensures r[k] == Adjust(s[k], scale, reg)
    {
      assert r[k] == Redistribute(s[w..], scale, reg)[k - w];
      assert s[w..][k - w] == s[k];
    }
  }

  /** The entry-wise shape of a regularised vector r of s (with a positive entry): twice as
      long; entries before the first positive one kept; later zeros set to the regulariser and
      later non-zeros scaled by 1 - factor; the appended tail all regulariser. */
  predicate RegularizedForm(s: seq<real>, factor: real, r: seq<real>)
    requires FirstPositive(s) < |s|
  {
    var w, reg := FirstPositive(s), Regularizer(s, factor);
    && |r| == 2 * |s|
    && (forall k :: 0 <= k < w ==> r[k] == s[k])
    && (forall k :: w <= k < |s| ==> r[k] == Adjust(s[k], 1.0 - factor, reg))
    && (forall k :: |s| <= k < |r| ==> r[k] == reg)
  }

  /** TransParams::regularize, on the accent duration vector: a no-op when no entry is positive;
      otherwise entries before the first positive one are kept, later zeros get the regulariser,
      later non-zeros are scaled by (1 - factor), and a tail of |s| regulariser entries is appended.
      The total mass is preserved, which is what the length-based zero count achieves. */
  method Regularize(acduration: seq<real>, distributionFactor: real) returns (r: seq<real>)
    ensures FirstPositive(acduration) == |acduration| ==> r == acduration
    ensures FirstPositive(acduration) < |acduration| ==> RegularizedForm(acduration, distributionFactor, r)
    ensures Sum(r) == Sum(acduration)
  {
    var len := |acduration|;
    var whereNonzeroFirst := len;
    var i := 0;
    while i < len
      invariant 0 <= i <= len
      invariant FirstPositiveFrom(acduration, i) == FirstPositive(acduration)
    {
      if acduration[i] > 0.0 {
        whereNonzeroFirst := i;
        break;
      }
      i := i + 1;
    }
    if whereNonzeroFirst == len {
      return acduration;
    }
    var w := whereNonzeroFirst;
    assert w == FirstPositive(acduration);
    var probSum, countZero := ScanTail(acduration, w);
    var regularizer := Share(Scale(probSum, distributionFactor), countZero);
    assert regularizer == Regularizer(acduration, distributionFactor);
    r := Rescale(acduration, w, 1.0 - distributionFactor, regularizer);
    RegularizedLayout(acduration, distributionFactor, r);
    RegularizedLayoutMass(acduration, distributionFactor, r);
  }

  /** The layout Rescale produces, with the regulariser of s, reads entry-wise as Regularize
      promises. */
  lemma RegularizedLayout(s: seq<real>, factor: real, r: seq<real>)
    requires FirstPositive(s) < |s|
    requires var w, reg := FirstPositive(s), Regularizer(s, factor);
             r == s[..w] + Redistribute(s[w..], 1.0 - factor, reg) + seq(|s|, _ => reg)
    ensures RegularizedForm(s, factor, r)
  {
    RegularizedEntries(s, FirstPositive(s), 1.0 - factor, Regularizer(s, factor), r);
  }

  /** ... and keeps the total mass. */
  lemma {:induction false} RegularizedLayoutMass(s: seq<real>, factor: real, r: seq<real>)
    requires FirstPositive(s) < |s|
    requires var w, reg := FirstPositive(s), Regularizer(s, factor);
             r == s[..w] + Redistribute(s[w..], 1.0 - factor, reg) + seq(|s|, _ => reg)
    ensures Sum(r) == Sum(s)
  {
    var w := FirstPositive(s);
    RegularizerBalance(s, factor, w);
    RegularizedMass(s, w, factor, Regularizer(s, factor));
  }

  /** The regulariser's copies, one per zero from the first positive entry on and one per
      entry of the appended tail, carry `factor` of the mass from that entry on. */
  lemma RegularizerBalance(s: seq<real>, factor: real, w: nat)
    requires w == FirstPositive(s) < |s|
    ensures Times(Count(s[w..], 0.0) + |s|, Regularizer(s, factor)) == Scale(Sum(s[w..]), factor)
  {
    ShareBalance(Scale(Sum(s[w..]), factor), Count(s[w..], 0.0) + |s|);
  }

  /** Regularisation of a whole parameter record touches the accent durations only. */
  method RegularizeParams(tp: TransParams, distributionFactor: real) returns (r: TransParams)
    ensures r.r0duration == tp.r0duration && r.r1duration == tp.r1duration
    ensures r.phduration == tp.phduration
    ensures r.probAtor0 == tp.probAtor0 && r.probAtor1 == tp.probAtor1
    ensures Sum(r.acduration) == Sum(tp.acduration)
    ensures FirstPositive(tp.acduration) < |tp.acduration| ==> |r.acduration| == 2 * |tp.acduration|
    ensures FirstPositive(tp.acduration) == |tp.acduration| ==> r == tp
  {
    var ac := Regularize(tp.acduration, distributionFactor);
    r := tp.(acduration := ac);
  }

  // ---------------------------------------------------------------------------
  // Topology builders
  // ---------------------------------------------------------------------------

  datatype BuildError = PhraseBranchNotPositive | AccentBranchNotPositive

  /** Facts every builder step needs: the bound on targets and the two role counts. */
  lemma Added(h: Hmm, bs: BigState, connect: seq<Transition>, bound: nat)
    ensures TargetsBelow(h, bound) && ListBelow(connect, bound) ==> TargetsBelow(AddState(h, bs, connect), bound)
    ensures CountByStateType(AddState(h, bs, connect), Phrase.Code())
            == CountByStateType(h, Phrase.Code()) + (if bs.attribute == Phrase.Code() then 1 else 0)
    ensures CountByStateType(AddState(h, bs, connect), Accent.Code())
            == CountByStateType(h, Accent.Code()) + (if bs.attribute == Accent.Code() then 1 else 0)
  {
    if TargetsBelow(h, bound) && ListBelow(connect, bound) {
      TargetsAfterAdd(h, bs, connect, bound);
    }
    CountAfterAdd(h, bs, connect, Phrase.Code());
    CountAfterAdd(h, bs, connect, Accent.Code());
  }

  /** The outgoing weight of a branch entry split evenly over n branches. */
  function EvenSplit(n: nat): real
  {
    if n == 0 then 0.0 else 1.0 / (n as real)
  }

  /** The builders' repeated `addState(bs, connect)` loop: n copies appended in order. */
  method AddCopies(h: Hmm, bs: BigState, connect: seq<Transition>, n: nat, ghost bound: nat) returns (r: Hmm)
    requires h.Valid()
    ensures r.Valid() && r.StateNum() == h.StateNum() + n
    ensures forall i :: 0 <= i < |h.bigstates| ==>
              r.bigstates[i] == h.bigstates[i] && r.transitionProbs[i] == h.transitionProbs[i]
    ensures forall i :: |h.bigstates| <= i < |r.bigstates| ==>
              r.bigstates[i] == bs && r.transitionProbs[i] == connect
    ensures r.initialBigstate == h.initialBigstate && r.finalBigstate == h.finalBigstate
    ensures forall key :: CountByStateType(r, key) == CountByStateType(h, key) + (if bs.attribute == key then n else 0)
    ensures TargetsBelow(h, bound) && ListBelow(connect, bound) ==> TargetsBelow(r, bound)
  {
    r := h;
    var k := 0;
    while k < n
      invariant 0 <= k <= n
      invariant r.Valid() && r.StateNum() == h.StateNum() + k
      invariant forall i :: 0 <= i < |h.bigstates| ==>
                  r.bigstates[i] == h.bigstates[i] && r.transitionProbs[i] == h.transitionProbs[i]
      invariant forall i :: |h.bigstates| <= i < |r.bigstates| ==>
                  r.bigstates[i] == bs && r.transitionProbs[i] == connect
      invariant r.initialBigstate == h.initialBigstate && r.finalBigstate == h.finalBigstate
      invariant forall key :: CountByStateType(r, key) == CountByStateType(h, key) + (if bs.attribute == key then k else 0)
      invariant TargetsBelow(h, bound) && ListBelow(connect, bound) ==> TargetsBelow(r, bound)
    {
      forall key
        ensures CountByStateType(AddState(r, bs, connect), key)
                == CountByStateType(r, key) + (if bs.attribute == key then 1 else 0)
      {
        CountAfterAdd(r, bs, connect, key);
      }
      if TargetsBelow(h, bound) && ListBelow(connect, bound) {
        TargetsAfterAdd(r, bs, connect, bound);
      }
      r := AddState(r, bs, connect);
      k := k + 1;
    }
  }

  /** Shape every builder output has: a valid graph whose transitions stay inside it,
      BEGIN as initial state 0, END as final state without outgoing transitions,
      and the given numbers of PHRASE and ACCENT states. */
  predicate FujisakiShape(h: Hmm, total: nat, finalState: nat, phraseNum: nat, accentNum: nat)
  {
    && h.Valid()
    && h.StateNum() == total
    && finalState < total
    && h.initialBigstate == 0
    && h.finalBigstate == finalState
    && h.bigstates[0].attribute == Begin.Code()
    && h.bigstates[finalState].attribute == End.Code()
    && h.transitionProbs[finalState] == []
    && CountByStateType(h, Phrase.Code()) == phraseNum
    && CountByStateType(h, Accent.Code()) == accentNum
    && TargetsBelow(h, total)
  }

  /** The six fixed states of the loop topology: BEGIN(0), margin reset(1), reset0(2), reset1(3),
      margin reset(4) and END(5); both resets and the first margin fan out to the branches. */
  function LoopHead(st: TransParams, marginLength: nat, toPhrase: seq<Transition>, toAccent: seq<Transition>): Hmm
  {
    var bsRinf := MakeBigState(seq(marginLength, _ => 1.0), ResetOther.Code());
    var h := AddState(NewHmm(), MakeBigState([1.0], Begin.Code()), [Transition(1, 1.0)]);
    var h := AddState(h, bsRinf, toPhrase);
    var h := AddState(h, MakeBigState(st.r0duration, Reset0.Code()), toPhrase);
    var h := AddState(h, MakeBigState(st.r1duration, Reset1.Code()), toAccent);
    var h := AddState(h, bsRinf, [Transition(5, 1.0)]);
    AddState(h, MakeBigState([1.0], End.Code()), [])
  }

  /** The six additions amount to this literal graph. */
  lemma LoopHeadLiteral(st: TransParams, marginLength: nat, toPhrase: seq<Transition>, toAccent: seq<Transition>)
    ensures var bsRinf := MakeBigState(seq(marginLength, _ => 1.0), ResetOther.Code());
      LoopHead(st, marginLength, toPhrase, toAccent)
      == Hmm([MakeBigState([1.0], Begin.Code()), bsRinf, MakeBigState(st.r0duration, Reset0.Code()),
              MakeBigState(st.r1duration, Reset1.Code()), bsRinf, MakeBigState([1.0], End.Code())],
             6,
             [[Transition(1, 1.0)], toPhrase, toPhrase, toAccent, [Transition(5, 1.0)], []],
             0, 0)
  {
  }

  lemma LoopHeadShape(st: TransParams, marginLength: nat, toPhrase: seq<Transition>, toAccent: seq<Transition>,
                      bound: nat, h: Hmm)
    requires 6 <= bound && ListBelow(toPhrase, bound) && ListBelow(toAccent, bound)
    requires h == LoopHead(st, marginLength, toPhrase, toAccent)
    ensures h.Valid() && h.StateNum() == 6
    ensures h.bigstates[0].attribute == Begin.Code() && h.bigstates[5].attribute == End.Code()
    ensures h.transitionProbs[5] == []
    ensures CountByStateType(h, Phrase.Code()) == 0 && CountByStateType(h, Accent.Code()) == 0
    ensures TargetsBelow(h, bound)
  {
    LoopHeadLiteral(st, marginLength, toPhrase, toAccent);
    var bsRinf := MakeBigState(seq(marginLength, _ => 1.0), ResetOther.Code());
    var t0 := [Transition(1, 1.0)];
    var t4 := [Transition(5, 1.0)];
    assert ListBelow(t0, bound) && ListBelow(t4, bound);
    HeadShape(MakeBigState([1.0], Begin.Code()), bsRinf, MakeBigState(st.r0duration, Reset0.Code()),
              MakeBigState(st.r1duration, Reset1.Code()), bsRinf, MakeBigState([1.0], End.Code()),
              t0, toPhrase, toPhrase, toAccent, t4, [], bound);
  }

  /** No phrase or accent role: the states a topology's fixed skeleton is made of. */
  predicate Skeletal(b: BigState)
  {
    b.attribute != Phrase.Code() && b.attribute != Accent.Code()
  }

  /** Six skeleton states with every target below the bound. */
  lemma HeadShape(b0: BigState, b1: BigState, b2: BigState, b3: BigState, b4: BigState, b5: BigState,
                  t0: seq<Transition>, t1: seq<Transition>, t2: seq<Transition>,
                  t3: seq<Transition>, t4: seq<Transition>, t5: seq<Transition>, bound: nat)
    requires Skeletal(b0) && Skeletal(b1) && Skeletal(b2) && Skeletal(b3) && Skeletal(b4) && Skeletal(b5)
    requires ListBelow(t0, bound) && ListBelow(t1, bound) && ListBelow(t2, bound)
    requires ListBelow(t3, bound) && ListBelow(t4, bound) && ListBelow(t5, bound)
    ensures var h := Hmm([b0, b1, b2, b3, b4, b5], 6, [t0, t1, t2, t3, t4, t5], 0, 0);
            h.Valid() && TargetsBelow(h, bound) &&
            CountByStateType(h, Phrase.Code()) == 0 && CountByStateType(h, Accent.Code()) == 0
  {
    var h := Hmm([b0, b1, b2, b3, b4, b5], 6, [t0, t1, t2, t3, t4, t5], 0, 0);
    RowsBelow(h, bound);
    CountZeroIff(h, Phrase.Code());
    CountZeroIff(h, Accent.Code());
  }

  /** The accent branches' exits in the loop topology: to reset0 and reset1 in the ratio
      probAtor0 : probAtor1, and to the closing margin reset with weight 1. */
  function LoopAccentOut(st: TransParams): seq<Transition>
    requires st.probAtor0 + st.probAtor1 != 0.0
  {
    var ator0 := st.probAtor0 / (st.probAtor0 + st.probAtor1);
    var ator1 := st.probAtor1 / (st.probAtor0 + st.probAtor1);
    [Transition(2, ator0), Transition(3, ator1), Transition(4, 1.0)]
  }

  /** The branch part of the loop topology: states 6..6+P-1 are phrase branches returning to
      reset1 (state 3), the rest are accent branches with the LoopAccentOut exits. */
  predicate LoopBranches(h: Hmm, P: nat, st: TransParams)
    requires h.Valid() && st.probAtor0 + st.probAtor1 != 0.0
  {
    && (forall i :: 6 <= i < 6 + P && i < |h.bigstates| ==>
          h.bigstates[i].attribute == Phrase.Code() && h.transitionProbs[i] == [Transition(3, 1.0)])
    && (forall i :: 6 + P <= i < |h.bigstates| ==>
          h.bigstates[i].attribute == Accent.Code() && h.transitionProbs[i] == LoopAccentOut(st))
  }

  /** The loop topology for positive branch counts. */
  method AssembleLoop(P: nat, A: nat, st: TransParams, marginLength: nat) returns (h: Hmm)
    requires P >= 1 && A >= 1 && st.probAtor0 + st.probAtor1 != 0.0
    ensures FujisakiShape(h, 6 + P + A, 5, P, A)
    ensures LoopBranches(h, P, st)
  {
    var total := 6 + P + A;
    var bsAc := MakeBigState(st.acduration, Accent.Code());
    var bsPh := MakeBigState(st.phduration, Phrase.Code());
    var toPhrase := seq(P, i requires 0 <= i < P => Transition(6 + i, EvenSplit(P)));
    var toAccent := seq(A, i requires 0 <= i < A => Transition(6 + P + i, EvenSplit(A)));
    assert ListBelow(toPhrase, total) && ListBelow(toAccent, total);

    var h0 := LoopHead(st, marginLength, toPhrase, toAccent);
    LoopHeadShape(st, marginLength, toPhrase, toAccent, total, h0);
    assert ListBelow([Transition(3, 1.0)], total);
    var h1 := AddCopies(h0, bsPh, [Transition(3, 1.0)], P, total);

    var accentOut := LoopAccentOut(st);
    assert ListBelow(accentOut, total);
    var h2 := AddCopies(h1, bsAc, accentOut, A, total);

    h := SetInitialState(h2, 0);
    h := SetFinalState(h, 5);
  }

  /** makeLoopFujisakiHmm: BEGIN, a margin reset, reset0, reset1, a second margin reset and END,
      followed by the phrase branches (each back to reset1) and the accent branches (each to
      reset0, reset1 and the closing margin); a non-positive branch count is fatal. */
  method MakeLoopFujisakiHmm(phraseBranchNum: nat, accentBranchNum: nat, st: TransParams, marginLength: nat)
    returns (r: Result<Hmm, BuildError>)
    requires phraseBranchNum >= 1 && accentBranchNum >= 1 ==> st.probAtor0 + st.probAtor1 != 0.0
    ensures phraseBranchNum < 1 ==> r == Failure(PhraseBranchNotPositive)
    ensures phraseBranchNum >= 1 && accentBranchNum < 1 ==> r == Failure(AccentBranchNotPositive)
    ensures phraseBranchNum >= 1 && accentBranchNum >= 1 ==>
              && r.Success?
              && FujisakiShape(r.value, 6 + phraseBranchNum + accentBranchNum, 5, phraseBranchNum, accentBranchNum)
              && LoopBranches(r.value, phraseBranchNum, st)
  {
    if phraseBranchNum < 1 {
      return Failure(PhraseBranchNotPositive);
    }
    if accentBranchNum < 1 {
      return Failure(AccentBranchNotPositive);
    }
    var h := AssembleLoop(phraseBranchNum, accentBranchNum, st, marginLength);
    return Success(h);
  }

  /** The number of states makeSerializedFujisakiHmm creates for accentNum accent clusters. */
  function SerializedStateNum(accentNum: nat, phraseBranchNum: nat, accentBranchNum: nat): nat
  {
    accentNum * (accentBranchNum + phraseBranchNum + 2) + 3
  }

  /** n blocks of k: the multiplication the builder's counters perform one block at a time. */
  function Blocks(n: nat, k: nat): nat
  {
    if n == 0 then 0 else Blocks(n - 1, k) + k
  }

  lemma {:induction false} BlocksMono(a: nat, b: nat, k: nat)
    requires a <= b
    ensures Blocks(a, k) <= Blocks(b, k)
    decreases b
  {
    if a < b {
      BlocksMono(a, b - 1, k);
    }
  }

  lemma {:induction false} BlocksIsProduct(n: nat, k: nat)
    ensures Blocks(n, k) == n * k
  {
    if n > 0 {
      BlocksIsProduct(n - 1, k);
    }
  }

  /** The block-by-block counters of the serialized builder reach the closed forms. */
  lemma SerializedCounts(n: nat, P: nat, A: nat)
    requires n >= 1
    ensures Blocks(n - 1, A + P + 2) + (A + P + 2) + 3 == SerializedStateNum(n, P, A)
    ensures P + Blocks(n - 1, P) == n * P
    ensures Blocks(n - 1, A) + A == n * A
  {
    BlocksIsProduct(n, A + P + 2);
    BlocksIsProduct(n, P);
    BlocksIsProduct(n, A);
  }

  /** One accent cluster of the serialized topology, appended at c = h.StateNum(): reset1 (c)
      fanning out evenly to the accent branches c+1..c+A, each going to reset0 (c+A+1) with
      weight ator0 or to the next cluster's reset1 (c+A+P+2) with weight ator1; reset0 fans out
      to the phrase branches, which all go to that next reset1. */
  method AddCluster(h: Hmm, bsR1: BigState, bsAc: BigState, bsR0: BigState, bsPh: BigState,
                    P: nat, A: nat, ator0: real, ator1: real, ghost bound: nat) returns (r: Hmm)
    requires h.Valid()
    requires h.StateNum() + A + P + 2 < bound
    requires bsR1.attribute == Reset1.Code() && bsAc.attribute == Accent.Code()
    requires bsR0.attribute == Reset0.Code() && bsPh.attribute == Phrase.Code()
    ensures r.Valid() && r.StateNum() == h.StateNum() + (A + P + 2)
    ensures forall i :: 0 <= i < |h.bigstates| ==> r.bigstates[i] == h.bigstates[i]
    ensures r.initialBigstate == h.initialBigstate && r.finalBigstate == h.finalBigstate
    ensures CountByStateType(r, Phrase.Code()) == CountByStateType(h, Phrase.Code()) + P
    ensures CountByStateType(r, Accent.Code()) == CountByStateType(h, Accent.Code()) + A
    ensures TargetsBelow(h, bound) ==> TargetsBelow(r, bound)
  {
    var c := h.StateNum();
    var toAccent := seq(A, j requires 0 <= j < A => Transition(c + 1 + j, EvenSplit(A)));
    var r0Id := c + 1 + A;
    var r1Id := r0Id + 1 + P;
    var accentOut := [Transition(r0Id, ator0), Transition(r1Id, ator1)];
    assert ListBelow(toAccent, bound) && ListBelow(accentOut, bound);
    var h2 := AddFan(h, bsR1, toAccent, bsAc, accentOut, A, bound);

    var toPhrase := seq(P, k requires 0 <= k < P => Transition(r0Id + 1 + k, 1.0));
    var phraseOut := [Transition(r1Id, 1.0)];
    assert ListBelow(toPhrase, bound) && ListBelow(phraseOut, bound);
    r := AddFan(h2, bsR0, toPhrase, bsPh, phraseOut, P, bound);
  }

  /** A skeleton state followed by n copies of a branch state: half of an accent cluster. */
  method AddFan(h: Hmm, head: BigState, fan: seq<Transition>, branch: BigState, out: seq<Transition>,
                n: nat, ghost bound: nat) returns (r: Hmm)
    requires h.Valid() && Skeletal(head)
    requires ListBelow(fan, bound) && ListBelow(out, bound)
    ensures r.Valid() && r.StateNum() == h.StateNum() + 1 + n
    ensures forall i :: 0 <= i < |h.bigstates| ==> r.bigstates[i] == h.bigstates[i]
    ensures r.initialBigstate == h.initialBigstate && r.finalBigstate == h.finalBigstate
    ensures CountByStateType(r, Phrase.Code())
            == CountByStateType(h, Phrase.Code()) + (if branch.attribute == Phrase.Code() then n else 0)
    ensures CountByStateType(r, Accent.Code())
            == CountByStateType(h, Accent.Code()) + (if branch.attribute == Accent.Code() then n else 0)
    ensures TargetsBelow(h, bound) ==> TargetsBelow(r, bound)
  {
    Added(h, head, fan, bound);
    var h1 := AddState(h, head, fan);
    r := AddCopies(h1, branch, out, n, bound);
  }

  /** The opening of the serialized topology: BEGIN, a margin reset fanning out to the phrase
      branches 2..P+1, and the phrase branches, all leading to the first reset1 at P+2. */
  method SerializedHead(bsBegin: BigState, bsRinf: BigState, bsPh: BigState, P: nat, ghost bound: nat)
    returns (h: Hmm)
    requires P + 2 < bound
    requires bsBegin.attribute == Begin.Code() && bsRinf.attribute == ResetOther.Code()
    requires bsPh.attribute == Phrase.Code()
    ensures h.Valid() && h.StateNum() == 2 + P
    ensures h.bigstates[0].attribute == Begin.Code()
    ensures h.initialBigstate == 0 && h.finalBigstate == 0
    ensures CountByStateType(h, Phrase.Code()) == P && CountByStateType(h, Accent.Code()) == 0
    ensures TargetsBelow(h, bound)
  {
    h := NewHmm();
    assert ListBelow([Transition(1, 1.0)], bound);
    Added(h, bsBegin, [Transition(1, 1.0)], bound);
    h := AddState(h, bsBegin, [Transition(1, 1.0)]);
    var toPhrase0 := seq(P, i requires 0 <= i < P => Transition(2 + i, 1.0));
    assert ListBelow(toPhrase0, bound);
    Added(h, bsRinf, toPhrase0, bound);
    h := AddState(h, bsRinf, toPhrase0);
    assert ListBelow([Transition(2 + P, 1.0)], bound);
    h := AddCopies(h, bsPh, [Transition(2 + P, 1.0)], P, bound);
  }

  /** The closing of the serialized topology, appended at c = h.StateNum(): reset1 fanning out
      evenly to the accent branches, each going to the closing margin reset, which goes to END;
      END is the last state, at c + A + 2, and has no transitions. */
  method SerializedTail(h: Hmm, bsR1: BigState, bsAc: BigState, bsRinf: BigState, bsEnd: BigState, A: nat)
    returns (r: Hmm)
    requires h.Valid()
    requires bsR1.attribute == Reset1.Code() && bsAc.attribute == Accent.Code()
    requires bsRinf.attribute == ResetOther.Code() && bsEnd.attribute == End.Code()
    ensures r.Valid() && r.StateNum() == h.StateNum() + A + 3
    ensures forall i :: 0 <= i < |h.bigstates| ==> r.bigstates[i] == h.bigstates[i]
    ensures r.bigstates[r.StateNum() - 1].attribute == End.Code()
    ensures r.transitionProbs[r.StateNum() - 1] == []
    ensures r.initialBigstate == h.initialBigstate && r.finalBigstate == h.finalBigstate
    ensures CountByStateType(r, Phrase.Code()) == CountByStateType(h, Phrase.Code())
    ensures CountByStateType(r, Accent.Code()) == CountByStateType(h, Accent.Code()) + A
    ensures TargetsBelow(h, r.StateNum()) ==> TargetsBelow(r, r.StateNum())
  {
    var total := h.StateNum() + A + 3;
    var r1Id := h.StateNum();
    var rinfId := r1Id + 1 + A;
    var toAccent := seq(A, j requires 0 <= j < A => Transition(r1Id + 1 + j, EvenSplit(A)));
    assert ListBelow(toAccent, total);
    Added(h, bsR1, toAccent, total);
    var h1 := AddState(h, bsR1, toAccent);
    assert ListBelow([Transition(rinfId, 1.0)], total);
    var h2 := AddCopies(h1, bsAc, [Transition(rinfId, 1.0)], A, total);
    assert ListBelow([Transition(h2.StateNum() + 1, 1.0)], total);
    Added(h2, bsRinf, [Transition(h2.StateNum() + 1, 1.0)], total);
    var h3 := AddState(h2, bsRinf, [Transition(h2.StateNum() + 1, 1.0)]);
    assert ListBelow([], total);
    Added(h3, bsEnd, [], total);
    r := AddState(h3, bsEnd, []);
  }

  /** makeSerializedFujisakiHmm: BEGIN, a margin reset and the opening phrase branches, then
      accentNum - 1 clusters (reset1, accent branches, reset0, phrase branches), then a closing
      reset1, accent branches, margin reset and END. accentNum >= 1 is required: the source loops
      up to the unsigned value accentNum - 1. */
  method MakeSerializedFujisakiHmm(
    accentNum: nat, st: TransParams, marginLength: nat, longestAccentCommFrame: nat,
    phraseBranchNum: nat, accentBranchNum: nat)
    returns (h: Hmm)
    requires accentNum >= 1
    requires st.probAtor0 + st.probAtor1 != 0.0
    ensures FujisakiShape(h, SerializedStateNum(accentNum, phraseBranchNum, accentBranchNum),
                          SerializedStateNum(accentNum, phraseBranchNum, accentBranchNum) - 1,
                          accentNum * phraseBranchNum, accentNum * accentBranchNum)
  {
    var P := phraseBranchNum;
    var A := accentBranchNum;
    var K := A + P + 2;
    var n := accentNum;
    var total := SerializedStateNum(n, P, A);
    SerializedCounts(n, P, A);

    var bsRinf := MakeBigState(seq(marginLength, _ => 1.0), ResetOther.Code());
    var bsR0 := MakeBigState(st.r0duration, Reset0.Code());
    var bsR1 := MakeBigState(st.r1duration, Reset1.Code());
    var bsAc := MakeBigState(seq(longestAccentCommFrame, _ => 1.0), Accent.Code());
    var bsPh := MakeBigState(st.phduration, Phrase.Code());
    var bsBegin := MakeBigState([1.0], Begin.Code());
    var bsEnd := MakeBigState([1.0], End.Code());

    BlocksMono(0, n - 1, K);
    h := SerializedHead(bsBegin, bsRinf, bsPh, P, total);

    var ator0 := st.probAtor0 / (st.probAtor0 + st.probAtor1);
    var ator1 := st.probAtor1 / (st.probAtor0 + st.probAtor1);

    var iAcc := 0;
    while iAcc < n - 1
      invariant 0 <= iAcc <= n - 1
      invariant ClustersSoFar(h, iAcc, P, A, total)
    {
      BlocksMono(iAcc + 1, n - 1, K);
      h := NextCluster(h, iAcc, bsR1, bsAc, bsR0, bsPh, P, A, ator0, ator1, total);
      iAcc := iAcc + 1;
    }
    h := CloseSerialized(h, n, bsR1, bsAc, bsRinf, bsEnd, P, A);
  }

  /** The serialized builder after its head and i accent clusters. */
  predicate ClustersSoFar(h: Hmm, i: nat, P: nat, A: nat, total: nat)
  {
    && h.Valid() && h.StateNum() == 2 + P + Blocks(i, A + P + 2)
    && h.bigstates[0].attribute == Begin.Code()
    && h.initialBigstate == 0 && h.finalBigstate == 0
    && CountByStateType(h, Phrase.Code()) == P + Blocks(i, P)
    && CountByStateType(h, Accent.Code()) == Blocks(i, A)
    && TargetsBelow(h, total)
  }

  /** One iteration of the serialized builder's cluster loop. */
  method NextCluster(h: Hmm, i: nat, bsR1: BigState, bsAc: BigState, bsR0: BigState, bsPh: BigState,
                     P: nat, A: nat, ator0: real, ator1: real, ghost total: nat) returns (r: Hmm)
    requires ClustersSoFar(h, i, P, A, total)
    requires 2 + P + Blocks(i + 1, A + P + 2) < total
    requires bsR1.attribute == Reset1.Code() && bsAc.attribute == Accent.Code()
    requires bsR0.attribute == Reset0.Code() && bsPh.attribute == Phrase.Code()
    ensures ClustersSoFar(r, i + 1, P, A, total)
  {
    r := AddCluster(h, bsR1, bsAc, bsR0, bsPh, P, A, ator0, ator1, total);
  }

  /** The closing reset1, accent branches, margin reset and END, with BEGIN and END marked. */
  method CloseSerialized(h: Hmm, n: nat, bsR1: BigState, bsAc: BigState, bsRinf: BigState, bsEnd: BigState,
                         P: nat, A: nat) returns (r: Hmm)
    requires n >= 1 && ClustersSoFar(h, n - 1, P, A, SerializedStateNum(n, P, A))
    requires bsR1.attribute == Reset1.Code() && bsAc.attribute == Accent.Code()
    requires bsRinf.attribute == ResetOther.Code() && bsEnd.attribute == End.Code()
    ensures FujisakiShape(r, SerializedStateNum(n, P, A), SerializedStateNum(n, P, A) - 1, n * P, n * A)
  {
    SerializedCounts(n, P, A);
    r := SerializedTail(h, bsR1, bsAc, bsRinf, bsEnd, A);
    r := SetInitialState(r, 0);
    r := SetFinalState(r, r.StateNum() - 1);
  }
}

=== FILE: perturb.dfy ===
/** The local search that follows each hard M-step: every accent command's block of per-frame
    amplitudes is tried at nearby frame offsets and moved to the offset that most lowers the
    distance between the regenerated and the observed log-F0. The distance is a parameter. */
module Perturb {

  /** A command as a half-open block of frames [start, end); phrase blocks are never moved. */
  datatype Block = Block(isPhrase: bool, start: int, end: int)

  function Shift(b: Block, d: int): (r: Block)
    ensures r.isPhrase == b.isPhrase && r.end - r.start == b.end - b.start
  {
    Block(b.isPhrase, b.start + d, b.end + d)
  }

  /** Blocks as the command extractor produces them over F frames: inside [0, F] and in order,
      each ending no later than the next one starts. */
  predicate Placed(bl: seq<Block>, frames: nat)
  {
    forall i :: 0 <= i < |bl| ==> 0 <= bl[i].start <= frames && 0 <= bl[i].end <= frames
  }

  predicate Disjoint(bl: seq<Block>)
  {
    forall i :: 0 <= i < |bl| - 1 ==> bl[i].end <= bl[i + 1].start
  }

  /** The frame a moved block must start after: one past the previous block's end, or 0. */
  function PrevFrame(bl: seq<Block>, i: nat): int
    requires i < |bl|
  {
    if i > 0 then bl[i - 1].end + 1 else 0
  }

  /** The frame a moved block must end before: the next block's start, or the frame count. */
  function NextFrame(bl: seq<Block>, i: nat, frames: nat): int
    requires i < |bl|
  {
    if i < |bl| - 1 then bl[i + 1].start else frames
  }

  /** A shift the search tries for block i against the neighbour bounds taken from bl:
      nonzero, starting strictly after PrevFrame and ending strictly before NextFrame. */
  predicate Admissible(bl: seq<Block>, i: nat, frames: nat, d: int)
    requires i < |bl|
  {
    d != 0 && PrevFrame(bl, i) < bl[i].start + d && bl[i].end + d < NextFrame(bl, i, frames)
  }

  /** u with the block [s, e) moved by d: the moved frames carry the block's old values, the
      rest of the old block is set to reg, and every other frame is kept. */
  function Moved(u: seq<real>, s: int, e: int, d: int, reg: real): (r: seq<real>)
    requires s < e ==> 0 <= s && e <= |u|
    ensures |r| == |u|
    ensures forall k :: 0 <= k < |u| && !(s <= k < e) && !(s + d <= k < e + d) ==> r[k] == u[k]
  {
    seq(|u|, k requires 0 <= k < |u| =>
      if s + d <= k < e + d then u[k - d] else if s <= k < e then reg else u[k])
  }

  /** An empty block (start at or after end, as a command still pending is) moves nothing. */
  lemma MovedEmpty(u: seq<real>, s: int, e: int, d: int, reg: real)
    requires e <= s
    ensures Moved(u, s, e, d, reg) == u
  {
    var m := Moved(u, s, e, d, reg);
    assert forall k :: 0 <= k < |u| ==> m[k] == u[k];
  }

  /** The source's first loop: every frame of [s, e) is set to reg. */
  method ClearBlock(u: seq<real>, s: int, e: int, reg: real) returns (r: seq<real>)
    requires s < e ==> 0 <= s && e <= |u|
    ensures |r| == |u|
    ensures forall k {:trigger r[k]} :: 0 <= k < |u| ==> r[k] == if s <= k < e then reg else u[k]
  {
    r := u;
    var j := s;
    while j < e
      invariant |r| == |u| && s <= j && (s < e ==> j <= e) && (s < e || j == s)
      invariant forall k :: 0 <= k < |u| ==> r[k] == if s <= k < j then reg else u[k]
    {
      r := r[j := reg];
      j := j + 1;
    }
  }

  /** The source's second loop: frame j + d of dst receives src[j] for every j in [s, e). */
  method CopyBlock(src: seq<real>, dst: seq<real>, s: int, e: int, d: int) returns (r: seq<real>)
    requires |dst| == |src|
    requires s < e ==> 0 <= s && e <= |src| && 0 <= s + d && e + d <= |src|
    ensures |r| == |src|
    ensures forall k {:trigger r[k]} :: 0 <= k < |src| ==>
              r[k] == if s + d <= k < e + d then src[k - d] else dst[k]
  {
    r := dst;
    var j := s;
    while j < e
      invariant |r| == |src| && s <= j && (s < e ==> j <= e) && (s < e || j == s)
      invariant forall k :: 0 <= k < |src| ==> r[k] == if s + d <= k < j + d then src[k - d] else dst[k]
    {
      r := r[j + d := src[j]];
      j := j + 1;
    }
  }

  /** The two loops of the source: clear the old block to reg, then copy each old value to its
      shifted frame. */
  method MoveBlock(u: seq<real>, s: int, e: int, d: int, reg: real) returns (r: seq<real>)
    requires s < e ==> 0 <= s && e <= |u| && 0 <= s + d && e + d <= |u|
    ensures r == Moved(u, s, e, d, reg)
  {
    var cleared := ClearBlock(u, s, e, reg);
    r := CopyBlock(u, cleared, s, e, d);
    ghost var m := Moved(u, s, e, d, reg);
    forall k | 0 <= k < |u|
      ensures r[k] == m[k]
    {
      if s + d <= k < e + d {
        assert r[k] == u[k - d] == m[k];
      } else if s <= k < e {
        assert r[k] == cleared[k] == reg == m[k];
      } else {
        assert r[k] == cleared[k] == u[k] == m[k];
      }
    }
    assert |r| == |m|;
    assert r == m;
  }

  /** The distance after moving the block [s, e) by d in both amplitude tracks. */
  function Cost(dist: (seq<real>, seq<real>) -> real, up: seq<real>, ua: seq<real>,
                s: int, e: int, d: int, reg: real): real
    requires s < e ==> 0 <= s && e <= |up| && e <= |ua|
  {
    dist(Moved(up, s, e, d, reg), Moved(ua, s, e, d, reg))
  }

  /** The search over shifts -w..w of block i (bounds from nb): the first admissible shift
      with the least distance, taken only when that distance is strictly below the distance
      of the unmoved tracks. */
  method BestShift(dist: (seq<real>, seq<real>) -> real, up: seq<real>, ua: seq<real>,
                   nb: seq<Block>, i: nat, frames: nat, w: int, reg: real)
      returns (update: bool, best: int)
    requires i < |nb| && |up| == frames && |ua| == frames && Placed(nb, frames)
    ensures var s, e := nb[i].start, nb[i].end;
            update ==> s < e && -w <= best <= w && Admissible(nb, i, frames, best) &&
                       Cost(dist, up, ua, s, e, best, reg) < dist(up, ua)
    ensures var s, e := nb[i].start, nb[i].end;
            forall d :: -w <= d <= w && Admissible(nb, i, frames, d) ==>
              if update then
                Cost(dist, up, ua, s, e, best, reg) <= Cost(dist, up, ua, s, e, d, reg) &&
                (d < best ==> Cost(dist, up, ua, s, e, best, reg) < Cost(dist, up, ua, s, e, d, reg))
              else dist(up, ua) <= Cost(dist, up, ua, s, e, d, reg)
  {
    var s, e := nb[i].start, nb[i].end;
    var minDivergence := dist(up, ua);
    update := false;
    best := 0;
    var fr := -w;
    while fr <= w
      invariant -w <= fr && (-w <= w ==> fr <= w + 1)
      invariant update ==> s < e && -w <= best <= w && best < fr && Admissible(nb, i, frames, best) &&
                           minDivergence == Cost(dist, up, ua, s, e, best, reg) && minDivergence < dist(up, ua)
      invariant !update ==> minDivergence == dist(up, ua)
      invariant forall d :: -w <= d < fr && Admissible(nb, i, frames, d) ==>
                  minDivergence <= Cost(dist, up, ua, s, e, d, reg) &&
                  (update && d < best ==> minDivergence < Cost(dist, up, ua, s, e, d, reg))
    {
      if fr != 0 && !(PrevFrame(nb, i) >= s + fr || NextFrame(nb, i, frames) <= e + fr) {
        var upTmp := MoveBlock(up, s, e, fr, reg);
        var uaTmp := MoveBlock(ua, s, e, fr, reg);
        var distTmp := dist(upTmp, uaTmp);
        if e <= s {
          MovedEmpty(up, s, e, fr, reg);
          MovedEmpty(ua, s, e, fr, reg);
        }
        if distTmp < minDivergence {
          minDivergence := distTmp;
          update := true;
          best := fr;
        }
      }
      fr := fr + 1;
    }
  }

  predicate InBlock(b: Block, k: int)
  {
    b.start <= k < b.end
  }

  /** Frame k lies in none of the blocks. */
  predicate Outside(bl: seq<Block>, k: int)
  {
    forall i :: 0 <= i < |bl| ==> !InBlock(bl[i], k)
  }

  /** b2 is block i of nb after the search: either unchanged, or an accent block of at least
      one frame shifted by an admissible d in [-w, w]. */
  predicate ShiftedWithin(nb: seq<Block>, i: nat, frames: nat, w: int, b2: Block)
    requires i < |nb|
  {
    var d := b2.start - nb[i].start;
    b2 == nb[i] ||
    (!nb[i].isPhrase && nb[i].start < nb[i].end && -w <= d <= w &&
     b2 == Shift(nb[i], d) && Admissible(nb, i, frames, d))
  }

  /** best is the first admissible shift in [-w, w] of least distance for block i of nb, and
      that distance is strictly below the distance of the unmoved tracks. */
  predicate LeastShift(dist: (seq<real>, seq<real>) -> real, nb: seq<Block>, i: nat, frames: nat,
                       w: int, reg: real, up: seq<real>, ua: seq<real>, best: int)
    requires i < |nb| && |up| == frames && |ua| == frames && Placed(nb, frames)
  {
    var s, e := nb[i].start, nb[i].end;
    Cost(dist, up, ua, s, e, best, reg) < dist(up, ua)
    && forall d :: -w <= d <= w && Admissible(nb, i, frames, d) ==>
         Cost(dist, up, ua, s, e, best, reg) <= Cost(dist, up, ua, s, e, d, reg)
         && (d < best ==> Cost(dist, up, ua, s, e, best, reg) < Cost(dist, up, ua, s, e, d, reg))
  }

  /** What the search of block i (neighbour bounds from nb) did, taking the tracks (up, ua) to
      (up2, ua2) and the block to b2: a phrase block, or an accent block no admissible shift
      improves on, stays and both tracks are kept; otherwise the block moves by the first
      admissible shift of least distance, and both tracks are Moved by that shift, the vacated
      frames receiving reg. */
  predicate StepTaken(dist: (seq<real>, seq<real>) -> real, nb: seq<Block>, i: nat, frames: nat,
                      w: int, reg: real, up: seq<real>, ua: seq<real>, up2: seq<real>, ua2: seq<real>,
                      b2: Block)
  {
    i < |nb| && |up| == frames && |ua| == frames && Placed(nb, frames)
    && ShiftedWithin(nb, i, frames, w, b2)
    && (nb[i].isPhrase ==> b2 == nb[i])
    && (b2 == nb[i] ==>
          up2 == up && ua2 == ua
          && (!nb[i].isPhrase ==>
                forall d :: -w <= d <= w && Admissible(nb, i, frames, d) ==>
                  dist(up, ua) <= Cost(dist, up, ua, nb[i].start, nb[i].end, d, reg)))
    && (b2 != nb[i] ==>
          LeastShift(dist, nb, i, frames, w, reg, up, ua, b2.start - nb[i].start)
          && up2 == Moved(up, nb[i].start, nb[i].end, b2.start - nb[i].start, reg)
          && ua2 == Moved(ua, nb[i].start, nb[i].end, b2.start - nb[i].start, reg))
  }

  /** One pass of the source's outer loop for block i, with neighbour bounds from nb: phrase
      blocks are skipped; otherwise the best shift is searched and, if it strictly lowers the
      distance, both tracks are moved. */
  method Step(dist: (seq<real>, seq<real>) -> real, nb: seq<Block>, i: nat, up: seq<real>,
              ua: seq<real>, frames: nat, w: int, reg: real)
      returns (up2: seq<real>, ua2: seq<real>, b2: Block)
    requires i < |nb| && |up| == frames && |ua| == frames && Placed(nb, frames)
    ensures |up2| == frames && |ua2| == frames
    ensures StepTaken(dist, nb, i, frames, w, reg, up, ua, up2, ua2, b2)
    ensures b2 != nb[i] ==> dist(up2, ua2) < dist(up, ua)
    ensures forall k :: 0 <= k < frames && !InBlock(nb[i], k) && !InBlock(b2, k) ==>
              up2[k] == up[k] && ua2[k] == ua[k]
  {
    up2, ua2, b2 := up, ua, nb[i];
    if nb[i].isPhrase {
      return;
    }
    var s, e := nb[i].start, nb[i].end;
    var update, best := BestShift(dist, up, ua, nb, i, frames, w, reg);
    if update {
      up2 := MoveBlock(up, s, e, best, reg);
      ua2 := MoveBlock(ua, s, e, best, reg);
      b2 := Shift(nb[i], best);
      assert b2.start - nb[i].start == best;
      assert LeastShift(dist, nb, i, frames, w, reg, up, ua, best);
    }
  }

  /** tr lists the tracks before each block's search and after the last one: it runs from
      (up, ua) to (up2, ua2) over n searches. */
  predicate TraceFrom(tr: seq<(seq<real>, seq<real>)>, n: nat, up: seq<real>, ua: seq<real>,
                      up2: seq<real>, ua2: seq<real>)
  {
    |tr| == n + 1 && tr[0] == (up, ua) && tr[n] == (up2, ua2)
  }

  /** Along tr, search i of the source's sweep took block i of bl to moved[i], with bounds
      from bl itself. */
  predicate AsWrittenTrace(dist: (seq<real>, seq<real>) -> real, bl: seq<Block>, frames: nat, w: int,
                           reg: real, moved: seq<Block>, tr: seq<(seq<real>, seq<real>)>)
  {
    |moved| == |bl| && |tr| == |bl| + 1
    && forall i :: 0 <= i < |bl| ==>
         StepTaken(dist, bl, i, frames, w, reg, tr[i].0, tr[i].1, tr[i + 1].0, tr[i + 1].1, moved[i])
  }

  /** The source's loop: every block is searched with the neighbour bounds of the list as it
      was before any block moved. */
  method PerturbAsWritten(dist: (seq<real>, seq<real>) -> real, bl: seq<Block>, up: seq<real>,
                          ua: seq<real>, frames: nat, w: int, reg: real)
      returns (up2: seq<real>, ua2: seq<real>, moved: seq<Block>)
    requires |up| == frames && |ua| == frames && Placed(bl, frames)
    ensures |up2| == frames && |ua2| == frames && |moved| == |bl|
    ensures forall i :: 0 <= i < |bl| ==> ShiftedWithin(bl, i, frames, w, moved[i])
    ensures forall i :: 0 <= i < |bl| && bl[i].isPhrase ==> moved[i] == bl[i]
    ensures dist(up2, ua2) <= dist(up, ua)
    ensures moved != bl ==> dist(up2, ua2) < dist(up, ua)
    ensures forall k :: 0 <= k < frames && Outside(bl, k) && Outside(moved, k) ==>
              up2[k] == up[k] && ua2[k] == ua[k]
    ensures exists tr :: TraceFrom(tr, |bl|, up, ua, up2, ua2) && AsWrittenTrace(dist, bl, frames, w, reg, moved, tr)
  {
    up2, ua2, moved := up, ua, bl;
    ghost var tr := [(up, ua)];
    var i := 0;
    while i < |bl|
      invariant i <= |bl| && |up2| == frames && |ua2| == frames && |moved| == |bl|
      invariant TraceFrom(tr, i, up, ua, up2, ua2)
      invariant forall j :: 0 <= j < i ==>
                  StepTaken(dist, bl, j, frames, w, reg, tr[j].0, tr[j].1, tr[j + 1].0, tr[j + 1].1, moved[j])
      invariant forall j :: i <= j < |bl| ==> moved[j] == bl[j]
      invariant forall j :: 0 <= j < i ==> ShiftedWithin(bl, j, frames, w, moved[j])
      invariant forall j :: 0 <= j < i && bl[j].isPhrase ==> moved[j] == bl[j]
      invariant moved == bl || dist(up2, ua2) < dist(up, ua)
      invariant moved == bl ==> up2 == up && ua2 == ua
      invariant forall k :: 0 <= k < frames && Outside(bl, k) && Outside(moved, k) ==>
                  up2[k] == up[k] && ua2[k] == ua[k]
    {
      var u1, u2, b := Step(dist, bl, i, up2, ua2, frames, w, reg);
      KeepOutside(bl, moved, i, b, frames, up, ua, up2, ua2, u1, u2);
      up2, ua2, moved := u1, u2, moved[i := b];
      tr := tr + [(u1, u2)];
      i := i + 1;
    }
    assert AsWrittenTrace(dist, bl, frames, w, reg, moved, tr);
  }

  /** The frames untouched so far stay untouched when block i, still at bl[i], becomes b and
      only frames of bl[i] or b change. */
  lemma KeepOutside(bl: seq<Block>, moved: seq<Block>, i: nat, b: Block, frames: nat,
                    up: seq<real>, ua: seq<real>, up2: seq<real>, ua2: seq<real>,
                    u1: seq<real>, u2: seq<real>)
    requires i < |bl| == |moved| && moved[i] == bl[i]
    requires |up| == |ua| == |up2| == |ua2| == |u1| == |u2| == frames
    requires forall k :: 0 <= k < frames && Outside(bl, k) && Outside(moved, k) ==>
               up2[k] == up[k] && ua2[k] == ua[k]
    requires forall k :: 0 <= k < frames && !InBlock(bl[i], k) && !InBlock(b, k) ==>
               u1[k] == up2[k] && u2[k] == ua2[k]
    ensures forall k :: 0 <= k < frames && Outside(bl, k) && Outside(moved[i := b], k) ==>
              u1[k] == up[k] && u2[k] == ua[k]
  {
    forall k | 0 <= k < frames && Outside(bl, k) && Outside(moved[i := b], k)
      ensures u1[k] == up[k] && u2[k] == ua[k]
    {
      assert !InBlock(bl[i], k);
      assert !InBlock(moved[i := b][i], k);
      forall j | 0 <= j < |moved|
        ensures !InBlock(moved[j], k)
      {
        if j != i {
          assert moved[i := b][j] == moved[j];
        }
      }
    }
  }

  /** The list after block i of bl has become b, the blocks before it already moved. */
  function Current(bl: seq<Block>, moved: seq<Block>, i: nat): (r: seq<Block>)
    requires i <= |bl| == |moved|
    ensures |r| == |bl| && (i < |bl| ==> r[i] == bl[i])
  {
    moved[..i] + bl[i..]
  }

  /** Along tr, search i of the corrected sweep took block i to moved[i], with bounds from the
      list as it was when block i was reached. */
  predicate CurrentTrace(dist: (seq<real>, seq<real>) -> real, bl: seq<Block>, frames: nat, w: int,
                         reg: real, moved: seq<Block>, tr: seq<(seq<real>, seq<real>)>)
  {
    |moved| == |bl| && |tr| == |bl| + 1
    && forall i :: 0 <= i < |bl| ==>
         StepTaken(dist, Current(bl, moved, i), i, frames, w, reg, tr[i].0, tr[i].1, tr[i + 1].0, tr[i + 1].1, moved[i])
  }

  /** The sweep with each search bounded by the neighbours where they are now: block i's
      search sees the blocks before it at their new frames. */
  method Perturb(dist: (seq<real>, seq<real>) -> real, bl: seq<Block>, up: seq<real>,
                 ua: seq<real>, frames: nat, w: int, reg: real)
      returns (up2: seq<real>, ua2: seq<real>, moved: seq<Block>)
    requires |up| == frames && |ua| == frames && Placed(bl, frames)
    ensures |up2| == frames && |ua2| == frames && |moved| == |bl|
    ensures forall i :: 0 <= i < |bl| ==> ShiftedWithin(Current(bl, moved, i), i, frames, w, moved[i])
    ensures forall i :: 0 <= i < |bl| && bl[i].isPhrase ==> moved[i] == bl[i]
    ensures dist(up2, ua2) <= dist(up, ua)
    ensures moved != bl ==> dist(up2, ua2) < dist(up, ua)
    ensures forall k :: 0 <= k < frames && Outside(bl, k) && Outside(moved, k) ==>
              up2[k] == up[k] && ua2[k] == ua[k]
    ensures Placed(moved, frames)
    ensures Disjoint(bl) ==> Disjoint(moved)
    ensures exists tr :: TraceFrom(tr, |bl|, up, ua, up2, ua2) && CurrentTrace(dist, bl, frames, w, reg, moved, tr)
  {
    up2, ua2, moved := up, ua, bl;
    ghost var tr := [(up, ua)];
    var i := 0;
    while i < |bl|
      invariant i <= |bl|
      invariant Swept(dist, bl, up, ua, frames, w, reg, i, up2, ua2, moved, tr)
    {
      up2, ua2, moved := SweepStep(dist, bl, up, ua, frames, w, reg, i, up2, ua2, moved, tr);
      tr := tr + [(up2, ua2)];
      i := i + 1;
    }
    assert CurrentTrace(dist, bl, frames, w, reg, moved, tr);
  }

  /** The corrected sweep after blocks 0..i-1 were searched. */
  predicate Swept(dist: (seq<real>, seq<real>) -> real, bl: seq<Block>, up: seq<real>, ua: seq<real>,
                  frames: nat, w: int, reg: real, i: nat, up2: seq<real>, ua2: seq<real>, moved: seq<Block>,
                  tr: seq<(seq<real>, seq<real>)>)
  {
    && i <= |bl| && |up| == frames && |ua| == frames
    && |up2| == frames && |ua2| == frames && |moved| == |bl|
    && (forall j :: i <= j < |bl| ==> moved[j] == bl[j])
    && (forall j :: 0 <= j < i ==> ShiftedWithin(Current(bl, moved, j), j, frames, w, moved[j]))
    && (forall j :: 0 <= j < i && bl[j].isPhrase ==> moved[j] == bl[j])
    && (moved == bl || dist(up2, ua2) < dist(up, ua))
    && (moved == bl ==> up2 == up && ua2 == ua)
    && (forall k :: 0 <= k < frames && Outside(bl, k) && Outside(moved, k) ==>
          up2[k] == up[k] && ua2[k] == ua[k])
    && Placed(moved, frames)
    && (Disjoint(bl) ==> Disjoint(moved))
    && TraceFrom(tr, i, up, ua, up2, ua2)
    && SearchedSoFar(dist, bl, frames, w, reg, i, moved, tr)
  }

  /** Searches 0..i-1 of the corrected sweep, as recorded along tr. */
  predicate SearchedSoFar(dist: (seq<real>, seq<real>) -> real, bl: seq<Block>, frames: nat, w: int,
                          reg: real, i: nat, moved: seq<Block>, tr: seq<(seq<real>, seq<real>)>)
  {
    i <= |bl| == |moved| && |tr| == i + 1
    && forall j :: 0 <= j < i ==>
         StepTaken(dist, Current(bl, moved, j), j, frames, w, reg, tr[j].0, tr[j].1, tr[j + 1].0, tr[j + 1].1, moved[j])
  }

  /** Search i, run against the current list, extends the record. */
  lemma SearchedNext(dist: (seq<real>, seq<real>) -> real, bl: seq<Block>, frames: nat, w: int,
                     reg: real, i: nat, moved: seq<Block>, tr: seq<(seq<real>, seq<real>)>,
                     b: Block, up3: seq<real>, ua3: seq<real>)
    requires i < |bl| && SearchedSoFar(dist, bl, frames, w, reg, i, moved, tr)
    requires forall j :: i <= j < |bl| ==> moved[j] == bl[j]
    requires StepTaken(dist, moved, i, frames, w, reg, tr[i].0, tr[i].1, up3, ua3, b)
    ensures SearchedSoFar(dist, bl, frames, w, reg, i + 1, moved[i := b], tr + [(up3, ua3)])
  {
    CurrentKept(bl, moved, i, b);
    var moved2, tr2 := moved[i := b], tr + [(up3, ua3)];
    forall j | 0 <= j <= i
      ensures StepTaken(dist, Current(bl, moved2, j), j, frames, w, reg, tr2[j].0, tr2[j].1, tr2[j + 1].0, tr2[j + 1].1, moved2[j])
    {
      assert tr2[j] == tr[j];
      if j < i {
        assert tr2[j + 1] == tr[j + 1] && moved2[j] == moved[j];
      }
    }
  }

  /** Block i of the corrected sweep, searched against the blocks where they are now. */
  method SweepStep(dist: (seq<real>, seq<real>) -> real, bl: seq<Block>, up: seq<real>, ua: seq<real>,
                   frames: nat, w: int, reg: real, i: nat, up2: seq<real>, ua2: seq<real>, moved: seq<Block>,
                   ghost tr: seq<(seq<real>, seq<real>)>)
      returns (up3: seq<real>, ua3: seq<real>, moved2: seq<Block>)
    requires i < |bl| && Swept(dist, bl, up, ua, frames, w, reg, i, up2, ua2, moved, tr)
    ensures Swept(dist, bl, up, ua, frames, w, reg, i + 1, up3, ua3, moved2, tr + [(up3, ua3)])
  {
    var b;
    up3, ua3, b := Step(dist, moved, i, up2, ua2, frames, w, reg);
    KeepOutside(bl, moved, i, b, frames, up, ua, up2, ua2, up3, ua3);
    ShiftKeepsOrder(moved, i, frames, w, b);
    KeepHistory(bl, moved, i, frames, w, b);
    SearchedNext(dist, bl, frames, w, reg, i, moved, tr, b, up3, ua3);
    if b == moved[i] {
      assert moved[i := b] == moved;
    }
    moved2 := moved[i := b];
  }

  /** Moving block i changes none of the lists the blocks up to i were searched against, and
      the list block i is searched against is the current one. */
  lemma CurrentKept(bl: seq<Block>, moved: seq<Block>, i: nat, b: Block)
    requires i < |bl| == |moved| && forall j :: i <= j < |bl| ==> moved[j] == bl[j]
    ensures Current(bl, moved, i) == moved
    ensures forall j :: 0 <= j <= i ==> Current(bl, moved[i := b], j) == Current(bl, moved, j)
  {
    forall j | 0 <= j <= i
      ensures Current(bl, moved[i := b], j) == Current(bl, moved, j)
    {
      assert moved[i := b][..j] == moved[..j];
    }
  }

  /** A block moved within the bounds its current neighbours set stays inside the frames and
      between them. */
  lemma ShiftKeepsOrder(nb: seq<Block>, i: nat, frames: nat, w: int, b: Block)
    requires i < |nb| && Placed(nb, frames) && ShiftedWithin(nb, i, frames, w, b)
    ensures Placed(nb[i := b], frames)
    ensures Disjoint(nb) ==> Disjoint(nb[i := b])
  {
    var r := nb[i := b];
    forall j | 0 <= j < |r| - 1
      ensures Disjoint(nb) ==> r[j].end <= r[j + 1].start
    {
      if Disjoint(nb) && j != i && j + 1 != i {
        assert r[j] == nb[j] && r[j + 1] == nb[j + 1];
        assert nb[j].end <= nb[j + 1].start;
      }
    }
  }

  /** Moving block i leaves the lists each earlier block was searched against unchanged. */
  lemma KeepHistory(bl: seq<Block>, moved: seq<Block>, i: nat, frames: nat, w: int, b: Block)
    requires i < |bl| == |moved| && forall j :: i <= j < |bl| ==> moved[j] == bl[j]
    requires forall j :: 0 <= j < i ==> ShiftedWithin(Current(bl, moved, j), j, frames, w, moved[j])
    requires ShiftedWithin(moved, i, frames, w, b)
    ensures var m := moved[i := b];
            forall j :: 0 <= j <= i ==> ShiftedWithin(Current(bl, m, j), j, frames, w, m[j])
  {
    var m := moved[i := b];
    assert moved == Current(bl, moved, i);
    forall j | 0 <= j <= i
      ensures ShiftedWithin(Current(bl, m, j), j, frames, w, m[j])
    {
      if j < i {
        assert Current(bl, m, j) == Current(bl, moved, j);
      } else {
        assert Current(bl, m, i) == moved;
      }
    }
  }

  /** The neighbour bounds of the source are stale: with blocks [10, 12) and [20, 22) over 30
      frames, the first may move by +5 to [15, 17) and the second, still bounded by the first
      block's old end, by -6 to [14, 16), over the first block's new frames. Against the
      current neighbour the second shift is refused. */
  lemma StaleBoundsAdmitOverlap()
    ensures var bl := [Block(false, 10, 12), Block(false, 20, 22)];
            var moved := [Shift(bl[0], 5), Shift(bl[1], -6)];
            Placed(bl, 30) && Disjoint(bl) &&
            ShiftedWithin(bl, 0, 30, 6, moved[0]) && ShiftedWithin(bl, 1, 30, 6, moved[1]) &&
            !Disjoint(moved) &&
            !ShiftedWithin(Current(bl, moved, 1), 1, 30, 6, moved[1])
  {
    var bl := [Block(false, 10, 12), Block(false, 20, 22)];
    var moved := [Shift(bl[0], 5), Shift(bl[1], -6)];
    assert Current(bl, moved, 1) == [moved[0], bl[1]];
  }
}

=== FILE: reachability.dfy ===
/** The frame-by-small-state reachability lattice: a boolean per (frame, small state) that is
    narrowed first by the start/end flags and then by a forward and a backward sweep, so that
    only cells with a live neighbour on each side survive. */
module Reachability {
  import opened SmallStates

  type Row = seq<bool>
  type Grid = seq<Row>

  /** frames rows of n cells each. */
  predicate Shaped<T>(g: seq<seq<T>>, frames: nat, n: nat)
  {
    |g| == frames && forall f :: 0 <= f < |g| ==> |g[f]| == n
  }

  /** Forward and backward lists over the same n small states, every link pointing at one. */
  predicate Graph(fw: seq<seq<nat>>, bw: seq<seq<nat>>)
  {
    |bw| == |fw| && LinksBelow(fw) && LinksBelow(bw)
  }

  /** Some state of the list is live in the row. */
  predicate AnyOn(row: Row, list: seq<nat>)
  {
    exists k :: 0 <= k < |list| && list[k] < |row| && row[list[k]]
  }

  /** Scans the list and stops at the first live state. */
  method FindOn(row: Row, list: seq<nat>) returns (found: bool)
    ensures found <==> AnyOn(row, list)
  {
    found := false;
    var k := 0;
    while k < |list|
      invariant k <= |list|
      invariant !exists k' :: 0 <= k' < k && list[k'] < |row| && row[list[k']]
    {
      if list[k] < |row| && row[list[k]] {
        found := true;
        break;
      }
      k := k + 1;
    }
  }

  /** The strictly increasing list of the live cells of a row. */
  predicate ListsOn(row: Row, pts: seq<nat>)
  {
    (forall k :: 0 <= k < |pts| ==> pts[k] < |row| && row[pts[k]])
    && (forall i :: 0 <= i < |row| && row[i] ==> i in pts)
    && (forall a, c :: 0 <= a < c < |pts| ==> pts[a] < pts[c])
  }

  // ---------------------------------------------------------------------------------------
  // Initialisation.

  /** The first pass of the initialisation: frame 0 keeps only starting states. */
  method ClearFirstFrame(g: Grid, states: seq<SmallState>) returns (r: Grid)
    requires |g| >= 1 && Shaped(g, |g|, |states|)
    requires forall f, i :: 0 <= f < |g| && 0 <= i < |states| ==> g[f][i]
    ensures Shaped(r, |g|, |states|)
    ensures forall f :: 0 < f < |g| ==> r[f] == g[f]
    ensures forall i :: 0 <= i < |states| ==> (r[0][i] <==> states[i].isStarting)
  {
    r := g;
    var i := 0;
    while i < |states|
      invariant i <= |states| && Shaped(r, |g|, |states|)
      invariant forall f :: 0 < f < |g| ==> r[f] == g[f]
      invariant forall i' :: 0 <= i' < |states| ==> (r[0][i'] <==> i' >= i || states[i'].isStarting)
    {
      if !states[i].isStarting {
        r := r[0 := r[0][i := false]];
      }
      i := i + 1;
    }
  }

  /** The starting states, in increasing order. */
  method StartingStates(states: seq<SmallState>) returns (sp: seq<nat>)
    ensures forall i :: i in sp <==> 0 <= i < |states| && states[i].isStarting
    ensures forall a, c :: 0 <= a < c < |sp| ==> sp[a] < sp[c]
  {
    sp := [];
    var i := 0;
    while i < |states|
      invariant i <= |states|
      invariant forall i' :: i' in sp <==> 0 <= i' < i && states[i'].isStarting
      invariant forall a, c :: 0 <= a < c < |sp| ==> sp[a] < sp[c]
      invariant forall k :: 0 <= k < |sp| ==> sp[k] < i
    {
      if states[i].isStarting {
        sp := sp + [i];
      }
      i := i + 1;
    }
  }

  /** The second pass: clears frame 0 again for the non-starting states, and lists or clears
      each state of the last frame according to its ending flag. (The source also collects the
      starting states in this pass; StartingStates does that separately, with the same result.) */
  method PlaceEnds(g: Grid, states: seq<SmallState>) returns (r: Grid, ep: seq<nat>)
    requires |g| >= 1 && Shaped(g, |g|, |states|)
    requires forall i :: 0 <= i < |states| ==> (g[0][i] <==> states[i].isStarting)
    requires forall f, i :: 0 < f < |g| && 0 <= i < |states| ==> g[f][i]
    ensures Shaped(r, |g|, |states|)
    ensures forall f :: 0 < f < |g| - 1 ==> r[f] == g[f]
    ensures forall i :: 0 <= i < |states| ==>
              (r[0][i] <==> states[i].isStarting && (0 < |g| - 1 || states[i].isEnding))
    ensures forall i :: 0 <= i < |states| ==>
              (r[|g| - 1][i] <==> (0 < |g| - 1 || states[i].isStarting) && states[i].isEnding)
    ensures ListsOn(r[|g| - 1], ep)
  {
    var n := |states|;
    var last := |g| - 1;
    r := g;
    ep := [];
    var i := 0;
    while i < n
      invariant i <= n && Shaped(r, |g|, n)
      invariant forall f :: 0 < f < last ==> r[f] == g[f]
      invariant forall i' :: 0 <= i' < n ==>
                  (r[0][i'] <==> states[i'].isStarting && (0 < last || i' >= i || states[i'].isEnding))
      invariant forall i' :: 0 <= i' < n ==>
                  (r[last][i'] <==> (0 < last || states[i'].isStarting) && (i' >= i || states[i'].isEnding))
      invariant forall k :: 0 <= k < |ep| ==> ep[k] < i && r[last][ep[k]]
      invariant forall i' :: 0 <= i' < i && r[last][i'] ==> i' in ep
      invariant forall a, c :: 0 <= a < c < |ep| ==> ep[a] < ep[c]
    {
      if !states[i].isStarting {
        r := r[0 := r[0][i := false]];
      }
      if states[i].isEnding {
        if r[last][i] {
          ep := ep + [i];
        }
      } else {
        r := r[last := r[last][i := false]];
      }
      i := i + 1;
    }
  }

  /** Every cell starts live; then frame 0 keeps only starting states and the last frame only
      ending states. The starting points are all starting states; the end points are the live
      cells of the last frame (with a single frame, that is the states both starting and ending). */
  method InitReachable(frames: nat, states: seq<SmallState>) returns (g: Grid, sp: seq<nat>, ep: seq<nat>)
    requires frames >= 1
    ensures Shaped(g, frames, |states|)
    ensures forall f, i :: 0 <= f < frames && 0 <= i < |states| ==>
              (g[f][i] <==> (f > 0 || states[i].isStarting) && (f < frames - 1 || states[i].isEnding))
    ensures forall i :: i in sp <==> 0 <= i < |states| && states[i].isStarting
    ensures forall a, c :: 0 <= a < c < |sp| ==> sp[a] < sp[c]
    ensures ListsOn(g[frames - 1], ep)
  {
    var full := seq(|states|, _ => true);
    g := seq(frames, _ => full);
    g := ClearFirstFrame(g, states);
    sp := StartingStates(states);
    g, ep := PlaceEnds(g, states);
  }

  // ---------------------------------------------------------------------------------------
  // The two sweeps, as a reference definition row by row.

  /** Row f after the forward sweep: a cell stays live if it was live and some backward
      neighbour is live in the swept row before it. */
  function FwdRow(g: Grid, bw: seq<seq<nat>>, f: nat): (r: Row)
    requires f < |g|
    ensures |r| == |g[f]|
  {
    if f == 0 then g[0]
    else
      var prev := FwdRow(g, bw, f - 1);
      seq(|g[f]|, i requires 0 <= i < |g[f]| => g[f][i] && i < |bw| && AnyOn(prev, bw[i]))
  }

  /** Row f after both sweeps: a forward-swept cell stays live if some forward neighbour is live
      in the fully swept row after it; the last row is left as the forward sweep made it. */
  function BwdRow(g: Grid, fw: seq<seq<nat>>, bw: seq<seq<nat>>, f: nat): (r: Row)
    requires f < |g|
    ensures |r| == |g[f]|
    decreases |g| - f
  {
    var cur := FwdRow(g, bw, f);
    if f == |g| - 1 then cur
    else
      var next := BwdRow(g, fw, bw, f + 1);
      seq(|cur|, i requires 0 <= i < |cur| => cur[i] && i < |fw| && AnyOn(next, fw[i]))
  }

  function Swept(g: Grid, fw: seq<seq<nat>>, bw: seq<seq<nat>>): (r: Grid)
    ensures |r| == |g| && forall f :: 0 <= f < |g| ==> r[f] == BwdRow(g, fw, bw, f)
  {
    seq(|g|, f requires 0 <= f < |g| => BwdRow(g, fw, bw, f))
  }

  /** One row of the forward sweep, cell by cell in state order: a cell stays live exactly when
      it was live and one of its backward links is live in the row before. */
  method ForwardRowStep(g: Grid, bw: seq<seq<nat>>, prev: Row, f: nat) returns (row: Row)
    requires f < |g| && |g[f]| == |bw|
    ensures |row| == |g[f]|
    ensures forall i :: 0 <= i < |row| ==> (row[i] <==> g[f][i] && AnyOn(prev, bw[i]))
  {
    row := g[f];
    var i := 0;
    while i < |row|
      invariant i <= |row| && |row| == |g[f]|
      invariant forall i' :: 0 <= i' < i ==> (row[i'] <==> g[f][i'] && AnyOn(prev, bw[i']))
      invariant forall i' :: i <= i' < |row| ==> row[i'] == g[f][i']
    {
      if row[i] {
        var found := FindOn(prev, bw[i]);
        row := row[i := found];
      }
      i := i + 1;
    }
  }

  /** One row of the backward sweep, cell by cell in state order. */
  method BackwardRowStep(g: Grid, fw: seq<seq<nat>>, bw: seq<seq<nat>>, cur: Row, next: Row, f: nat)
    returns (row: Row)
    requires f + 1 < |g| && |g[f]| == |fw| && cur == FwdRow(g, bw, f) && next == BwdRow(g, fw, bw, f + 1)
    ensures row == BwdRow(g, fw, bw, f)
  {
    row := cur;
    var i := 0;
    while i < |row|
      invariant i <= |row| && |row| == |cur|
      invariant forall i' :: 0 <= i' < i ==> row[i'] == BwdRow(g, fw, bw, f)[i']
      invariant forall i' :: i <= i' < |row| ==> row[i'] == cur[i']
    {
      if row[i] {
        var found := FindOn(next, fw[i]);
        row := row[i := found];
      }
      i := i + 1;
    }
  }

  /** Lists the live cells of the first and the last frame. */
  method EndPoints(first: Row, last: Row) returns (sp: seq<nat>, ep: seq<nat>)
    requires |first| == |last|
    ensures ListsOn(first, sp) && ListsOn(last, ep)
  {
    sp, ep := [], [];
    var i := 0;
    while i < |first|
      invariant i <= |first|
      invariant forall k :: 0 <= k < |sp| ==> sp[k] < i && first[sp[k]]
      invariant forall i' :: 0 <= i' < i && first[i'] ==> i' in sp
      invariant forall a, c :: 0 <= a < c < |sp| ==> sp[a] < sp[c]
      invariant forall k :: 0 <= k < |ep| ==> ep[k] < i && last[ep[k]]
      invariant forall i' :: 0 <= i' < i && last[i'] ==> i' in ep
      invariant forall a, c :: 0 <= a < c < |ep| ==> ep[a] < ep[c]
    {
      if first[i] {
        sp := sp + [i];
      }
      if last[i] {
        ep := ep + [i];
      }
      i := i + 1;
    }
  }

  /** The update: a forward sweep over frames 1.. then a backward sweep down to frame 0, each in
      place, followed by listing the live cells of the first and last frame. */
  method UpdateReachable(g: Grid, fw: seq<seq<nat>>, bw: seq<seq<nat>>) returns (r: Grid, sp: seq<nat>, ep: seq<nat>)
    requires |g| >= 1 && Shaped(g, |g|, |fw|) && Graph(fw, bw)
    ensures r == Swept(g, fw, bw)
    ensures ListsOn(r[0], sp) && ListsOn(r[|g| - 1], ep)
  {
    var frames := |g|;
    r := g;
    var f := 1;
    while f < frames
      invariant 1 <= f <= frames && |r| == frames
      invariant forall f' :: 0 <= f' < f ==> r[f'] == FwdRow(g, bw, f')
    {
      var row := ForwardRowStep(g, bw, r[f - 1], f);
      assert row == FwdRow(g, bw, f);
      r := r[f := row];
      f := f + 1;
    }
    f := frames - 1;
    while f > 0
      invariant 0 <= f < frames && |r| == frames
      invariant forall f' :: f <= f' < frames ==> r[f'] == BwdRow(g, fw, bw, f')
      invariant forall f' :: 0 <= f' < f ==> r[f'] == FwdRow(g, bw, f')
    {
      f := f - 1;
      var row := BackwardRowStep(g, fw, bw, r[f], r[f + 1], f);
      r := r[f := row];
    }
    sp, ep := EndPoints(r[0], r[frames - 1]);
  }

  // ---------------------------------------------------------------------------------------
  // Properties of the sweeps.

  /** The update only clears cells. */
  lemma {:induction false} FwdRowClears(g: Grid, bw: seq<seq<nat>>, f: nat, i: nat)
    requires f < |g| && i < |g[f]|
    ensures FwdRow(g, bw, f)[i] ==> g[f][i]
  {
  }

  lemma {:induction false} BwdRowClears(g: Grid, fw: seq<seq<nat>>, bw: seq<seq<nat>>, f: nat, i: nat)
    requires f < |g| && i < |g[f]|
    ensures BwdRow(g, fw, bw, f)[i] ==> FwdRow(g, bw, f)[i]
  {
  }

  lemma OnlyClears(g: Grid, fw: seq<seq<nat>>, bw: seq<seq<nat>>, f: nat, i: nat)
    requires f < |g| && i < |g[f]|
    ensures Swept(g, fw, bw)[f][i] ==> g[f][i]
  {
    BwdRowClears(g, fw, bw, f, i);
    FwdRowClears(g, bw, f, i);
  }

  /** Every live cell after frame 0 has a live backward neighbour in the frame before, and every
      live cell before the last frame has a live forward neighbour in the frame after. */
  predicate Supported(g: Grid, fw: seq<seq<nat>>, bw: seq<seq<nat>>)
  {
    BackSupported(g, bw) && ForthSupported(g, fw)
  }

  predicate BackSupported(g: Grid, bw: seq<seq<nat>>)
  {
    forall f, i :: 0 < f < |g| && 0 <= i < |g[f]| && g[f][i] ==> i < |bw| && AnyOn(g[f - 1], bw[i])
  }

  predicate ForthSupported(g: Grid, fw: seq<seq<nat>>)
  {
    forall f, i :: 0 <= f < |g| - 1 && 0 <= i < |g[f]| && g[f][i] ==> i < |fw| && AnyOn(g[f + 1], fw[i])
  }

  /** A backward link from i to p is a forward link from p to i. */
  predicate Mutual(fw: seq<seq<nat>>, bw: seq<seq<nat>>)
    requires |bw| == |fw|
  {
    forall i, j :: 0 <= i < |fw| && 0 <= j < |fw| ==> (i in bw[j] <==> j in fw[i])
  }

  lemma InverseIsMutual(fw: seq<seq<nat>>, bw: seq<seq<nat>>)
    requires |bw| == |fw| && Inverse(fw, bw)
    ensures Mutual(fw, bw)
  {
    forall i, j | 0 <= i < |fw| && 0 <= j < |fw|
      ensures i in bw[j] <==> j in fw[i]
    {
      InverseMembership(fw, bw, i, j);
    }
  }

  /** A backward-swept cell that the forward sweep kept still has a live backward neighbour:
      that neighbour's forward link points back at the cell, so the backward sweep kept it. */
  lemma SweptBackSupport(g: Grid, fw: seq<seq<nat>>, bw: seq<seq<nat>>, f: nat, i: nat)
    requires Shaped(g, |g|, |fw|) && Graph(fw, bw) && Mutual(fw, bw)
    requires 0 < f < |g| && i < |fw| && BwdRow(g, fw, bw, f)[i]
    ensures AnyOn(BwdRow(g, fw, bw, f - 1), bw[i])
  {
    BwdRowClears(g, fw, bw, f, i);
    var prev := FwdRow(g, bw, f - 1);
    assert AnyOn(prev, bw[i]);
    var k :| 0 <= k < |bw[i]| && bw[i][k] < |prev| && prev[bw[i][k]];
    var p := bw[i][k];
    assert p < |fw|;
    assert i in fw[p];
    var kk :| 0 <= kk < |fw[p]| && fw[p][kk] == i;
    var next := BwdRow(g, fw, bw, f);
    assert fw[p][kk] < |next| && next[fw[p][kk]];
    assert AnyOn(next, fw[p]);
    assert BwdRow(g, fw, bw, f - 1)[p];
  }

  /** After the update every live cell is supported on both sides. */
  lemma SweptSupported(g: Grid, fw: seq<seq<nat>>, bw: seq<seq<nat>>)
    requires Shaped(g, |g|, |fw|) && Graph(fw, bw) && Mutual(fw, bw)
    ensures Supported(Swept(g, fw, bw), fw, bw)
  {
    var r := Swept(g, fw, bw);
    forall f, i | 0 < f < |r| && 0 <= i < |r[f]| && r[f][i]
      ensures i < |bw| && AnyOn(r[f - 1], bw[i])
    {
      SweptBackSupport(g, fw, bw, f, i);
    }
    forall f, i | 0 <= f < |r| - 1 && 0 <= i < |r[f]| && r[f][i]
      ensures i < |fw| && AnyOn(r[f + 1], fw[i])
    {
    }
  }

  /** The forward sweep leaves a supported grid alone. */
  lemma {:induction false} FwdRowFixed(g: Grid, bw: seq<seq<nat>>, f: nat)
    requires BackSupported(g, bw) && f < |g|
    ensures FwdRow(g, bw, f) == g[f]
  {
    if f > 0 {
      FwdRowFixed(g, bw, f - 1);
      var r := FwdRow(g, bw, f);
      forall i | 0 <= i < |g[f]|
        ensures r[i] == g[f][i]
      {
        assert r[i] == (g[f][i] && i < |bw| && AnyOn(g[f - 1], bw[i]));
      }
    }
  }

  /** One backward step keeps a supported row once its successor row is kept. */
  lemma BwdRowStepFixed(g: Grid, fw: seq<seq<nat>>, bw: seq<seq<nat>>, f: nat)
    requires ForthSupported(g, fw) && f + 1 < |g|
    requires FwdRow(g, bw, f) == g[f] && BwdRow(g, fw, bw, f + 1) == g[f + 1]
    ensures BwdRow(g, fw, bw, f) == g[f]
  {
    var r := BwdRow(g, fw, bw, f);
    forall i | 0 <= i < |g[f]|
      ensures r[i] == g[f][i]
    {
      assert r[i] == (g[f][i] && i < |fw| && AnyOn(g[f + 1], fw[i]));
    }
  }

  /** ... and so does the backward sweep. */
  lemma {:induction false} BwdRowFixed(g: Grid, fw: seq<seq<nat>>, bw: seq<seq<nat>>, f: nat)
    requires Supported(g, fw, bw) && f < |g|
    ensures BwdRow(g, fw, bw, f) == g[f]
    decreases |g| - f
  {
    FwdRowFixed(g, bw, f);
    if f < |g| - 1 {
      BwdRowFixed(g, fw, bw, f + 1);
      BwdRowStepFixed(g, fw, bw, f);
    }
  }

  lemma SupportedIsFixed(g: Grid, fw: seq<seq<nat>>, bw: seq<seq<nat>>)
    requires Supported(g, fw, bw)
    ensures Swept(g, fw, bw) == g
  {
    forall f | 0 <= f < |g|
      ensures Swept(g, fw, bw)[f] == g[f]
    {
      BwdRowFixed(g, fw, bw, f);
    }
  }

  /** Rerunning the update changes nothing. */
  lemma Idempotent(g: Grid, fw: seq<seq<nat>>, bw: seq<seq<nat>>)
    requires Shaped(g, |g|, |fw|) && Graph(fw, bw) && Mutual(fw, bw)
    ensures Swept(Swept(g, fw, bw), fw, bw) == Swept(g, fw, bw)
  {
    var r := Swept(g, fw, bw);
    SweptSupported(g, fw, bw);
    SupportedIsFixed(r, fw, bw);
  }
}

=== FILE: small_state.dfy ===
/** Frame-level small states: every big state is unrolled into one small state per entry of
    its duration vector, laid out contiguously in big-state order, and linked by forward edges
    (with their linear weights; the log-probability is the log of the weight) and by the
    inverse backward edges. */
module SmallStates {
  import opened Util
  import opened BigStates
  import opened Hmms

  /** One small state: owning big state's attribute and index, adjacency lists, and flags. */
  datatype SmallState = SmallState(
    attribute: int,
    bigstateId: int,
    forwardConnects: seq<nat>,
    backwardConnects: seq<nat>,
    isStarting: bool,
    isEnding: bool)

  /** The two-argument constructor: no links, neither starting nor ending. */
  function NewSmallState(attribute: int, bigstateId: int): (s: SmallState)
    ensures s.attribute == attribute && s.bigstateId == bigstateId
    ensures |s.forwardConnects| == 0 && |s.backwardConnects| == 0
    ensures !s.isStarting && !s.isEnding
  {
    SmallState(attribute, bigstateId, [], [], false, false)
  }

  // ---------------------------------------------------------------------------------------
  // Layout: small state Head(b) + k is the k-th small state of big state b.

  function Len(bs: seq<BigState>, b: nat): nat
    requires b < |bs|
  {
    bs[b].SmallStateNum()
  }

  /** Index of the first small state of big state b: the lengths of the earlier big states added up. */
  function Head(bs: seq<BigState>, b: nat): nat
    requires b <= |bs|
  {
    if b == 0 then 0 else Head(bs, b - 1) + Len(bs, b - 1)
  }

  function StateCount(bs: seq<BigState>): nat
  {
    Head(bs, |bs|)
  }

  /** Big state a's block ends no later than big state b's block begins. */
  lemma {:induction false} HeadMono(bs: seq<BigState>, a: nat, b: nat)
    requires a < b <= |bs|
    ensures Head(bs, a) + Len(bs, a) <= Head(bs, b)
    decreases b - a
  {
    if a + 1 < b {
      HeadMono(bs, a, b - 1);
    }
  }

  /** Every small-state index lies in the block of some big state. */
  lemma {:induction false} Locate(bs: seq<BigState>, j: nat) returns (b: nat, k: nat)
    requires j < StateCount(bs)
    ensures b < |bs| && k < Len(bs, b) && j == Head(bs, b) + k
  {
    var n := |bs|;
    while Head(bs, n - 1) > j
      invariant 0 < n <= |bs| && j < Head(bs, n)
      decreases n
    {
      n := n - 1;
    }
    b, k := n - 1, j - Head(bs, n - 1);
  }

  /** ... and in only one: blocks do not overlap. */
  lemma LocateUnique(bs: seq<BigState>, b: nat, k: nat, b': nat, k': nat)
    requires b < |bs| && k < Len(bs, b) && b' < |bs| && k' < Len(bs, b')
    requires Head(bs, b) + k == Head(bs, b') + k'
    ensures b == b' && k == k'
  {
    if b < b' {
      HeadMono(bs, b, b');
    } else if b' < b {
      HeadMono(bs, b', b);
    }
  }

  lemma BlockInRange(bs: seq<BigState>, b: nat, k: nat)
    requires b < |bs| && k < Len(bs, b)
    ensures Head(bs, b) + k < StateCount(bs)
  {
    if b + 1 < |bs| {
      HeadMono(bs, b + 1, |bs|);
    }
  }

  /** What expansion needs of the big-state graph: consistent sizes, every transition pointing at
      a big state, and an initial and a final big state with at least one small state each. */
  predicate WellFormed(h: Hmm)
  {
    h.Valid()
    && (forall i :: 0 <= i < |h.bigstates| ==> h.bigstates[i].Valid())
    && TargetsBelow(h, |h.bigstates|)
    && h.initialBigstate < |h.bigstates| && h.finalBigstate < |h.bigstates|
    && Len(h.bigstates, h.initialBigstate) >= 1 && Len(h.bigstates, h.finalBigstate) >= 1
  }

  predicate AllValid(bs: seq<BigState>)
  {
    forall i :: 0 <= i < |bs| ==> bs[i].Valid()
  }

  // ---------------------------------------------------------------------------------------
  // Forward edges.

  /** A forward edge: target small state and linear weight. */
  datatype Edge = Edge(target: nat, weight: real)

  /** Probability that big state dst is entered at its k-th small state: the sojourn then lasts
      Len - k frames, so it is duration entry Len - 1 - k. */
  function EntryProb(bs: seq<BigState>, dst: nat, k: nat): real
    requires dst < |bs| && bs[dst].Valid() && k < Len(bs, dst)
  {
    bs[dst].DurationDist()[Len(bs, dst) - 1 - k]
  }

  function EdgeWeight(prob: real, dur: real): real
  {
    prob * dur
  }

  /** Edges into the first k small states of big state dst, for a transition of weight prob;
      entries with a non-positive duration probability are skipped. */
  function EntryEdges(bs: seq<BigState>, dst: nat, prob: real, k: nat): seq<Edge>
    requires dst < |bs| && bs[dst].Valid() && k <= Len(bs, dst)
  {
    if k == 0 then []
    else
      EntryEdges(bs, dst, prob, k - 1)
      + (if EntryProb(bs, dst, k - 1) <= 0.0 then []
         else [Edge(Head(bs, dst) + k - 1, EdgeWeight(prob, EntryProb(bs, dst, k - 1)))])
  }

  predicate TransBelow(trans: seq<Transition>, bound: nat)
  {
    forall m :: 0 <= m < |trans| ==> trans[m].dst < bound
  }

  /** Edges leaving the last small state of a big state through its first n transitions;
      transitions with a non-positive weight are skipped. */
  function ExitEdges(bs: seq<BigState>, trans: seq<Transition>, n: nat): seq<Edge>
    requires AllValid(bs) && TransBelow(trans, |bs|) && n <= |trans|
  {
    if n == 0 then []
    else
      var t := trans[n - 1];
      ExitEdges(bs, trans, n - 1)
      + (if t.prob <= 0.0 then [] else EntryEdges(bs, t.dst, t.prob, Len(bs, t.dst)))
  }

  lemma TransitionsBelow(h: Hmm, b: nat)
    requires WellFormed(h) && b < |h.bigstates|
    ensures TransBelow(h.GetTransition(b), |h.bigstates|)
  {
    forall m | 0 <= m < |h.transitionProbs[b]|
      ensures h.transitionProbs[b][m].dst < |h.bigstates|
    {
    }
  }

  /** The edges of small state k of big state b: the next small state with weight 1 (log-prob 0),
      or for the last small state the exit edges. */
  function OutEdges(h: Hmm, b: nat, k: nat): seq<Edge>
    requires WellFormed(h) && b < |h.bigstates| && k < Len(h.bigstates, b)
  {
    if k + 1 < Len(h.bigstates, b) then [Edge(Head(h.bigstates, b) + k + 1, 1.0)]
    else
      TransitionsBelow(h, b);
      ExitEdges(h.bigstates, h.GetTransition(b), |h.GetTransition(b)|)
  }

  function Targets(e: seq<Edge>): (r: seq<nat>)
    ensures |r| == |e| && forall i :: 0 <= i < |e| ==> r[i] == e[i].target
  {
    seq(|e|, i requires 0 <= i < |e| => e[i].target)
  }

  /** A concatenation targets what either part targets. */
  lemma TargetsConcat(a: seq<Edge>, b: seq<Edge>, j: nat)
    ensures j in Targets(a + b) <==> j in Targets(a) || j in Targets(b)
  {
    assert Targets(a + b) == Targets(a) + Targets(b);
  }

  /** The weight table of one small state: later edges to the same target overwrite earlier ones. */
  function WeightMap(e: seq<Edge>): map<nat, real>
  {
    if |e| == 0 then map[] else WeightMap(e[..|e| - 1])[e[|e| - 1].target := e[|e| - 1].weight]
  }

  /** The table has an entry for exactly the targets of the edge list. */
  lemma {:induction false} WeightMapKeys(e: seq<Edge>, j: nat)
    ensures j in WeightMap(e) <==> j in Targets(e)
    decreases |e|
  {
    if |e| > 0 {
      WeightMapKeys(e[..|e| - 1], j);
      assert Targets(e) == Targets(e[..|e| - 1]) + [e[|e| - 1].target];
    }
  }

  /** The entry of a target is the weight of the last edge to it. */
  lemma {:induction false} WeightMapLastWins(e: seq<Edge>, i: nat)
    requires i < |e|
    requires forall i' :: i < i' < |e| ==> e[i'].target != e[i].target
    ensures e[i].target in WeightMap(e) && WeightMap(e)[e[i].target] == e[i].weight
    decreases |e|
  {
    if i + 1 < |e| {
      var p := e[..|e| - 1];
      assert forall i' :: i < i' < |p| ==> p[i'].target != p[i].target by {
        forall i' | i < i' < |p| ensures p[i'].target != p[i].target {
          assert p[i'] == e[i'];
        }
      }
      WeightMapLastWins(p, i);
      assert e[|e| - 1].target != e[i].target;
    }
  }

  /** Offset j - Head(dst) of small state j inside big state dst, when j lies in dst's block and
      entering there has a positive duration probability. */
  predicate EntersAt(bs: seq<BigState>, dst: nat, j: nat)
    requires dst < |bs| && bs[dst].Valid()
  {
    Head(bs, dst) <= j < Head(bs, dst) + Len(bs, dst) && EntryProb(bs, dst, j - Head(bs, dst)) > 0.0
  }

  lemma {:induction false} EntryEdgesTargets(bs: seq<BigState>, dst: nat, prob: real, k: nat, j: nat)
    requires dst < |bs| && bs[dst].Valid() && k <= Len(bs, dst)
    ensures j in Targets(EntryEdges(bs, dst, prob, k)) <==> EntersAt(bs, dst, j) && j < Head(bs, dst) + k
    decreases k
  {
    if k > 0 {
      EntryEdgesTargets(bs, dst, prob, k - 1, j);
      var e := EntryEdges(bs, dst, prob, k);
      var e' := EntryEdges(bs, dst, prob, k - 1);
      var p := EntryProb(bs, dst, k - 1);
      var tail := if p <= 0.0 then [] else [Edge(Head(bs, dst) + k - 1, EdgeWeight(prob, p))];
      assert e == e' + tail;
      assert Targets(e) == Targets(e') + Targets(tail);
      assert j in Targets(e) <==> j in Targets(e') || j in Targets(tail);
      if p <= 0.0 {
        assert Targets(tail) == [];
      } else {
        assert Targets(tail) == [Head(bs, dst) + k - 1];
        assert j == Head(bs, dst) + k - 1 ==> j - Head(bs, dst) == k - 1;
      }
    }
  }

  /** The last small state reaches small state j through some positive transition whose
      destination block contains j at an offset with positive duration probability. */
  predicate ExitReaches(bs: seq<BigState>, trans: seq<Transition>, n: nat, j: nat)
    requires AllValid(bs) && TransBelow(trans, |bs|) && n <= |trans|
  {
    exists m :: 0 <= m < n && trans[m].prob > 0.0 && EntersAt(bs, trans[m].dst, j)
  }

  lemma {:induction false} ExitEdgesTargets(bs: seq<BigState>, trans: seq<Transition>, n: nat, j: nat)
    requires AllValid(bs) && TransBelow(trans, |bs|) && n <= |trans|
    ensures j in Targets(ExitEdges(bs, trans, n)) <==> ExitReaches(bs, trans, n, j)
    decreases n
  {
    if n > 0 {
      ExitEdgesTargets(bs, trans, n - 1, j);
      var t := trans[n - 1];
      var e' := ExitEdges(bs, trans, n - 1);
      var tail := if t.prob <= 0.0 then [] else EntryEdges(bs, t.dst, t.prob, Len(bs, t.dst));
      assert ExitEdges(bs, trans, n) == e' + tail;
      TargetsConcat(e', tail, j);
      if t.prob > 0.0 {
        EntryEdgesTargets(bs, t.dst, t.prob, Len(bs, t.dst), j);
      }
      ExitReachesStep(bs, trans, n, j);
    }
  }

  /** The last transition considered either reaches j itself or leaves the answer unchanged. */
  lemma ExitReachesStep(bs: seq<BigState>, trans: seq<Transition>, n: nat, j: nat)
    requires AllValid(bs) && TransBelow(trans, |bs|) && 0 < n <= |trans|
    ensures ExitReaches(bs, trans, n, j) <==>
            ExitReaches(bs, trans, n - 1, j) || (trans[n - 1].prob > 0.0 && EntersAt(bs, trans[n - 1].dst, j))
  {
    if ExitReaches(bs, trans, n, j) && !ExitReaches(bs, trans, n - 1, j) {
      var m :| 0 <= m < n && trans[m].prob > 0.0 && EntersAt(bs, trans[m].dst, j);
      assert m == n - 1;
    }
  }

  /** Fan-out: a non-last small state links exactly to its successor in the block; the last one
      links to small state j exactly when some positive-weight transition enters j's big state at
      j's offset with positive duration probability. Every target is a small-state index. */
  lemma OutEdgesTargets(h: Hmm, b: nat, k: nat, j: nat)
    requires WellFormed(h) && b < |h.bigstates| && k < Len(h.bigstates, b)
    ensures k + 1 < Len(h.bigstates, b) ==>
              (j in Targets(OutEdges(h, b, k)) <==> j == Head(h.bigstates, b) + k + 1)
    ensures k + 1 == Len(h.bigstates, b) ==>
              (TransBelow(h.GetTransition(b), |h.bigstates|) &&
               (j in Targets(OutEdges(h, b, k)) <==>
                ExitReaches(h.bigstates, h.GetTransition(b), |h.GetTransition(b)|, j)))
    ensures j in Targets(OutEdges(h, b, k)) ==> j < StateCount(h.bigstates)
  {
    var bs := h.bigstates;
    TransitionsBelow(h, b);
    if k + 1 < Len(bs, b) {
      BlockInRange(bs, b, k + 1);
      assert OutEdges(h, b, k) == [Edge(Head(bs, b) + k + 1, 1.0)];
      assert Targets(OutEdges(h, b, k)) == [Head(bs, b) + k + 1];
    } else {
      var trans := h.GetTransition(b);
      ExitEdgesTargets(bs, trans, |trans|, j);
      if j in Targets(OutEdges(h, b, k)) {
        var m :| 0 <= m < |trans| && trans[m].prob > 0.0 && EntersAt(bs, trans[m].dst, j);
        BlockInRange(bs, trans[m].dst, j - Head(bs, trans[m].dst));
      }
    }
  }

  // ---------------------------------------------------------------------------------------
  // Backward edges.

  function Repeat(x: nat, c: nat): (r: seq<nat>)
    ensures |r| == c && forall i :: 0 <= i < c ==> r[i] == x
  {
    if c == 0 then [] else Repeat(x, c - 1) + [x]
  }

  /** The backward list of j after the first n sources were scanned: each i < n in increasing
      order, repeated as often as j occurs in i's forward list. */
  function Preds(fw: seq<seq<nat>>, j: nat, n: nat): seq<nat>
    requires n <= |fw|
  {
    if n == 0 then [] else Preds(fw, j, n - 1) + Repeat(n - 1, Count<nat>(fw[n - 1], j))
  }

  predicate LinksBelow(fw: seq<seq<nat>>)
  {
    forall i, k :: 0 <= i < |fw| && 0 <= k < |fw[i]| ==> fw[i][k] < |fw|
  }

  /** Builds the backward lists by scanning every forward list in increasing source order. */
  method BuildBackward(fw: seq<seq<nat>>) returns (bw: seq<seq<nat>>)
    requires LinksBelow(fw)
    ensures |bw| == |fw|
    ensures forall j :: 0 <= j < |fw| ==> bw[j] == Preds(fw, j, |fw|)
  {
    bw := seq(|fw|, _ => []);
    var i := 0;
    while i < |fw|
      invariant i <= |fw| && |bw| == |fw|
      invariant forall j :: 0 <= j < |fw| ==> bw[j] == Preds(fw, j, i)
    {
      bw := AppendSource(fw, bw, i);
      i := i + 1;
    }
  }

  /** Appends source i to the backward list of every target in fw[i], once per occurrence. */
  method AppendSource(fw: seq<seq<nat>>, bw0: seq<seq<nat>>, i: nat) returns (bw: seq<seq<nat>>)
    requires LinksBelow(fw) && i < |fw| && |bw0| == |fw|
    requires forall j :: 0 <= j < |fw| ==> bw0[j] == Preds(fw, j, i)
    ensures |bw| == |fw|
    ensures forall j :: 0 <= j < |fw| ==> bw[j] == Preds(fw, j, i + 1)
  {
    bw := bw0;
    var k := 0;
    while k < |fw[i]|
      invariant k <= |fw[i]| && |bw| == |fw|
      invariant forall j :: 0 <= j < |fw| ==> bw[j] == Preds(fw, j, i) + Repeat(i, Count<nat>(fw[i][..k], j))
    {
      var t := fw[i][k];
      assert fw[i][..k + 1][..k] == fw[i][..k];
      bw := bw[t := bw[t] + [i]];
      k := k + 1;
    }
    assert fw[i][..|fw[i]|] == fw[i];
  }

  lemma {:induction false} RepeatCount(x: nat, c: nat, y: nat)
    ensures Count<nat>(Repeat(x, c), y) == (if x == y then c else 0)
    decreases c
  {
    if c > 0 {
      RepeatCount(x, c - 1, y);
      assert Repeat(x, c)[..c - 1] == Repeat(x, c - 1);
    }
  }

  /** Source i occurs in the backward list of j exactly as often as j occurs in i's forward list. */
  lemma {:induction false} PredsCount(fw: seq<seq<nat>>, j: nat, n: nat, i: nat)
    requires n <= |fw|
    ensures Count<nat>(Preds(fw, j, n), i) == (if i < n then Count<nat>(fw[i], j) else 0)
    decreases n
  {
    if n > 0 {
      var c := Count<nat>(fw[n - 1], j);
      assert Preds(fw, j, n) == Preds(fw, j, n - 1) + Repeat(n - 1, c);
      PredsCount(fw, j, n - 1, i);
      CountAppend<nat>(Preds(fw, j, n - 1), Repeat(n - 1, c), i);
      RepeatCount(n - 1, c, i);
    }
  }

  /** Backward lists list their sources in nondecreasing order. */
  lemma {:induction false} PredsSorted(fw: seq<seq<nat>>, j: nat, n: nat)
    requires n <= |fw|
    ensures forall a, c :: 0 <= a < c < |Preds(fw, j, n)| ==> Preds(fw, j, n)[a] <= Preds(fw, j, n)[c]
    ensures forall a :: 0 <= a < |Preds(fw, j, n)| ==> Preds(fw, j, n)[a] < n
    decreases n
  {
    if n > 0 {
      PredsSorted(fw, j, n - 1);
    }
  }

  /** Backward lists are the exact inverse of forward lists, counting multiplicity. */
  predicate Inverse(fw: seq<seq<nat>>, bw: seq<seq<nat>>)
    requires |bw| == |fw|
  {
    forall i, j :: 0 <= i < |fw| && 0 <= j < |fw| ==> Count<nat>(bw[j], i) == Count<nat>(fw[i], j)
  }

  lemma InverseMembership(fw: seq<seq<nat>>, bw: seq<seq<nat>>, i: nat, j: nat)
    requires |bw| == |fw| && Inverse(fw, bw) && i < |fw| && j < |fw|
    ensures i in bw[j] <==> j in fw[i]
  {
    CountPositive<nat>(bw[j], i);
    CountPositive<nat>(fw[i], j);
  }

  lemma BackwardIsInverse(fw: seq<seq<nat>>, bw: seq<seq<nat>>)
    requires |bw| == |fw| && forall j :: 0 <= j < |fw| ==> bw[j] == Preds(fw, j, |fw|)
    ensures Inverse(fw, bw)
  {
    forall i, j | 0 <= i < |fw| && 0 <= j < |fw|
      ensures Count<nat>(bw[j], i) == Count<nat>(fw[i], j)
    {
      PredsCount(fw, j, |fw|, i);
    }
  }

  // ---------------------------------------------------------------------------------------
  // The expansion.

  /** The small states together with each one's weight table. */
  datatype Expansion = Expansion(states: seq<SmallState>, weights: seq<map<nat, real>>)
  {
    function Forward(): seq<seq<nat>>
    {
      ForwardLists(states)
    }

    function Backward(): seq<seq<nat>>
    {
      BackwardLists(states)
    }
  }

  /** Small state k of big state b is in place: owner, attribute, forward list and weights. */
  predicate Laid(h: Hmm, states: seq<SmallState>, weights: seq<map<nat, real>>, b: nat, k: nat)
    requires WellFormed(h) && b < |h.bigstates| && k < Len(h.bigstates, b)
  {
    var j := Head(h.bigstates, b) + k;
    j < |states| && j < |weights|
    && states[j].attribute == h.bigstates[b].attribute && states[j].bigstateId == b
    && states[j].forwardConnects == Targets(OutEdges(h, b, k))
    && weights[j] == WeightMap(OutEdges(h, b, k))
  }

  predicate AllLaid(h: Hmm, states: seq<SmallState>, weights: seq<map<nat, real>>, n: nat)
    requires WellFormed(h) && n <= |h.bigstates|
  {
    forall b, k :: 0 <= b < n && 0 <= k < Len(h.bigstates, b) ==> Laid(h, states, weights, b, k)
  }

  /** Appending further small states leaves those already in place where they are. */
  lemma LaidAppend(h: Hmm, states: seq<SmallState>, weights: seq<map<nat, real>>,
                   s: SmallState, w: map<nat, real>, b: nat, k: nat)
    requires WellFormed(h) && b < |h.bigstates| && k < Len(h.bigstates, b)
    requires Laid(h, states, weights, b, k)
    ensures Laid(h, states + [s], weights + [w], b, k)
  {
    var j := Head(h.bigstates, b) + k;
    assert (states + [s])[j] == states[j];
    assert (weights + [w])[j] == weights[j];
  }

  /** Unrolls every big state, in order, into its small states; backward lists and flags are
      filled in afterwards. */
  method LayOut(h: Hmm) returns (states: seq<SmallState>, weights: seq<map<nat, real>>)
    requires WellFormed(h)
    ensures |states| == StateCount(h.bigstates) && |weights| == |states|
    ensures AllLaid(h, states, weights, |h.bigstates|)
  {
    var bs := h.bigstates;
    states, weights := [], [];
    var b := 0;
    while b < |bs|
      invariant b <= |bs| && |states| == Head(bs, b) && |weights| == |states|
      invariant AllLaid(h, states, weights, b)
    {
      var k := 0;
      while k < Len(bs, b)
        invariant k <= Len(bs, b) && |states| == Head(bs, b) + k && |weights| == |states|
        invariant AllLaid(h, states, weights, b)
        invariant forall k' :: 0 <= k' < k ==> Laid(h, states, weights, b, k')
      {
        var edges := OutEdges(h, b, k);
        var s := SmallState(bs[b].attribute, b, Targets(edges), [], false, false);
        var w := WeightMap(edges);
        forall b', k' | 0 <= b' < b && 0 <= k' < Len(bs, b')
          ensures Laid(h, states + [s], weights + [w], b', k')
        {
          LaidAppend(h, states, weights, s, w, b', k');
        }
        forall k' | 0 <= k' < k
          ensures Laid(h, states + [s], weights + [w], b, k')
        {
          LaidAppend(h, states, weights, s, w, b, k');
        }
        states, weights := states + [s], weights + [w];
        k := k + 1;
      }
      b := b + 1;
    }
  }

  /** Index of the start-flagged small state: the first small state of the initial big state. */
  function StartIndex(h: Hmm): nat
    requires WellFormed(h)
  {
    Head(h.bigstates, h.initialBigstate)
  }

  /** Index of the end-flagged small state: the last small state of the final big state. */
  function EndIndex(h: Hmm): nat
    requires WellFormed(h)
  {
    Head(h.bigstates, h.finalBigstate) + Len(h.bigstates, h.finalBigstate) - 1
  }

  /** Small state k of big state b is starting exactly when it is the first small state of the
      initial big state, and ending exactly when it is the last small state of the final one. */
  predicate Flagged(h: Hmm, states: seq<SmallState>, b: nat, k: nat)
    requires WellFormed(h) && b < |h.bigstates| && k < Len(h.bigstates, b)
  {
    var j := Head(h.bigstates, b) + k;
    j < |states|
    && (states[j].isStarting <==> b == h.initialBigstate && k == 0)
    && (states[j].isEnding <==> b == h.finalBigstate && k == Len(h.bigstates, b) - 1)
  }

  predicate AllFlagged(h: Hmm, states: seq<SmallState>)
    requires WellFormed(h)
  {
    forall b, k :: 0 <= b < |h.bigstates| && 0 <= k < Len(h.bigstates, b) ==> Flagged(h, states, b, k)
  }

  function ForwardLists(states: seq<SmallState>): (fw: seq<seq<nat>>)
    ensures |fw| == |states| && forall i :: 0 <= i < |states| ==> fw[i] == states[i].forwardConnects
  {
    seq(|states|, i requires 0 <= i < |states| => states[i].forwardConnects)
  }

  function BackwardLists(states: seq<SmallState>): (bw: seq<seq<nat>>)
    ensures |bw| == |states| && forall i :: 0 <= i < |states| ==> bw[i] == states[i].backwardConnects
  {
    seq(|states|, i requires 0 <= i < |states| => states[i].backwardConnects)
  }

  /** Laid-out forward lists only point at small states. */
  lemma LaidLinksBelow(h: Hmm, states: seq<SmallState>, weights: seq<map<nat, real>>)
    requires WellFormed(h) && |states| == StateCount(h.bigstates)
    requires AllLaid(h, states, weights, |h.bigstates|)
    ensures LinksBelow(ForwardLists(states))
  {
    var fw := ForwardLists(states);
    forall i, k | 0 <= i < |fw| && 0 <= k < |fw[i]|
      ensures fw[i][k] < |fw|
    {
      var b, kk := Locate(h.bigstates, i);
      assert Laid(h, states, weights, b, kk);
      OutEdgesTargets(h, b, kk, fw[i][k]);
    }
  }

  /** Setting the two flags by index and the backward lists keeps the layout and places the flags. */
  lemma FinishedLaid(h: Hmm, states: seq<SmallState>, weights: seq<map<nat, real>>, r: seq<SmallState>)
    requires WellFormed(h) && |states| == StateCount(h.bigstates) && |r| == |states|
    requires AllLaid(h, states, weights, |h.bigstates|)
    requires forall i :: 0 <= i < |r| ==>
               r[i].attribute == states[i].attribute && r[i].bigstateId == states[i].bigstateId
               && r[i].forwardConnects == states[i].forwardConnects
               && (r[i].isStarting <==> i == StartIndex(h)) && (r[i].isEnding <==> i == EndIndex(h))
    ensures AllLaid(h, r, weights, |h.bigstates|) && AllFlagged(h, r)
  {
    var bs := h.bigstates;
    forall b, k | 0 <= b < |bs| && 0 <= k < Len(bs, b)
      ensures Laid(h, r, weights, b, k) && Flagged(h, r, b, k)
    {
      assert Laid(h, states, weights, b, k);
      var j := Head(bs, b) + k;
      if j == StartIndex(h) {
        LocateUnique(bs, b, k, h.initialBigstate, 0);
      }
      if j == EndIndex(h) {
        LocateUnique(bs, b, k, h.finalBigstate, Len(bs, h.finalBigstate) - 1);
      }
    }
  }

  /** Expansion of the big-state graph into small states. Every small state carries its big state's
      attribute and index and the forward list OutEdges prescribes; exactly the first small state of
      the initial big state is starting and exactly the last small state of the final big state is
      ending; every link stays inside the state list and backward lists are the exact inverse of
      forward lists, sources in increasing order. */
  method InitSmallStates(h: Hmm) returns (r: Expansion)
    requires WellFormed(h)
    ensures |r.states| == StateCount(h.bigstates) && |r.weights| == |r.states|
    ensures AllLaid(h, r.states, r.weights, |h.bigstates|)
    ensures AllFlagged(h, r.states)
    ensures LinksBelow(r.Forward()) && |r.Backward()| == |r.Forward()|
    ensures Inverse(r.Forward(), r.Backward())
    ensures forall j :: 0 <= j < |r.states| ==> r.states[j].backwardConnects == Preds(r.Forward(), j, |r.states|)
  {
    var states, weights := LayOut(h);
    var n := |states|;
    var fw := ForwardLists(states);
    LaidLinksBelow(h, states, weights);
    var bw := BuildBackward(fw);
    var s0, e0 := StartIndex(h), EndIndex(h);
    // The source sets the two flags by index and then pushes the backward links.
    var states' := seq(n, i requires 0 <= i < n =>
                     states[i].(backwardConnects := bw[i], isStarting := i == s0, isEnding := i == e0));
    FinishedLaid(h, states, weights, states');
    r := Expansion(states', weights);
    assert r.Forward() == fw;
    assert r.Backward() == bw;
    BackwardIsInverse(fw, bw);
  }

  /** Exactly one small state is starting and exactly one is ending. */
  lemma OneStartOneEnd(h: Hmm, states: seq<SmallState>)
    requires WellFormed(h) && |states| == StateCount(h.bigstates) && AllFlagged(h, states)
    ensures (set j | 0 <= j < |states| && states[j].isStarting) == {StartIndex(h)}
    ensures (set j | 0 <= j < |states| && states[j].isEnding) == {EndIndex(h)}
  {
    var bs := h.bigstates;
    BlockInRange(bs, h.initialBigstate, 0);
    BlockInRange(bs, h.finalBigstate, Len(bs, h.finalBigstate) - 1);
    forall j | 0 <= j < |states|
      ensures states[j].isStarting <==> j == StartIndex(h)
      ensures states[j].isEnding <==> j == EndIndex(h)
    {
      var b, k := Locate(bs, j);
      assert Flagged(h, states, b, k);
      if j == StartIndex(h) {
        LocateUnique(bs, b, k, h.initialBigstate, 0);
      }
      if j == EndIndex(h) {
        LocateUnique(bs, b, k, h.finalBigstate, Len(bs, h.finalBigstate) - 1);
      }
    }
    assert Flagged(h, states, h.initialBigstate, 0);
    assert Flagged(h, states, h.finalBigstate, Len(bs, h.finalBigstate) - 1);
  }
}

=== FILE: util.dfy ===
/** Small shared vocabulary: failure-carrying results and sums over sequences of reals. */
module Util {

  /** Either a value or the error that stopped the computation. */
  datatype Result<+T, +E> = Success(value: T) | Failure(error: E)

  datatype Option<+T> = None | Some(value: T)

  /** Left-to-right sum of a sequence of reals. */
  function Sum(s: seq<real>): real
  {
    if |s| == 0 then 0.0 else Sum(s[..|s| - 1]) + s[|s| - 1]
  }

  /** Sum of the half-open slice s[lo..hi]. */
  function SumRange(s: seq<real>, lo: nat, hi: nat): real
    requires lo <= hi <= |s|
  {
    Sum(s[lo..hi])
  }

  lemma {:induction false} SumAppend(a: seq<real>, b: seq<real>)
    ensures Sum(a + b) == Sum(a) + Sum(b)
    decreases |b|
  {
    if |b| == 0 {
      assert a + b == a;
    } else {
      var b' := b[..|b| - 1];
      assert (a + b)[..|a + b| - 1] == a + b';
      SumAppend(a, b');
    }
  }

  /** n copies of v added up; it equals (n as real) * v (TimesIsProduct) but keeps proofs
      about sums linear. */
  function Times(n: nat, v: real): real
  {
    if n == 0 then 0.0 else Times(n - 1, v) + v
  }

  lemma {:induction false} TimesAdd(a: nat, b: nat, v: real)
    ensures Times(a + b, v) == Times(a, v) + Times(b, v)
    decreases b
  {
    if b > 0 {
      TimesAdd(a, b - 1, v);
    }
  }

  lemma {:induction false} TimesIsProduct(n: nat, v: real)
    ensures Times(n, v) == (n as real) * v
  {
    if n > 0 {
      TimesIsProduct(n - 1, v);
      assert ((n - 1) as real) * v + v == (n as real) * v;
    }
  }

  /** A sequence whose entries are all v sums to |s| copies of v. */
  lemma {:induction false} SumConstant(s: seq<real>, v: real)
    requires forall k :: 0 <= k < |s| ==> s[k] == v
    ensures Sum(s) == Times(|s|, v)
    decreases |s|
  {
    if |s| > 0 {
      SumConstant(s[..|s| - 1], v);
    }
  }

  /** Number of positions of s holding x. */
  function Count<T(==)>(s: seq<T>, x: T): nat
  {
    if |s| == 0 then 0 else Count(s[..|s| - 1], x) + (if s[|s| - 1] == x then 1 else 0)
  }

  lemma {:induction false} CountAppend<T>(a: seq<T>, b: seq<T>, x: T)
    ensures Count(a + b, x) == Count(a, x) + Count(b, x)
    decreases |b|
  {
    if |b| == 0 {
      assert a + b == a;
    } else {
      var b' := b[..|b| - 1];
      assert (a + b)[..|a + b| - 1] == a + b';
      CountAppend(a, b', x);
    }
  }

  /** x occurs in s exactly when its count is positive. */
  lemma {:induction false} CountPositive<T>(s: seq<T>, x: T)
    ensures Count(s, x) > 0 <==> x in s
    decreases |s|
  {
    if |s| > 0 {
      CountPositive(s[..|s| - 1], x);
      assert s == s[..|s| - 1] + [s[|s| - 1]];
    }
  }

  function Abs(x: real): real
  {
    if x < 0.0 then -x else x
  }

  /** A product of two reals kept behind a name: the solver reasons about its sign through
      MulSign instead of through nonlinear arithmetic. */
  function Mul(x: real, y: real): real
  {
    x * y
  }

  lemma MulSign(x: real, y: real)
    ensures x >= 0.0 && y >= 0.0 ==> Mul(x, y) >= 0.0
    ensures x > 0.0 && y > 0.0 ==> Mul(x, y) > 0.0
    ensures x == 0.0 || y == 0.0 ==> Mul(x, y) == 0.0
    ensures Mul(-x, -y) == Mul(x, y)
  {
  }

  /** Dividing by a positive number keeps the order. */
  lemma DivMono(a: real, b: real, c: real)
    requires c > 0.0
    ensures a <= b ==> a / c <= b / c
    ensures a < b ==> a / c < b / c
  {
  }

  /** Dividing by a nonzero c keeps the order of a and b when c is positive and flips it when
      c is negative. */
  lemma DivOrder(a: real, b: real, c: real)
    requires c != 0.0
    ensures c > 0.0 && a < b ==> a / c < b / c
    ensures c > 0.0 && a <= b ==> a / c <= b / c
    ensures c < 0.0 && a < b ==> b / c < a / c
    ensures c < 0.0 && a <= b ==> b / c <= a / c
  {
    if c > 0.0 {
      DivMono(a, b, c);
    } else {
      DivMono(a, b, -c);
      assert a / c == -(a / -c) && b / c == -(b / -c);
    }
  }

  lemma MulAdd(a: real, b: real, c: real)
    ensures Mul(a, c) + Mul(b, c) == Mul(a + b, c)
  {
  }

  /** n copies of v are zero exactly when n or v is, and otherwise carry the sign of v. */
  lemma {:induction false} TimesSign(n: nat, v: real)
    ensures n == 0 || v == 0.0 ==> Times(n, v) == 0.0
    ensures n > 0 && v > 0.0 ==> Times(n, v) > 0.0
    ensures n > 0 && v < 0.0 ==> Times(n, v) < 0.0
  {
    if n > 0 {
      TimesSign(n - 1, v);
    }
  }

  lemma MulDivCancel(a: real, c: real)
    requires c > 0.0
    ensures Mul(c, a) / c == a
  {
  }
}

=== FILE: validation.dfy ===
/** The checks run before EM starts: input sizes, the HMM, the configuration, the transition
    parameters, their consistency with the configuration and with the prepared tables, and the
    existence of start and end states. The first failing group decides the error code. */
module Validation {
  import opened Util
  import opened Hmms
  import opened HmmFujisaki
  import opened SmallStates

  /** The estimator's error codes and their numeric values. */
  datatype ErrorCode =
    | NoError
    | SizeInvalid | InputVectorSizeMismatch | TransparamVectorSizeInvalid
    | ValueInvalid | ConfigValueInvalid | TransparamProbInvalid
    | HmmSetupError
    | ConsistencyError | PhaseDurationMismatch
    | NoSolutionError
    | NoFileError
    | FutureImplement
  {
    function Code(): int
    {
      match this
      case NoError => 0
      case SizeInvalid => 100
      case InputVectorSizeMismatch => 101
      case TransparamVectorSizeInvalid => 102
      case ValueInvalid => 200
      case ConfigValueInvalid => 201
      case TransparamProbInvalid => 202
      case HmmSetupError => 300
      case ConsistencyError => 400
      case PhaseDurationMismatch => 401
      case NoSolutionError => 500
      case NoFileError => 600
      case FutureImplement => 1000
    }
  }

  /** The error a numeric code stands for, if any. */
  function FromCode(c: int): (r: Option<ErrorCode>)
    ensures r.Some? ==> r.value.Code() == c
    ensures r.None? ==> forall e: ErrorCode :: e.Code() != c
  {
    if c == 0 then Some(NoError)
    else if c == 100 then Some(SizeInvalid)
    else if c == 101 then Some(InputVectorSizeMismatch)
    else if c == 102 then Some(TransparamVectorSizeInvalid)
    else if c == 200 then Some(ValueInvalid)
    else if c == 201 then Some(ConfigValueInvalid)
    else if c == 202 then Some(TransparamProbInvalid)
    else if c == 300 then Some(HmmSetupError)
    else if c == 400 then Some(ConsistencyError)
    else if c == 401 then Some(PhaseDurationMismatch)
    else if c == 500 then Some(NoSolutionError)
    else if c == 600 then Some(NoFileError)
    else if c == 1000 then Some(FutureImplement)
    else None
  }

  /** Every code reads back as the error it was written from, so no two errors share a code. */
  lemma CodeRoundTrip(e: ErrorCode)
    ensures FromCode(e.Code()) == Some(e)
  {
    match e
    case NoError =>
    case SizeInvalid =>
    case InputVectorSizeMismatch =>
    case TransparamVectorSizeInvalid =>
    case ValueInvalid =>
    case ConfigValueInvalid =>
    case TransparamProbInvalid =>
    case HmmSetupError =>
    case ConsistencyError =>
    case PhaseDurationMismatch =>
    case NoSolutionError =>
    case NoFileError =>
    case FutureImplement =>
  }

  /** The configuration fields the checks read (signed in the source). */
  datatype EstimationConfig = EstimationConfig(
    isHmmSerialized: bool,
    phraseBigStateNum: int,
    accentBigStateNum: int,
    phraseOnDuration: int,
    iterationNum: int,
    mstepUpdateNumPerIteration: int,
    perturbSearchWidth: int,
    defaultAlpha: real,
    defaultBeta: real,
    defaultSigmap2: real,
    defaultSigmaa2: real,
    defaultSigman2Voiced: real,
    defaultSigman2Unvoiced: real,
    regularizerOffset: real,
    zeroThreshold: real,
    inf: real)

  datatype InputData = InputData(
    fs: real,
    logf0: seq<real>,
    vuv: seq<real>,
    initialUp: seq<real>,
    initialUa: seq<real>,
    initialMub: real)

  /** The estimator's state once prepared: the counters are unsigned in the source. */
  datatype Estimator = Estimator(
    input: InputData,
    frameNum: nat,
    config: EstimationConfig,
    transparam: TransParams,
    hmm: Hmm,
    phraseBigStateNum: nat,
    accentBigStateNum: nat,
    stateNum: nat,
    smallStates: seq<SmallState>,
    startingpoints: seq<nat>,
    endpoints: seq<nat>,
    gp: seq<real>,
    ga: seq<real>,
    invsigma2N: seq<real>)

  // ---------------------------------------------------------------------------
  // The check groups, each stated as the property it demands
  // ---------------------------------------------------------------------------

  /** At least one frame, and every input track has one value per frame. */
  predicate InputSizesOk(est: Estimator)
  {
    var n := est.frameNum;
    n >= 1 && |est.input.logf0| == n && |est.input.vuv| == n &&
    |est.input.initialUp| == n && |est.input.initialUa| == n
  }

  /** At least one phrase and one accent big state, and the HMM's counter matches its list. */
  predicate HmmOk(est: Estimator)
  {
    est.phraseBigStateNum >= 1 && est.accentBigStateNum >= 1 &&
    |est.hmm.GetBigStates()| == est.hmm.StateNum()
  }

  /** Counts non-negative (the phrase count positive unless the serialized topology ignores
      it, the accent count positive), the filter constants non-negative, the variances, the
      infinity sentinel positive, the regulariser and the zero threshold non-negative. */
  predicate ConfigOk(c: EstimationConfig)
  {
    (c.isHmmSerialized || c.phraseBigStateNum >= 1) &&
    c.accentBigStateNum >= 1 &&
    c.iterationNum >= 0 && c.mstepUpdateNumPerIteration >= 0 && c.perturbSearchWidth >= 0 &&
    c.defaultAlpha >= 0.0 && c.defaultBeta >= 0.0 &&
    c.defaultSigmap2 > 0.0 && c.defaultSigmaa2 > 0.0 &&
    c.defaultSigman2Voiced > 0.0 && c.defaultSigman2Unvoiced > 0.0 &&
    c.regularizerOffset >= 0.0 && c.zeroThreshold >= 0.0 && c.inf > 0.0
  }

  /** All four duration distributions are non-empty. */
  predicate TransparamSizesOk(t: TransParams)
  {
    |t.phduration| >= 1 && |t.acduration| >= 1 && |t.r0duration| >= 1 && |t.r1duration| >= 1
  }

  predicate NonNegative(s: seq<real>)
  {
    forall k :: 0 <= k < |s| ==> s[k] >= 0.0
  }

  /** Both reset weights and every duration entry are non-negative. */
  predicate TransparamProbsOk(t: TransParams)
  {
    t.probAtor0 >= 0.0 && t.probAtor1 >= 0.0 &&
    NonNegative(t.phduration) && NonNegative(t.acduration) &&
    NonNegative(t.r0duration) && NonNegative(t.r1duration)
  }

  /** The phrase duration distribution has one entry per configured phrase-on frame. */
  predicate PhaseDurationOk(est: Estimator)
  {
    |est.transparam.phduration| == est.config.phraseOnDuration
  }

  /** One small state per counted state, one filter and noise value per frame. */
  predicate ConsistencyOk(est: Estimator)
  {
    |est.smallStates| == est.stateNum &&
    |est.gp| == est.frameNum && |est.ga| == est.frameNum && |est.invsigma2N| == est.frameNum
  }

  /** At least one state can start the path and one can end it. */
  predicate SolutionOk(est: Estimator)
  {
    |est.startingpoints| >= 1 && |est.endpoints| >= 1
  }

  predicate Valid(est: Estimator)
  {
    InputSizesOk(est) && HmmOk(est) && ConfigOk(est.config) &&
    TransparamSizesOk(est.transparam) && TransparamProbsOk(est.transparam) &&
    PhaseDurationOk(est) && ConsistencyOk(est) && SolutionOk(est)
  }

  /** The code of the first group of checks to fail, in the source's order, or NoError when
      every group passes. */
  function FirstFailure(est: Estimator): (e: ErrorCode)
    ensures e == NoError <==> Valid(est)
  {
    if !InputSizesOk(est) then InputVectorSizeMismatch
    else if !HmmOk(est) then HmmSetupError
    else if !ConfigOk(est.config) then ConfigValueInvalid
    else if !TransparamSizesOk(est.transparam) then TransparamVectorSizeInvalid
    else if !TransparamProbsOk(est.transparam) then TransparamProbInvalid
    else if !PhaseDurationOk(est) then PhaseDurationMismatch
    else if !ConsistencyOk(est) then ConsistencyError
    else if !SolutionOk(est) then NoSolutionError
    else NoError
  }

  /** The source's scan of one distribution: the first negative entry, or none. */
  method HasNegative(s: seq<real>) returns (found: bool)
    ensures found <==> !NonNegative(s)
  {
    found := false;
    var k := 0;
    while k < |s|
      invariant k <= |s|
      invariant forall j :: 0 <= j < k ==> s[j] >= 0.0
    {
      if s[k] < 0.0 {
        return true;
      }
      k := k + 1;
    }
  }

  /** The checks in the source's order; each code is returned exactly when its group is the
      first to fail, and NoError exactly when every group passes. */
  method ValidateBeforeEm(est: Estimator) returns (r: ErrorCode)
    ensures r == FirstFailure(est)
    ensures r == NoError <==> Valid(est)
    ensures r == InputVectorSizeMismatch <==> !InputSizesOk(est)
    ensures r == HmmSetupError <==> InputSizesOk(est) && !HmmOk(est)
    ensures r == ConfigValueInvalid <==> InputSizesOk(est) && HmmOk(est) && !ConfigOk(est.config)
    ensures r == TransparamVectorSizeInvalid <==>
              InputSizesOk(est) && HmmOk(est) && ConfigOk(est.config) &&
              !TransparamSizesOk(est.transparam)
    ensures r == TransparamProbInvalid <==>
              InputSizesOk(est) && HmmOk(est) && ConfigOk(est.config) &&
              TransparamSizesOk(est.transparam) && !TransparamProbsOk(est.transparam)
    ensures r == PhaseDurationMismatch <==>
              InputSizesOk(est) && HmmOk(est) && ConfigOk(est.config) &&
              TransparamSizesOk(est.transparam) && TransparamProbsOk(est.transparam) &&
              !PhaseDurationOk(est)
    ensures r == ConsistencyError <==>
              InputSizesOk(est) && HmmOk(est) && ConfigOk(est.config) &&
              TransparamSizesOk(est.transparam) && TransparamProbsOk(est.transparam) &&
              PhaseDurationOk(est) && !ConsistencyOk(est)
    ensures r == NoSolutionError <==>
              InputSizesOk(est) && HmmOk(est) && ConfigOk(est.config) &&
              TransparamSizesOk(est.transparam) && TransparamProbsOk(est.transparam) &&
              PhaseDurationOk(est) && ConsistencyOk(est) && !SolutionOk(est)
  {
    var n := est.frameNum;
    var input := est.input;
    if n < 1 || |input.logf0| != n || |input.vuv| != n || |input.initialUp| != n ||
       |input.initialUa| != n {
      return InputVectorSizeMismatch;
    }
    if est.phraseBigStateNum < 1 || est.accentBigStateNum < 1 ||
       |est.hmm.GetBigStates()| != est.hmm.StateNum() {
      return HmmSetupError;
    }
    var c := est.config;
    if (!c.isHmmSerialized && c.phraseBigStateNum < 1) || c.accentBigStateNum < 1 ||
       c.iterationNum < 0 || c.mstepUpdateNumPerIteration < 0 || c.perturbSearchWidth < 0 ||
       c.defaultAlpha < 0.0 || c.defaultBeta < 0.0 ||
       c.defaultSigmap2 <= 0.0 || c.defaultSigmaa2 <= 0.0 ||
       c.defaultSigman2Voiced <= 0.0 || c.defaultSigman2Unvoiced <= 0.0 ||
       c.defaultSigman2Unvoiced <= 0.0 ||
       c.regularizerOffset < 0.0 || c.zeroThreshold < 0.0 || c.inf <= 0.0 {
      return ConfigValueInvalid;
    }
    var t := est.transparam;
    if |t.phduration| < 1 || |t.acduration| < 1 || |t.r0duration| < 1 || |t.r1duration| < 1 {
      return TransparamVectorSizeInvalid;
    }
    if t.probAtor0 < 0.0 || t.probAtor1 < 0.0 {
      return TransparamProbInvalid;
    }
    var bad := HasNegative(t.phduration);
    if bad { return TransparamProbInvalid; }
    bad := HasNegative(t.acduration);
    if bad { return TransparamProbInvalid; }
    bad := HasNegative(t.r0duration);
    if bad { return TransparamProbInvalid; }
    bad := HasNegative(t.r1duration);
    if bad { return TransparamProbInvalid; }
    if |t.phduration| != c.phraseOnDuration {
      return PhaseDurationMismatch;
    }
    if |est.smallStates| != est.stateNum {
      return ConsistencyError;
    }
    if |est.gp| != n || |est.ga| != n || |est.invsigma2N| != n {
      return ConsistencyError;
    }
    if |est.startingpoints| < 1 || |est.endpoints| < 1 {
      return NoSolutionError;
    }
    return NoError;
  }

  /** The public entry point: the same code as ValidateBeforeEm, so the verdict depends on
      the estimator alone. */
  method Validate(est: Estimator) returns (r: ErrorCode)
    ensures r == FirstFailure(est)
    ensures r == NoError <==> Valid(est)
    ensures r in {NoError, InputVectorSizeMismatch, HmmSetupError, ConfigValueInvalid,
                  TransparamVectorSizeInvalid, TransparamProbInvalid, PhaseDurationMismatch,
                  ConsistencyError, NoSolutionError}
  {
    r := ValidateBeforeEm(est);
  }

  /** Two validations of the same estimator return the same code. */
  method ValidateTwice(est: Estimator) returns (r1: ErrorCode, r2: ErrorCode)
    ensures r1 == r2 == FirstFailure(est)
  {
    r1 := Validate(est);
    r2 := ValidateBeforeEm(est);
  }
}

=== FILE: viterbi.dfy ===
/** The Viterbi decoder over the reachable cells of the small-state lattice: a max-plus
    recursion with an order-dependent relative-tolerance tie-break, then a backtrack from the
    best reachable ending state. Emission and transition log-probabilities are given reals. */
module Viterbi {
  import opened Util
  import opened SmallStates
  import opened Reachability

  /** The tolerance |m| * zeroThreshold around an incumbent score m. */
  function Tol(m: real, zt: real): real
  {
    Abs(m) * zt
  }

  lemma TolNonNegative(m: real, zt: real)
    requires zt >= 0.0
    ensures Tol(m, zt) >= 0.0
  {
  }

  lemma TolZero(m: real)
    ensures Tol(m, 0.0) == 0.0
  {
  }

  /** A candidate displaces the incumbent only when it beats it by more than the tolerance. */
  predicate Improves(score: real, incumbent: real, zt: real)
  {
    score - incumbent > Tol(incumbent, zt)
  }

  /** pos is a selection among the eligible positions that no eligible score beats by more than
      the tolerance, and every eligible position before it scores strictly lower. */
  predicate NearBest(score: seq<real>, eligible: seq<bool>, pos: nat, zt: real)
    requires |eligible| == |score|
  {
    pos < |score| && eligible[pos]
    && (forall k :: 0 <= k < |score| && eligible[k] ==> score[k] <= score[pos] + Tol(score[pos], zt))
    && (forall k :: 0 <= k < pos && eligible[k] ==> score[k] < score[pos])
  }

  predicate AnyEligible(eligible: seq<bool>)
  {
    exists k :: 0 <= k < |eligible| && eligible[k]
  }

  /** The source's selection rule as a reference: scanning the first k candidates in order,
      the first eligible one becomes the incumbent and a later eligible one displaces it only
      when it Improves on it. None when none of them is eligible. */
  function Incumbent(score: seq<real>, eligible: seq<bool>, zt: real, k: nat): (r: Option<nat>)
    requires |eligible| == |score| && k <= |score|
    ensures r.Some? ==> r.value < k && eligible[r.value]
  {
    if k == 0 then None
    else
      var prior := Incumbent(score, eligible, zt, k - 1);
      if eligible[k - 1] && (prior.None? || Improves(score[k - 1], score[prior.value], zt)) then Some(k - 1)
      else prior
  }

  /** The scan finds an incumbent exactly when some candidate it has seen is eligible. */
  lemma {:induction false} IncumbentFound(score: seq<real>, eligible: seq<bool>, zt: real, k: nat)
    requires |eligible| == |score| && k <= |score|
    ensures Incumbent(score, eligible, zt, k).Some? <==> exists j :: 0 <= j < k && eligible[j]
  {
    if k > 0 {
      IncumbentFound(score, eligible, zt, k - 1);
    }
  }

  /** The incumbent after the first k candidates is beaten by no eligible one of them by more
      than the tolerance, and every eligible one before it scores strictly lower. */
  lemma {:induction false} IncumbentNearBest(score: seq<real>, eligible: seq<bool>, zt: real, k: nat)
    requires |eligible| == |score| && k <= |score| && zt >= 0.0
    requires Incumbent(score, eligible, zt, k).Some?
    ensures var pos := Incumbent(score, eligible, zt, k).value;
            (forall j :: 0 <= j < k && eligible[j] ==> score[j] <= score[pos] + Tol(score[pos], zt))
            && (forall j :: 0 <= j < pos && eligible[j] ==> score[j] < score[pos])
  {
    var prior := Incumbent(score, eligible, zt, k - 1);
    var pos := Incumbent(score, eligible, zt, k).value;
    if prior.None? {
      IncumbentFound(score, eligible, zt, k - 1);
      assert pos == k - 1;
      TolNonNegative(score[pos], zt);
    } else {
      IncumbentNearBest(score, eligible, zt, k - 1);
      var q := prior.value;
      if pos != q {
        assert pos == k - 1 && Improves(score[pos], score[q], zt);
        TolNonNegative(score[q], zt);
        TolNonNegative(score[pos], zt);
      }
    }
  }

  /** Over the whole list, the incumbent is NearBest. */
  lemma SelectedNearBest(score: seq<real>, eligible: seq<bool>, zt: real)
    requires |eligible| == |score| && zt >= 0.0
    requires Incumbent(score, eligible, zt, |score|).Some?
    ensures NearBest(score, eligible, Incumbent(score, eligible, zt, |score|).value, zt)
  {
    IncumbentNearBest(score, eligible, zt, |score|);
  }

  /** The rule depends on the scan order and not on the scores alone: over [1, 1.5, 2.5] with
      a tolerance factor of 1, 1.5 does not displace 1 (it beats it by 0.5, not by more than
      |1| * 1) but 2.5 does (by 1.5), so position 2 is taken, although position 1 is also within
      the tolerance of every score. */
  lemma ScanOrderDecides()
    ensures Incumbent([1.0, 1.5, 2.5], [true, true, true], 1.0, 3) == Some(2)
    ensures NearBest([1.0, 1.5, 2.5], [true, true, true], 1, 1.0)
  {
    assert Incumbent([1.0, 1.5, 2.5], [true, true, true], 1.0, 2) == Some(0);
  }

  /** The source's selection loop: scan in order, take the first eligible candidate, and let a
      later one displace the incumbent only when it Improves on it. */
  method Select(score: seq<real>, eligible: seq<bool>, zt: real) returns (found: bool, pos: nat)
    requires |eligible| == |score| && zt >= 0.0
    ensures found <==> AnyEligible(eligible)
    ensures found <==> Incumbent(score, eligible, zt, |score|).Some?
    ensures found ==> Incumbent(score, eligible, zt, |score|) == Some(pos)
    ensures found ==> NearBest(score, eligible, pos, zt)
  {
    found, pos := false, 0;
    var best := 0.0;
    var k := 0;
    while k < |score|
      invariant k <= |score|
      invariant found <==> Incumbent(score, eligible, zt, k).Some?
      invariant found ==> Incumbent(score, eligible, zt, k) == Some(pos) && best == score[pos]
    {
      if eligible[k] {
        if !found || Improves(score[k], best, zt) {
          found, pos, best := true, k, score[k];
        }
      }
      k := k + 1;
    }
    IncumbentFound(score, eligible, zt, |score|);
    if found {
      SelectedNearBest(score, eligible, zt);
    }
  }

  /** With a zero tolerance the selection is the first position of the exact maximum. */
  lemma ExactWhenZero(score: seq<real>, eligible: seq<bool>, pos: nat)
    requires |eligible| == |score| && NearBest(score, eligible, pos, 0.0)
    ensures forall k :: 0 <= k < |score| && eligible[k] ==> score[k] <= score[pos]
    ensures forall k :: 0 <= k < pos && eligible[k] ==> score[k] < score[pos]
  {
    TolZero(score[pos]);
  }

  /** Log-probability of the small-state transition p -> i; a missing entry reads as 0. */
  function TransLog(logTrans: seq<map<nat, real>>, p: nat, i: nat): real
    requires p < |logTrans|
  {
    if i in logTrans[p] then logTrans[p][i] else 0.0
  }

  /** Score of reaching i through each of its backward links. */
  function EdgeScores(prev: seq<real>, logTrans: seq<map<nat, real>>, preds: seq<nat>, i: nat): (r: seq<real>)
    requires forall k :: 0 <= k < |preds| ==> preds[k] < |prev| && preds[k] < |logTrans|
    ensures |r| == |preds|
  {
    seq(|preds|, k requires 0 <= k < |preds| => prev[preds[k]] + TransLog(logTrans, preds[k], i))
  }

  /** Which backward links lead to a reachable cell of the previous frame. */
  function LivePreds(prevLive: Row, preds: seq<nat>): (r: seq<bool>)
    requires forall k :: 0 <= k < |preds| ==> preds[k] < |prevLive|
    ensures |r| == |preds|
  {
    seq(|preds|, k requires 0 <= k < |preds| => prevLive[preds[k]])
  }

  /** What a frame f > 0 cell holds after the recursion: nothing (score -inf, no predecessor)
      unless it is reachable with a reachable predecessor; then the predecessor the Incumbent
      rule selects among the reachable backward links, and its edge score plus the emission. */
  predicate CellOk(prev: seq<real>, prevLive: Row, live: bool, preds: seq<nat>, logTrans: seq<map<nat, real>>,
                   i: nat, n: nat, emit: real, inf: real, zt: real, d: real, sb: nat)
    requires forall k :: 0 <= k < |preds| ==> preds[k] < |prev| && preds[k] < |logTrans| && preds[k] < |prevLive|
  {
    var score := EdgeScores(prev, logTrans, preds, i);
    var sel := Incumbent(score, LivePreds(prevLive, preds), zt, |preds|);
    if live && sel.Some? then
      sb == preds[sel.value] && d == score[sel.value] + emit
    else
      d == -inf && sb == n
  }

  /** One cell of the recursion. */
  method ViterbiCell(prev: seq<real>, prevLive: Row, live: bool, preds: seq<nat>, logTrans: seq<map<nat, real>>,
                     i: nat, n: nat, emit: real, inf: real, zt: real) returns (d: real, sb: nat)
    requires zt >= 0.0
    requires forall k :: 0 <= k < |preds| ==> preds[k] < |prev| && preds[k] < |logTrans| && preds[k] < |prevLive|
    ensures CellOk(prev, prevLive, live, preds, logTrans, i, n, emit, inf, zt, d, sb)
  {
    d, sb := -inf, n;
    if live {
      var score := EdgeScores(prev, logTrans, preds, i);
      var eligible := LivePreds(prevLive, preds);
      var found, pos := Select(score, eligible, zt);
      if found {
        d, sb := score[pos] + emit, preds[pos];
      }
    }
  }

  /** The preconditions the decoder relies on: an n-state graph whose backward lists are the
      inverse of its forward lists, a frames x n reachability grid in which every reachable cell
      after frame 0 has a reachable backward neighbour (what the update guarantees), matching
      emission and transition tables, frame 0 live at starting states only (as the initial grid
      has it and the update keeps it), and the starting points listing the live cells of frame 0. */
  predicate DecoderInput(states: seq<SmallState>, g: Grid, sp: seq<nat>, emit: seq<seq<real>>,
                         logTrans: seq<map<nat, real>>)
  {
    var n := |states|;
    |g| >= 1 && Shaped(g, |g|, n) && Shaped(emit, |g|, n) && |logTrans| == n
    && Graph(ForwardLists(states), BackwardLists(states))
    && Mutual(ForwardLists(states), BackwardLists(states))
    && BackSupported(g, BackwardLists(states))
    && (forall i :: 0 <= i < n && g[0][i] ==> states[i].isStarting)
    && ListsOn(g[0], sp)
  }

  /** The reachability update only clears cells, so a grid whose frame 0 is live at starting
      states only still is after it. */
  lemma SweptStartsAtStarts(states: seq<SmallState>, g: Grid, fw: seq<seq<nat>>, bw: seq<seq<nat>>)
    requires |g| >= 1 && |g[0]| == |states|
    requires forall i :: 0 <= i < |states| && g[0][i] ==> states[i].isStarting
    ensures forall i :: 0 <= i < |states| && Swept(g, fw, bw)[0][i] ==> states[i].isStarting
  {
    forall i | 0 <= i < |states| && Swept(g, fw, bw)[0][i]
      ensures states[i].isStarting
    {
      OnlyClears(g, fw, bw, 0, i);
    }
  }

  /** All cells of frame f are as CellOk says. */
  predicate RowOk(states: seq<SmallState>, g: Grid, emit: seq<seq<real>>, logTrans: seq<map<nat, real>>,
                  inf: real, zt: real, prev: seq<real>, row: seq<real>, sbRow: seq<nat>, f: nat)
    requires 0 < f < |g| && Shaped(g, |g|, |states|) && Shaped(emit, |g|, |states|) && |logTrans| == |states|
    requires |prev| == |states| && LinksBelow(BackwardLists(states))
  {
    var n := |states|;
    |row| == n && |sbRow| == n
    && forall i :: 0 <= i < n ==>
         CellOk(prev, g[f - 1], g[f][i], states[i].backwardConnects, logTrans, i, n, emit[f][i], inf, zt, row[i], sbRow[i])
  }

  /** One frame of the recursion, cell by cell. */
  method ViterbiRow(states: seq<SmallState>, g: Grid, emit: seq<seq<real>>, logTrans: seq<map<nat, real>>,
                    inf: real, zt: real, prev: seq<real>, f: nat) returns (row: seq<real>, sbRow: seq<nat>)
    requires zt >= 0.0
    requires 0 < f < |g| && Shaped(g, |g|, |states|) && Shaped(emit, |g|, |states|) && |logTrans| == |states|
    requires |prev| == |states| && LinksBelow(BackwardLists(states))
    ensures RowOk(states, g, emit, logTrans, inf, zt, prev, row, sbRow, f)
  {
    var n := |states|;
    var bw := BackwardLists(states);
    row, sbRow := [], [];
    var i := 0;
    while i < n
      invariant i <= n && |row| == i && |sbRow| == i
      invariant forall i' :: 0 <= i' < i ==>
                  CellOk(prev, g[f - 1], g[f][i'], states[i'].backwardConnects, logTrans, i', n, emit[f][i'], inf, zt, row[i'], sbRow[i'])
    {
      assert bw[i] == states[i].backwardConnects;
      var d, sb := ViterbiCell(prev, g[f - 1], g[f][i], states[i].backwardConnects, logTrans, i, n, emit[f][i], inf, zt);
      row, sbRow := row + [d], sbRow + [sb];
      i := i + 1;
    }
  }

  /** Frame 0: the starting points score their emission, every other cell -inf. */
  method FirstRow(n: nat, sp: seq<nat>, emit0: seq<real>, inf: real) returns (row: seq<real>)
    requires |emit0| == n && forall k :: 0 <= k < |sp| ==> sp[k] < n
    ensures |row| == n && forall i :: 0 <= i < n ==> row[i] == if i in sp then emit0[i] else -inf
  {
    row := seq(n, _ => -inf);
    var k := 0;
    while k < |sp|
      invariant k <= |sp| && |row| == n
      invariant forall i :: 0 <= i < n ==> row[i] == if i in sp[..k] then emit0[i] else -inf
    {
      assert sp[..k + 1] == sp[..k] + [sp[k]];
      row := row[sp[k] := emit0[sp[k]]];
      k := k + 1;
    }
    assert sp[..|sp|] == sp;
  }

  /** Every reachable cell after frame 0 records a predecessor that is one of its backward links
      and reachable in the frame before. */
  predicate PredsRecorded(states: seq<SmallState>, g: Grid, sBefore: seq<seq<nat>>)
    requires Shaped(g, |g|, |states|) && Shaped(sBefore, |g|, |states|)
  {
    forall f, i :: 0 < f < |g| && 0 <= i < |states| && g[f][i] ==>
      sBefore[f][i] in states[i].backwardConnects && sBefore[f][i] < |states| && g[f - 1][sBefore[f][i]]
  }

  /** A back-supported grid gives every reachable cell a live predecessor, which the recursion records. */
  lemma RecordedFromRows(states: seq<SmallState>, g: Grid, emit: seq<seq<real>>, logTrans: seq<map<nat, real>>,
                         inf: real, zt: real, delta: seq<seq<real>>, sBefore: seq<seq<nat>>)
    requires Shaped(g, |g|, |states|) && Shaped(emit, |g|, |states|) && |logTrans| == |states|
    requires LinksBelow(BackwardLists(states)) && BackSupported(g, BackwardLists(states))
    requires Shaped(delta, |g|, |states|) && Shaped(sBefore, |g|, |states|)
    requires forall f :: 0 < f < |g| ==> RowOk(states, g, emit, logTrans, inf, zt, delta[f - 1], delta[f], sBefore[f], f)
    ensures PredsRecorded(states, g, sBefore)
  {
    var bw := BackwardLists(states);
    forall f, i | 0 < f < |g| && 0 <= i < |states| && g[f][i]
      ensures sBefore[f][i] in states[i].backwardConnects && sBefore[f][i] < |states| && g[f - 1][sBefore[f][i]]
    {
      assert RowOk(states, g, emit, logTrans, inf, zt, delta[f - 1], delta[f], sBefore[f], f);
      var preds := states[i].backwardConnects;
      assert preds == bw[i];
      var eligible := LivePreds(g[f - 1], preds);
      assert AnyOn(g[f - 1], bw[i]);
      var k :| 0 <= k < |preds| && preds[k] < |g[f - 1]| && g[f - 1][preds[k]];
      assert eligible[k];
      var score := EdgeScores(delta[f - 1], logTrans, preds, i);
      IncumbentFound(score, eligible, zt, |preds|);
      assert CellOk(delta[f - 1], g[f - 1], g[f][i], preds, logTrans, i, |states|, emit[f][i], inf, zt, delta[f][i], sBefore[f][i]);
      var pos := Incumbent(score, eligible, zt, |preds|).value;
      assert eligible[pos];
    }
  }

  /** Follows the recorded predecessors back from a reachable cell of the last frame. */
  method Backtrack(states: seq<SmallState>, g: Grid, sBefore: seq<seq<nat>>, last: nat) returns (p: seq<nat>)
    requires |g| >= 1 && Shaped(g, |g|, |states|) && Shaped(sBefore, |g|, |states|)
    requires PredsRecorded(states, g, sBefore)
    requires last < |states| && g[|g| - 1][last]
    ensures |p| == |g| && p[|g| - 1] == last
    ensures forall f :: 0 <= f < |g| ==> p[f] < |states| && g[f][p[f]]
    ensures forall f :: 0 <= f < |g| - 1 ==> p[f] == sBefore[f + 1][p[f + 1]]
  {
    var frames := |g|;
    p := seq(frames, _ => last);
    var f := frames - 1;
    while f > 0
      invariant 0 <= f < frames && |p| == frames && p[frames - 1] == last
      invariant forall f' :: f <= f' < frames ==> p[f'] < |states| && g[f'][p[f']]
      invariant forall f' :: f <= f' < frames - 1 ==> p[f'] == sBefore[f' + 1][p[f' + 1]]
    {
      var q := sBefore[f][p[f]];
      assert q < |states| && g[f - 1][q];
      p := p[f - 1 := q];
      f := f - 1;
    }
  }

  /** The recorded predecessors along a backtracked path are forward-linked to their successors. */
  lemma BacktrackLinked(states: seq<SmallState>, g: Grid, sBefore: seq<seq<nat>>, p: seq<nat>)
    requires |g| >= 1 && Shaped(g, |g|, |states|) && Shaped(sBefore, |g|, |states|)
    requires PredsRecorded(states, g, sBefore)
    requires Mutual(ForwardLists(states), BackwardLists(states))
    requires |p| == |g|
    requires forall f :: 0 <= f < |g| ==> p[f] < |states| && g[f][p[f]]
    requires forall f :: 0 <= f < |g| - 1 ==> p[f] == sBefore[f + 1][p[f + 1]]
    ensures forall f :: 0 <= f < |g| - 1 ==> p[f + 1] in states[p[f]].forwardConnects
  {
    var fw, bw := ForwardLists(states), BackwardLists(states);
    forall f | 0 <= f < |g| - 1
      ensures p[f + 1] in states[p[f]].forwardConnects
    {
      assert g[f + 1][p[f + 1]];
      assert p[f] in bw[p[f + 1]];
      assert p[f + 1] in fw[p[f]];
    }
  }

  datatype ViterbiError = NoReachableEnd

  /** Which small states may end the path: ending states reachable in the last frame. */
  function EndEligible(states: seq<SmallState>, lastLive: Row): (r: seq<bool>)
    requires |lastLive| == |states|
    ensures |r| == |states|
  {
    seq(|states|, i requires 0 <= i < |states| => states[i].isEnding && lastLive[i])
  }

  /** A decoded path: one reachable small state per frame, consecutive states joined by forward
      links, starting in a starting state and ending in an ending state. */
  predicate DecodedPath(states: seq<SmallState>, g: Grid, p: seq<nat>)
    requires Shaped(g, |g|, |states|)
  {
    |p| == |g| && |g| >= 1
    && (forall f :: 0 <= f < |g| ==> p[f] < |states| && g[f][p[f]])
    && (forall f :: 0 <= f < |g| - 1 ==> p[f + 1] in states[p[f]].forwardConnects)
    && states[p[0]].isStarting
    && states[p[|g| - 1]].isEnding
  }

  /** The decoder. Frame 0 scores the starting points; each later reachable cell picks a reachable
      backward link by the tolerance rule (Incumbent); the last state is the first best reachable
      ending state by strict comparison (the same rule with a zero tolerance); no such state is the fatal failure; otherwise the path
      is read back through the recorded predecessors. */
  method ViterbiAlgorithm(states: seq<SmallState>, g: Grid, sp: seq<nat>, emit: seq<seq<real>>,
                          logTrans: seq<map<nat, real>>, inf: real, zt: real)
    returns (res: Result<seq<nat>, ViterbiError>, delta: seq<seq<real>>, sBefore: seq<seq<nat>>)
    requires DecoderInput(states, g, sp, emit, logTrans) && zt >= 0.0
    ensures Shaped(delta, |g|, |states|) && Shaped(sBefore, |g|, |states|)
    ensures forall i :: 0 <= i < |states| ==> delta[0][i] == (if g[0][i] then emit[0][i] else -inf)
    ensures forall f :: 0 < f < |g| ==> RowOk(states, g, emit, logTrans, inf, zt, delta[f - 1], delta[f], sBefore[f], f)
    ensures res.Failure? <==> !AnyEligible(EndEligible(states, g[|g| - 1]))
    ensures res.Success? ==>
              DecodedPath(states, g, res.value)
              && Incumbent(delta[|g| - 1], EndEligible(states, g[|g| - 1]), 0.0, |states|) == Some(res.value[|g| - 1])
              && NearBest(delta[|g| - 1], EndEligible(states, g[|g| - 1]), res.value[|g| - 1], 0.0)
              && forall f :: 0 <= f < |g| - 1 ==> res.value[f] == sBefore[f + 1][res.value[f + 1]]
  {
    var n := |states|;
    var frames := |g|;
    var first := FirstRow(n, sp, emit[0], inf);
    assert forall i :: 0 <= i < n ==> (i in sp <==> g[0][i]);
    delta, sBefore := [first], [seq(n, _ => n)];
    var f := 1;
    while f < frames
      invariant 1 <= f <= frames && |delta| == f && |sBefore| == f
      invariant forall f' :: 0 <= f' < f ==> |delta[f']| == n && |sBefore[f']| == n
      invariant delta[0] == first
      invariant forall f' :: 0 < f' < f ==> RowOk(states, g, emit, logTrans, inf, zt, delta[f' - 1], delta[f'], sBefore[f'], f')
    {
      var row, sbRow := ViterbiRow(states, g, emit, logTrans, inf, zt, delta[f - 1], f);
      delta, sBefore := delta + [row], sBefore + [sbRow];
      f := f + 1;
    }
    var eligible := EndEligible(states, g[frames - 1]);
    var found, last := Select(delta[frames - 1], eligible, 0.0);
    if !found {
      return Failure(NoReachableEnd), delta, sBefore;
    }
    RecordedFromRows(states, g, emit, logTrans, inf, zt, delta, sBefore);
    var p := Backtrack(states, g, sBefore, last);
    BacktrackLinked(states, g, sBefore, p);
    res := Success(p);
  }

  /** Log-score of frames 0..f of a path: its emissions plus the transition log-probabilities
      between consecutive states. */
  function PathScore(p: seq<nat>, emit: seq<seq<real>>, logTrans: seq<map<nat, real>>, f: nat): real
    requires f < |p| && |p| <= |emit|
    requires forall f' :: 0 <= f' < |p| ==> p[f'] < |emit[f']| && p[f'] < |logTrans|
  {
    if f == 0 then emit[0][p[0]]
    else PathScore(p, emit, logTrans, f - 1) + TransLog(logTrans, p[f - 1], p[f]) + emit[f][p[f]]
  }

  /** A path through reachable cells, each state a backward link of the next one. */
  predicate LivePath(states: seq<SmallState>, g: Grid, q: seq<nat>)
    requires Shaped(g, |g|, |states|)
  {
    |q| == |g|
    && (forall f :: 0 <= f < |q| ==> q[f] < |states| && g[f][q[f]])
    && (forall f :: 0 <= f < |q| - 1 ==> q[f] in states[q[f + 1]].backwardConnects)
  }

  /** What the decoder's tables satisfy (the first three postconditions of ViterbiAlgorithm). */
  predicate Tables(states: seq<SmallState>, g: Grid, emit: seq<seq<real>>, logTrans: seq<map<nat, real>>,
                   inf: real, zt: real, delta: seq<seq<real>>, sBefore: seq<seq<nat>>)
  {
    |g| >= 1 && Shaped(g, |g|, |states|) && Shaped(emit, |g|, |states|) && |logTrans| == |states|
    && LinksBelow(BackwardLists(states))
    && Shaped(delta, |g|, |states|) && Shaped(sBefore, |g|, |states|)
    && (forall i :: 0 <= i < |states| ==> delta[0][i] == (if g[0][i] then emit[0][i] else -inf))
    && (forall f :: 0 < f < |g| ==> RowOk(states, g, emit, logTrans, inf, zt, delta[f - 1], delta[f], sBefore[f], f))
  }

  /** Along the decoded path, each delta entry is the path's own score up to that frame. */
  lemma {:induction false} DecodedScore(states: seq<SmallState>, g: Grid, emit: seq<seq<real>>,
                                        logTrans: seq<map<nat, real>>, inf: real, zt: real,
                                        delta: seq<seq<real>>, sBefore: seq<seq<nat>>, p: seq<nat>, f: nat)
    requires Tables(states, g, emit, logTrans, inf, zt, delta, sBefore)
    requires |p| == |g| && forall f' :: 0 <= f' < |g| ==> p[f'] < |states| && g[f'][p[f']]
    requires forall f' :: 0 <= f' < |g| - 1 ==> p[f'] == sBefore[f' + 1][p[f' + 1]]
    requires f < |g|
    ensures delta[f][p[f]] == PathScore(p, emit, logTrans, f)
  {
    if f > 0 {
      DecodedScore(states, g, emit, logTrans, inf, zt, delta, sBefore, p, f - 1);
      assert RowOk(states, g, emit, logTrans, inf, zt, delta[f - 1], delta[f], sBefore[f], f);
      var i := p[f];
      var preds := states[i].backwardConnects;
      assert CellOk(delta[f - 1], g[f - 1], g[f][i], preds, logTrans, i, |states|, emit[f][i], inf, zt, delta[f][i], sBefore[f][i]);
      assert sBefore[f][i] == p[f - 1] < |states|;
    }
  }

  /** With a zero tolerance the recursion is exact: no path through reachable cells scores more
      at frame f than delta records for the cell it is in. */
  lemma {:induction false} DeltaDominates(states: seq<SmallState>, g: Grid, emit: seq<seq<real>>,
                                          logTrans: seq<map<nat, real>>, inf: real,
                                          delta: seq<seq<real>>, sBefore: seq<seq<nat>>, q: seq<nat>, f: nat)
    requires Tables(states, g, emit, logTrans, inf, 0.0, delta, sBefore)
    requires LivePath(states, g, q) && f < |g|
    ensures PathScore(q, emit, logTrans, f) <= delta[f][q[f]]
  {
    if f > 0 {
      DeltaDominates(states, g, emit, logTrans, inf, delta, sBefore, q, f - 1);
      assert RowOk(states, g, emit, logTrans, inf, 0.0, delta[f - 1], delta[f], sBefore[f], f);
      var i := q[f];
      var preds := states[i].backwardConnects;
      assert q[f - 1] in preds;
      var k :| 0 <= k < |preds| && preds[k] == q[f - 1];
      CellDominates(delta[f - 1], g[f - 1], g[f][i], preds, logTrans, i, |states|, emit[f][i], inf,
                    delta[f][i], sBefore[f][i], k);
    }
  }

  /** With a zero tolerance a reachable cell's score is at least that of every live backward link. */
  lemma CellDominates(prev: seq<real>, prevLive: Row, live: bool, preds: seq<nat>, logTrans: seq<map<nat, real>>,
                      i: nat, n: nat, emit: real, inf: real, d: real, sb: nat, k: nat)
    requires forall k :: 0 <= k < |preds| ==> preds[k] < |prev| && preds[k] < |logTrans| && preds[k] < |prevLive|
    requires CellOk(prev, prevLive, live, preds, logTrans, i, n, emit, inf, 0.0, d, sb)
    requires live && k < |preds| && prevLive[preds[k]]
    ensures prev[preds[k]] + TransLog(logTrans, preds[k], i) + emit <= d
  {
    var score := EdgeScores(prev, logTrans, preds, i);
    var eligible := LivePreds(prevLive, preds);
    assert eligible[k];
    IncumbentFound(score, eligible, 0.0, |preds|);
    SelectedNearBest(score, eligible, 0.0);
    ExactWhenZero(score, eligible, Incumbent(score, eligible, 0.0, |preds|).value);
  }

  /** Viterbi optimality with a zero tolerance: the decoded path scores at least as much as any
      path through reachable cells that ends in a reachable ending state. */
  lemma DecodedIsOptimal(states: seq<SmallState>, g: Grid, emit: seq<seq<real>>,
                         logTrans: seq<map<nat, real>>, inf: real,
                         delta: seq<seq<real>>, sBefore: seq<seq<nat>>, p: seq<nat>, q: seq<nat>)
    requires Tables(states, g, emit, logTrans, inf, 0.0, delta, sBefore)
    requires |p| == |g| && forall f' :: 0 <= f' < |g| ==> p[f'] < |states| && g[f'][p[f']]
    requires forall f' :: 0 <= f' < |g| - 1 ==> p[f'] == sBefore[f' + 1][p[f' + 1]]
    requires NearBest(delta[|g| - 1], EndEligible(states, g[|g| - 1]), p[|g| - 1], 0.0)
    requires LivePath(states, g, q) && states[q[|g| - 1]].isEnding
    ensures PathScore(q, emit, logTrans, |g| - 1) <= PathScore(p, emit, logTrans, |g| - 1)
  {
    var last := |g| - 1;
    DeltaDominates(states, g, emit, logTrans, inf, delta, sBefore, q, last);
    DecodedScore(states, g, emit, logTrans, inf, 0.0, delta, sBefore, p, last);
    var eligible := EndEligible(states, g[last]);
    ExactWhenZero(delta[last], eligible, p[last]);
    assert eligible[q[last]];
  }
}
